=== FILE: README.md ===
# SwagImportExport: profile tree editor and customer adapter, in Dafny

This project models two parts of the Shopware import/export plugin and proves properties of them.

**The profile tree editor** lives in the backend controller. An import/export profile carries a mapping tree. Each node has:

- an id, a name, a type and an index;
- an optional bound shop column;
- for iterations, an adapter and a parent key;
- ordered children and ordered attributes.

The editor has five recursive helpers: `appendNode`, `getNodeById`, `moveNode`, `changeNode` and `deleteNode`. The create, update and delete actions run them in loops over a batch of requests. The module list for the tree is:

- `ProfileTree`: the node datatype, paths into a tree, the multiset of ids, and the four visiting orders of the searches.
- `TreeFind`, `TreeAppend`, `TreeChange`, `TreeDelete`: one helper each, every one proved against a "first match in its visiting order" specification.
- `NodeActions`: the three batch loops.
- `TreeView`: `convertToExtJSTree`, the view the editor shows.
- `ColumnListing`: the column list of `getColumnsAction` and the format whitelist of `isFormatValid`.

**The customer database adapter** has three parts:

- `CustomerColumns` derives the column lists. There are fixed columns, then attribute columns whose names are camel-cased. It also models section dispatch and the column filter of `read`.
- `CustomerPrepare` models the decisions `write` takes for one record. These are the customer lookup, the password rules, the required fields, the defaults, the payment fallback, and the split of the flat record into customer, billing and shipping parts.
- `CustomerWrite` models `write` itself. It is a fold over the records that stores customers and collects error messages. An error in strict mode, or an unknown customer group, ends the batch. It follows the code, including the shipping-copy test as written. The corrected test is stated on its own, in `CustomerPrepare.PrepareShipping`.

Two helper modules support the adapter model:

- `Php` holds the PHP semantics the adapter relies on: ordered string-keyed arrays with `isset`/`empty`/`unset`, `(int)` and string conversion.
- `Text` holds the string functions: `lcfirst`, `ucfirst`, `ucwords`, `trim`, `strtolower`, and the search behind the look-behind regular expressions.

Every outside service is a field of the `CustomerPrepare.Services` datatype. That covers the repositories, the entity validator, the password encoder, the configuration, the shop and group lookups, and the column-to-field maps. The fresh ids `uniqid()` would produce are a parameter of `NodeActions.CreateNodes`.

Some tree invariants are not enforced by the code: ids are unique, and a `leaf` has no children. The model follows the code here. Where a lemma needs unique ids, it says so in its `requires`.

## Model

| member | source | states |
|---|---|---|
| `TreeView.Convert` | Controllers/Backend/SwagImportExport.php:64-126 | The view of a node keeps its id, type, name, index and bound column. It is in an iteration when it or an ancestor is one. It carries the adapter of the nearest iteration, and a parent key only on the iteration itself. Its entries are the attributes as leaf entries, then the converted children. It is a leaf exactly when it is an iteration or `leaf` node with no attributes key and no children; `expanded` is the opposite. |
| `TreeView.ShownAttribute` | Controllers/Backend/SwagImportExport.php:83-101 | Every attribute of a node appears in the view as a leaf `attribute` entry, carrying the inherited adapter and iteration flag. |
| `TreeView.ShownChild` | Controllers/Backend/SwagImportExport.php:103-110 | A node below a child is shown correctly in the parent's view when it is shown correctly in the child's view, under the adapter and flag the child inherits. |
| `TreeView.ConvertAlong` | Controllers/Backend/SwagImportExport.php:64-126 | Every node reachable through children, and attributes at the last step, appears at the matching place of the view. Its adapter is that of its nearest iteration ancestor, and it is flagged in-iteration exactly when some ancestor or itself is an iteration. |
| `TreeFind.FindFailsIffAbsent` | Controllers/Backend/SwagImportExport.php:177-202 | `getNodeById` fails exactly when no node of the tree, in attributes or children at any depth, has the id. |
| `TreeFind.FindReturnsFirstMatch` | Controllers/Backend/SwagImportExport.php:177-202 | A successful lookup returns the node at the first match of the attributes-before-children pre-order. It comes with the id of the node above it, or the given top id for the root. |
| `TreeFind.FindAtFirstMatch` | Controllers/Backend/SwagImportExport.php:177-202 | Conversely, whenever a first match exists, the lookup returns exactly that node and its parent's id. |
| `TreeFind.FindUnique` | Controllers/Backend/SwagImportExport.php:177-202 | In a tree with unique ids, looking up the id of any node finds that node with its real parent's id, `root` at the top. |
| `TreeAppend.Payload` | Controllers/Backend/SwagImportExport.php:134-157 | The stored entry depends on the request type. `attribute` and `node` keep the id, name and bound column. `iteration` keeps the id, name, adapter and parent key. Any other type keeps only the id and name. No type or index is stored, and the entry has no children or attributes. |
| `TreeAppend.AttachFailsIffNoParent` | Controllers/Backend/SwagImportExport.php:131-172 | Appending fails exactly when no node reachable through children alone has the parent id; attributes are never searched. |
| `TreeAppend.AttachAtFirstMatch` | Controllers/Backend/SwagImportExport.php:131-172 | A successful append edits only the first matching node in children-only pre-order. The entry goes at the end of its attributes for an attribute, or of its children otherwise; the rest of the tree is the same. |
| `TreeAppend.AttachIds` | Controllers/Backend/SwagImportExport.php:131-172 | After a successful attach the tree's ids are the old ids plus those of the attached subtree. |
| `TreeAppend.AppendNodeSpec` | Controllers/Backend/SwagImportExport.php:131-172 | `appendNode` in full: it fails exactly when the parent is absent; otherwise it edits at the first match; on success it adds exactly the new id. |
| `NodeActions.MoveIds` | Controllers/Backend/SwagImportExport.php:207-236 | A successful `moveNode` adds exactly the ids of the whole moved subtree. |
| `TreeChange.Changed` | Controllers/Backend/SwagImportExport.php:243-263 | A changed node takes the request's name, index and bound column; an absent column removes it. Adapter and parent key follow the request only for an `iteration` request and are kept otherwise. Id, type, children and attributes stay. |
| `TreeChange.ChangeFailsIffAbsent` | Controllers/Backend/SwagImportExport.php:241-284 | `changeNode` fails exactly when no node of the tree has the id. |
| `TreeChange.ChangeAtFirstMatch` | Controllers/Backend/SwagImportExport.php:241-284 | At the first match in the children-before-attributes pre-order, the node is replaced by its changed form and nothing else changes. |
| `TreeChange.ChangeKeepsIds` | Controllers/Backend/SwagImportExport.php:241-284 | A change keeps the multiset of ids and the root. |
| `TreeDelete.DeleteFailsIffAbsent` | Controllers/Backend/SwagImportExport.php:289-311 | `deleteNode` fails exactly when no deletable node has the id. A deletable node is a non-root node reachable through children, or an attribute of such a node or of the root. |
| `TreeDelete.DeleteAtFirstMatch` | Controllers/Backend/SwagImportExport.php:289-311 | At the first match, with children examined and recursed into before the node's own attributes, exactly that node and its subtree are cut out. Its siblings keep their order. A node that loses an attribute keeps its `attributes` key, even when it becomes empty. |
| `TreeDelete.DeleteKeepsAttributesKey` | Controllers/Backend/SwagImportExport.php:301-305 | Removing an attribute, even the last one, leaves the node's `attributes` key, so a node that carried the key still does after a delete. |
| `TreeDelete.DeleteKeepsRoot` | Controllers/Backend/SwagImportExport.php:289-311 | The root is never deleted: a delete keeps the root's id, and deleting the root's own id fails when ids are unique. |
| `TreeDelete.DeleteRemovesSubtree` | Controllers/Backend/SwagImportExport.php:289-311 | With unique ids, a delete removes exactly the ids of one subtree whose root has the id; the id is gone afterwards and the ids stay unique. |
| `NodeActions.CreateComposes` | Controllers/Backend/SwagImportExport.php:340-345 | The create loop carries on after a failure. A batch is its first part then the rest, and reports success only when both parts do. |
| `NodeActions.CreateIds` | Controllers/Backend/SwagImportExport.php:340-345 | A create batch adds at most the fresh ids, and exactly those when every request succeeded. |
| `NodeActions.CreateKeepsIdsUnique` | Controllers/Backend/SwagImportExport.php:340-345 | When the fresh ids are new and distinct, the ids of the tree stay unique. |
| `NodeActions.UpdateComposes` | Controllers/Backend/SwagImportExport.php:374-393 | The update loop stops at the first failing request. A batch runs its second part only when the first part succeeded. |
| `NodeActions.UpdateStepKeepsIds` | Controllers/Backend/SwagImportExport.php:374-393 | A successful update request, including a move, keeps the multiset of ids in a tree with unique ids. |
| `NodeActions.UpdateNodesKeepsIds` | Controllers/Backend/SwagImportExport.php:374-393 | A successful update batch keeps the multiset of ids. |
| `NodeActions.ChangedNodeIsFound` | Controllers/Backend/SwagImportExport.php:375-380 | After a successful change, the lookup that follows it always finds the id. |
| `NodeActions.ChangeThenFind` | Controllers/Backend/SwagImportExport.php:374-380 | With unique ids, the change edits the node where it sits, and the lookup then returns that node with its parent's id. |
| `NodeActions.MoveUnderOwnSubtreeLosesIt` | Controllers/Backend/SwagImportExport.php:380-391 | Moving a node under a node of its own subtree fails and stops the batch. The delete has already happened, so every id of the subtree is gone from the stored tree. |
| `NodeActions.DeleteComposes` | Controllers/Backend/SwagImportExport.php:421-425 | The delete loop carries on after a failure. A batch is its first part then the rest. |
| `NodeActions.DeleteDropsAllOf` | Controllers/Backend/SwagImportExport.php:289-311 | With unique ids, deleting the id of a deletable node cuts out exactly its subtree, and none of the subtree's ids remain. |
| `NodeActions.DeleteShrinks` | Controllers/Backend/SwagImportExport.php:289-311 | A delete only removes ids. |
| `NodeActions.DeleteNodesShrinks` | Controllers/Backend/SwagImportExport.php:421-425 | A delete batch only removes ids and keeps them unique. |
| `NodeActions.DeleteNodesRemoves` | Controllers/Backend/SwagImportExport.php:421-425 | After a successful delete batch on a tree with unique ids, none of the requested ids remains. |
| `ColumnListing.MatchAfter` | Controllers/Backend/SwagImportExport.php:1077-1079 | The trimmed text after a pattern is empty when the pattern does not occur. When it is non-empty, it has no surrounding blanks and no line break. |
| `ColumnListing.ColumnAliasAsWritten` | Controllers/Backend/SwagImportExport.php:1075-1092 | The alias as the code takes it. A column with neither `as ` nor `.` is listed unchanged; any other alias is a clean name. `AliasAsWrittenOfAsColumn` gives its value for an ordinary `expr as alias` column. |
| `ColumnListing.ColumnAlias` | Controllers/Backend/SwagImportExport.php:1075-1092 | The same rule with the keyword ` as ` delimited by blanks. A column with neither is listed unchanged; any other alias is a clean name. On every column without `as ` it agrees with the rule as written, so the two differ only where `as ` occurs. |
| `ColumnListing.Entries` | Controllers/Backend/SwagImportExport.php:1075-1092 | The listing keeps the number and order of the columns, and each entry has the alias as both id and name. |
| `ColumnListing.AliasOfAsColumn` | Controllers/Backend/SwagImportExport.php:1077-1083 | For `expr as alias` with a blank-free expression, the listed name is the alias. |
| `ColumnListing.AliasAsWrittenOfAsColumn` | Controllers/Backend/SwagImportExport.php:1077-1083 | As written, an ordinary `expr as alias` (such as `customer.email as email`) is listed under the alias: the trimmed text after the first `as `, when the expression is one word that does not end in `as`. |
| `ColumnListing.AliasOfFieldColumn` | Controllers/Backend/SwagImportExport.php:1084-1088 | For `table.field` without a keyword, the listed name is the field. |
| `ColumnListing.AliasAsWrittenOfNameEndingInAs` | Controllers/Backend/SwagImportExport.php:1077-1083 | For an expression whose name ends in `as`, the code lists `as alias`, while the corrected rule lists the alias. |
| `ColumnListing.ExtrasColumnMisnamed` | Controllers/Backend/SwagImportExport.php:1077-1083 | The customer attribute field `extras` is listed as `as attrCustomerExtras` instead of `attrCustomerExtras`. |
| `ColumnListing.ColumnsActionAsWritten` | Controllers/Backend/SwagImportExport.php:1067-1096 | As written, the action always answers with a success listing. For `false` the data is `false` and the total 1. Otherwise each column is listed under its as-written alias, with the count. When the adapter has no columns, the "No colums found." message of the unreturned failure stays in the view next to the listing. |
| `ColumnListing.ColumnsAction` | Controllers/Backend/SwagImportExport.php:1067-1096 | As intended, the action answers "No colums found." exactly when the adapter gives `false` or an empty list. Otherwise it lists every column with its alias and the count, and no message. |
| `ColumnListing.MissingColumnsReportSuccess` | Controllers/Backend/SwagImportExport.php:1069-1096 | For an adapter answering `false`, the code reports success with data `false`, total 1 and the leftover message, where the failure response was intended. |
| `ColumnListing.IsFormatValid` | Controllers/Backend/SwagImportExport.php:1105-1114 | A file format is accepted exactly when it is `csv` or `xml`. |
| `CustomerColumns.CamelizeSnake` | Components/SwagImportExport/DbAdapters/CustomerDbAdapter.php:85-87 | Camel-casing a snake-case name drops each underscore and upper-cases the first letter of every later word, leaving the first word as it is. |
| `CustomerColumns.CamelizeName` | Components/SwagImportExport/DbAdapters/CustomerDbAdapter.php:87 | Camel-casing a column name made of letters, digits and underscores gives such a name again. |
| `CustomerColumns.Kept` | Components/SwagImportExport/DbAdapters/CustomerDbAdapter.php:81-84 | The attribute fields listed are exactly those of the table other than `id`, which the attribute-listing helper drops, and the group's foreign key, `userID`, `billingID` or `shippingID`. |
| `CustomerColumns.KeptInOrder` | Components/SwagImportExport/DbAdapters/CustomerDbAdapter.php:81-90 | The attribute fields keep the table's order: filtering a concatenation is the concatenation of the filtered parts. |
| `CustomerColumns.GroupColumns` | Components/SwagImportExport/DbAdapters/CustomerDbAdapter.php:46-98 | A group's columns are its fixed columns in their order. Then, for each kept attribute field, comes `prefix.camel as attrGroup` plus `ucwords(camel)`. |
| `CustomerColumns.AttributeColumnAlias` | Components/SwagImportExport/DbAdapters/CustomerDbAdapter.php:89 | The alias of an attribute column, under the corrected listing rule, is `attrGroup` plus the capitalised camel-cased field. |
| `CustomerColumns.GroupAliases` | Components/SwagImportExport/DbAdapters/CustomerDbAdapter.php:46-98 | Under the corrected listing rule, every column of a group is listed under its alias: the fixed alias for a well-formed fixed column, the attribute alias for an attribute column. The rule as written misnames attribute fields ending in `as` (`ColumnListing.AliasAsWrittenOfNameEndingInAs`). |
| `CustomerColumns.AttributeAliasRoundTrip` | Components/SwagImportExport/DbAdapters/CustomerDbAdapter.php:89 | An attribute alias starts with its group's prefix. The rest, with `lcfirst`, gives back the camel-cased field. |
| `CustomerColumns.GetColumnsBySection` | Components/SwagImportExport/DbAdapters/CustomerDbAdapter.php:587-596 | `getColumns` returns the default, customer, billing or shipping list for those four section names in any letter case, and `false` for any other name. |
| `CustomerColumns.SectionsHaveColumns` | Components/SwagImportExport/DbAdapters/CustomerDbAdapter.php:33-44 | The one announced section, `default`, selects the default list: the customer, billing and shipping columns in that order. |
| `CustomerColumns.ReadColumns` | Components/SwagImportExport/DbAdapters/CustomerDbAdapter.php:201-205 | `read` selects every requested column except `unhashedPassword`. |
| `CustomerColumns.ReadColumnsInOrder` | Components/SwagImportExport/DbAdapters/CustomerDbAdapter.php:201-205 | `read` keeps the selected columns in their given order: a column on its own is kept unless it is `unhashedPassword`, and filtering a concatenation is the concatenation of the filtered parts. |
| `CustomerColumns.UnhashedPasswordOnlyForImport` | Components/SwagImportExport/DbAdapters/CustomerDbAdapter.php:48-52 | `unhashedPassword` is among the default columns, but reading never selects it. |
| `CustomerColumns.StreetNumberNotListed` | Components/SwagImportExport/DbAdapters/CustomerDbAdapter.php:643-656 | `billingStreetnumber` is a required field of a new customer, but no fixed column and no attribute column of any group has that alias. |
| `CustomerPrepare.Lookup` | Components/SwagImportExport/DbAdapters/CustomerDbAdapter.php:398-399 | A key is mapped exactly when some map entry has it as its column; when the columns are distinct, it maps to that entry's field. |
| `CustomerPrepare.LocateCustomer` | Components/SwagImportExport/DbAdapters/CustomerDbAdapter.php:264-295 | A non-empty id that finds a customer wins. Otherwise an empty email is an error. Then the customers with the email, account mode and shop decide: more than one gives "multiple email", exactly one gives that customer, and none makes the record a new customer. Each result occurs only in its own case. |
| `CustomerPrepare.ApplyPassword` | Components/SwagImportExport/DbAdapters/CustomerDbAdapter.php:297-310 | With a non-empty plain password and an empty `password`: an empty `encoder` becomes the default encoder, `password` becomes the encoded plain password, and the plain password is removed. Nothing else changes. |
| `CustomerPrepare.HashedPasswordPairs` | Components/SwagImportExport/DbAdapters/CustomerDbAdapter.php:297-318 | When a plain password is hashed, an encoder is available and the hash is non-empty, the record has both a password and an encoder, so the existing-customer pair check passes. |
| `CustomerPrepare.CheckRequiredFields` | Components/SwagImportExport/DbAdapters/CustomerDbAdapter.php:643-666 | No error exactly when all eleven required fields are filled. Otherwise the error names the first empty field in declared order, with the record's email. |
| `CustomerPrepare.PreparePayment` | Components/SwagImportExport/DbAdapters/CustomerDbAdapter.php:494-513 | Without a sub-shop the global default is used; otherwise the first that exists of the sub-shop value, the main-shop value and the global default. |
| `CustomerPrepare.WithDefaults` | Components/SwagImportExport/DbAdapters/CustomerDbAdapter.php:324-331 | `active` becomes 1 and `paymentID` the payment fallback, each only when absent or `''`; every other key is unchanged. |
| `CustomerPrepare.Remaining` | Components/SwagImportExport/DbAdapters/CustomerDbAdapter.php:393-402 | After a part is split off, the record keeps exactly the keys the part did not take, with their values. |
| `CustomerPrepare.ConsumeReads` | Components/SwagImportExport/DbAdapters/CustomerDbAdapter.php:393-402 | A field or attribute of the part has the value of the last record key that fills it, or the value it had before when no key does. |
| `CustomerPrepare.LastFillingOfOnly` | Components/SwagImportExport/DbAdapters/CustomerDbAdapter.php:393-402 | When one key alone fills a field, the field gets that key's value. |
| `CustomerPrepare.ImportedAttribute` | Components/SwagImportExport/DbAdapters/CustomerDbAdapter.php:394-396 | A value imported under an attribute column's alias lands in the attribute under the camel-cased field name. |
| `CustomerPrepare.PrepareCustomer` | Components/SwagImportExport/DbAdapters/CustomerDbAdapter.php:368-422 | An unknown shop refuses the record. A non-empty unknown customer group aborts the batch, naming the key. Exactly when the shop exists and the group key is empty or names a group, the result is the finished customer part and the rest of the record. |
| `CustomerPrepare.FixUpFields` | Components/SwagImportExport/DbAdapters/CustomerDbAdapter.php:404-417 | A non-empty group key sets the group, and a non-empty hashed password sets the raw password; every other field is unchanged. |
| `CustomerPrepare.FinishCustomerPart` | Components/SwagImportExport/DbAdapters/CustomerDbAdapter.php:393-417 | The customer part holds what the split took, with the group and raw password set from the group key and hashed password. |
| `CustomerPrepare.FinishCustomerRest` | Components/SwagImportExport/DbAdapters/CustomerDbAdapter.php:393-419 | The rest of the record keeps exactly the unconsumed keys except `hashPassword`, with their values. |
| `CustomerPrepare.CopyBillingData` | Components/SwagImportExport/DbAdapters/CustomerDbAdapter.php:468-477 | When the shipping address is copied, each field that some set shipping column maps to gets the billing value. |
| `CustomerPrepare.CopyBillingRest` | Components/SwagImportExport/DbAdapters/CustomerDbAdapter.php:468-477 | Copying unsets every shipping column of the map and keeps every other key. |
| `CustomerPrepare.ShippingLastnameLost` | Components/SwagImportExport/DbAdapters/CustomerDbAdapter.php:468 | As written, a new customer with a shipping last name but no shipping first name gets the billing last name as shipping last name. |
| `CustomerPrepare.ShippingLastnameKept` | Components/SwagImportExport/DbAdapters/CustomerDbAdapter.php:468-491 | As intended, the same record keeps its shipping last name. |
| `CustomerWrite.CustomerId` | Components/SwagImportExport/DbAdapters/CustomerDbAdapter.php:321-337 | A new customer's id is empty when the shipping part is prepared. |
| `CustomerWrite.Admit` | Components/SwagImportExport/DbAdapters/CustomerDbAdapter.php:264-322 | A lookup error refuses the record. An existing customer needs a consistent password/encoder pair, else the error names the email. A new customer needs every required field, and a refusal is the first missing field. Conversely, a located record that passes its rule is admitted. An admitted record is the record after the password rule. |
| `CustomerWrite.EncoderUpdate` | Components/SwagImportExport/DbAdapters/CustomerDbAdapter.php:352-358 | The encoder is written back exactly when the customer part has a non-empty encoder name. The name written is `lcfirst` of that name: same length, first character lower-cased, the rest unchanged. |
| `CustomerWrite.EncoderNameKept` | Components/SwagImportExport/DbAdapters/CustomerDbAdapter.php:352-358 | A filled encoder name that does not start with a capital is written back unchanged. |
| `CustomerWrite.Prepare` | Components/SwagImportExport/DbAdapters/CustomerDbAdapter.php:324-337 | After the defaults, the customer part is prepared first and its failure is the record's. The billing part is taken from what the customer part left. The shipping part follows `prepareShipping` as written, with its always-true last-name test, from what the billing part left. |
| `CustomerWrite.WriteRecord` | Components/SwagImportExport/DbAdapters/CustomerDbAdapter.php:261-360 | A stored record was located, passed the password or required-field rule, and passed validation, and it carries the encoder to write back. Its customer, billing and shipping data are those of `CustomerWrite.Prepare`, shipping included. A lookup error or an admission refusal refuses it, and a preparation failure is its failure. After admission and preparation it is stored exactly when the validator accepts the data; otherwise it is refused as an invalid customer, naming the email left in the record. Only an unknown group aborts. |
| `CustomerWrite.StoredWhenChecksPass` | Components/SwagImportExport/DbAdapters/CustomerDbAdapter.php:264-349 | A record that is located, passes the password or required-field rule, has an existing shop and an empty or known group key is prepared. It is then stored exactly when the validator accepts the prepared data. |
| `CustomerWrite.WriteCopiesBillingLastname` | Components/SwagImportExport/DbAdapters/CustomerDbAdapter.php:333-337 | In `write`, a new customer with a shipping last name but no shipping first name is stored with the billing last name as its shipping last name. |
| `CustomerWrite.NewCustomerNeedsStreetNumber` | Components/SwagImportExport/DbAdapters/CustomerDbAdapter.php:319-320 | A new customer without a billing street number is always refused for a missing field. |
| `CustomerWrite.ExistingNeedsNoRequiredFields` | Components/SwagImportExport/DbAdapters/CustomerDbAdapter.php:312-318 | An existing customer is never refused for a missing required field. |
| `CustomerWrite.SaveMessage` | Components/SwagImportExport/DbAdapters/CustomerDbAdapter.php:537-546 | In strict error mode the message ends the batch and is not logged; otherwise exactly that one message is appended. |
| `CustomerWrite.FatalOf` | Components/SwagImportExport/DbAdapters/CustomerDbAdapter.php:361-364 | A record ends the batch when its group is unknown, or when it is refused in strict mode; a stored record never does. |
| `CustomerWrite.Accounted` | Components/SwagImportExport/DbAdapters/CustomerDbAdapter.php:261-365 | Without a batch-ending error, the stored records and the refused records together number all the records. |
| `CustomerWrite.RunWithoutFatal` | Components/SwagImportExport/DbAdapters/CustomerDbAdapter.php:261-365 | Without a batch-ending error, the batch stores the stored records and logs the refusals, both in record order. |
| `CustomerWrite.RunUpToFatal` | Components/SwagImportExport/DbAdapters/CustomerDbAdapter.php:261-365 | With a batch-ending error at record `i`, only the records before `i` are stored or logged, and the batch ends with that error. |
| `CustomerWrite.RunAfterAbort` | Components/SwagImportExport/DbAdapters/CustomerDbAdapter.php:361-364 | Once the batch has ended, later records change nothing. |
| `CustomerWrite.RunComposes` | Components/SwagImportExport/DbAdapters/CustomerDbAdapter.php:261-365 | Writing two batches one after the other is writing their concatenation. |
| `CustomerWrite.WriteComposes` | Components/SwagImportExport/DbAdapters/CustomerDbAdapter.php:261-365 | The write of a concatenation continues from the log of the first part. |
| `CustomerWrite.StrictLogsNothing` | Components/SwagImportExport/DbAdapters/CustomerDbAdapter.php:537-546 | In strict error mode the log never receives a message. |
| `Php.IntCastOfStrVal` | Components/SwagImportExport/DbAdapters/CustomerDbAdapter.php:277 | The `(int)` cast of `accountMode` reads back any integer given in its printed form. |

## Left out

- Persistence and transport are not modelled. This covers loading, persisting and flushing the profile and the customer, JSON encoding of the tree, and the sparse keys `unset` leaves behind. The tree is a datatype with sequences, and a delete closes the gap.
- `uniqid()` is not modelled; the fresh ids are a parameter of the create loop.
- The ORM, the SQL queries, the entity validator, the password encoder, the column-to-field mapping helper and the snippet texts are all outside services. They are uninterpreted fields of `Services`, so errors carry a kind and the offending value rather than a message text.
- The `write` event filter is not modelled: `CustomerWrite.Write` takes the records as the filter returns them.
- WriteComposes: every record is looked up against one fixed `Services`. A customer persisted and flushed by an earlier record of the batch is not visible to a later record's lookup, as it is in PHP. So two records with the same new email are both treated as new customers. The composition holds for the model, whose records are independent, and not for a database that changes during the batch.
- Outcomes: each record's outcome is computed on its own against the same `Services`, for the same reason.
- PHP's loose `==` between strings and numbers is not modelled: ids, types and keys are compared as strings.
- `(int)` is modelled on decimal digits only. Exponents, hexadecimal and 64-bit saturation are not modelled.
- `GetColumns` gives `None` for the empty section name. In PHP, `getColumns('')` finds the method `getColumns` itself and calls it without an argument, and that call is not modelled.
- `getNodeById`'s `false` result after a successful change cannot occur (`NodeActions.ChangedNodeIsFound`), so its consequences in the update loop are not followed further.
- `/e` evaluation of the camel-casing replacement is modelled as upper-casing the character after each underscore. The quoting of that character inside the evaluated code is not modelled.
- Camel-cased attribute names are capitalised with `ucwords`, as the code does. That equals `ucfirst` on a single word (`Text.UcwordsOfWord`).
- `CustomerColumns.Camelize`: its own contract states only length and the identity on names without underscores. Its content is stated by `CustomerColumns.CamelizeSnake` and `CustomerColumns.CamelizeUnderscored`.
- `CustomerColumns.GroupAliases`: the fixed columns' aliases are stated under `CustomerColumns.WellFormedBase`, which every listed fixed column meets. It is not proved over the literal lists, because unfolding them is too costly for the verifier.
- The "invalid customer" message uses the email read after the record was split. As in the code, that email is gone when the customer map consumed it.
- The shop and the customer group are represented by their id and key. The entity graph built by `fromArray` is not modelled.
- The controller's `No profile Id` early return and the profile factory are not modelled; the columns are a parameter of the action.

## Findings

| source | as written | input that shows it | evidently intended | confidence | as-written member | corrected member |
|---|---|---|---|---|---|---|
| Components/SwagImportExport/DbAdapters/CustomerDbAdapter.php:468 | The copy condition tests `empty($params['shippingLastname'])`; `$params` is undefined, so the test is always true | A new customer with `shippingLastname` = `Smith`, an empty `shippingFirstname` and a billing last name `Doe`: the shipping last name becomes `Doe` | Test `$record['shippingLastname']`, so a given shipping last name stops the copy | high; not executed | `CustomerPrepare.ShippingLastnameLost` | `CustomerPrepare.ShippingLastnameKept` |
| Controllers/Backend/SwagImportExport.php:1069-1073 | The "No colums found." response is assigned but not returned | An adapter whose `getColumns` answers `false`: the action reports success with data `false`, total 1 and the leftover message in the view | Return the failure response | high; not executed | `ColumnListing.MissingColumnsReportSuccess` | `ColumnListing.ColumnsAction` |
| Controllers/Backend/SwagImportExport.php:1077 | The alias is the text after the first `as `, which may end a name | The customer attribute column `attribute.extras as attrCustomerExtras` is listed as `as attrCustomerExtras` | Take the text after the keyword ` as ` with a blank on both sides | high; not executed | `ColumnListing.ExtrasColumnMisnamed` | `ColumnListing.AliasOfAsColumn` |

=== FILE: column_listing.dfy ===
/**
 * The column list of `getColumnsAction` and the format whitelist of `isFormatValid`.
 * A database adapter's columns are select expressions such as `customer.email as email`;
 * the editor lists each one under its alias.
 */
module ColumnListing {
  import opened Wrappers
  import opened Text

  /**
   * `trim` of what `preg_match('/(?<=pat).*' ...)` captures: the rest of the line after
   * the first occurrence of `pat`, or the empty string when there is no match.
   */
  function MatchAfter(c: string, pat: string): (m: string)
    ensures !Occurs(c, pat) ==> m == ""
    ensures m != "" ==> CleanName(m)
  {
    match AfterFirst(c, pat)
    case None => ""
    case Some(rest) => Trim(FirstLine(rest))
  }

  /**
   * The alias as written: the text after the first `as `, else the text after `.`, else
   * the column itself. The first `as ` may end a name (`attribute.extras as ...`).
   */
  function ColumnAliasAsWritten(c: string): (a: string)
    ensures !Occurs(c, "as ") && !Occurs(c, ".") ==> a == c
    ensures a != c ==> CleanName(a)
  {
    var m := MatchAfter(c, "as ");
    if m != "" then m
    else
      var d := MatchAfter(c, ".");
      if d != "" then d else c
  }

  /**
   * The alias as evidently intended: the text after the first ` as `, the keyword with a
   * blank on both sides, else the text after `.`, else the column itself.
   */
  function ColumnAlias(c: string): (a: string)
    ensures !Occurs(c, " as ") && !Occurs(c, ".") ==> a == c
    ensures a != c ==> CleanName(a)
    ensures !Occurs(c, "as ") ==> a == ColumnAliasAsWritten(c)
  {
    KeywordContainsAs(c);
    var m := MatchAfter(c, " as ");
    if m != "" then m
    else
      var d := MatchAfter(c, ".");
      if d != "" then d else c
  }

  /** Every occurrence of the keyword ` as ` holds an occurrence of `as `. */
  lemma KeywordContainsAs(c: string)
    ensures Occurs(c, " as ") ==> Occurs(c, "as ")
  {
    if Occurs(c, " as ") {
      var j: nat :| j <= |c| && OccursAt(c, " as ", j);
      assert c[j + 1..j + 4] == c[j..j + 4][1..];
      assert OccursAt(c, "as ", j + 1);
    }
  }

  /** One entry of the listed columns: the alias as both id and name. */
  datatype ColumnEntry = ColumnEntry(id: string, name: string)

  /** The listed entries, given how a column's alias is taken. */
  function Entries(cols: seq<string>, alias: string -> string): (r: seq<ColumnEntry>)
    ensures |r| == |cols|
    ensures forall i :: 0 <= i < |cols| ==> r[i].id == r[i].name == alias(cols[i])
  {
    seq(|cols|, i requires 0 <= i < |cols| => ColumnEntry(alias(cols[i]), alias(cols[i])))
  }

  function ColumnEntries(cols: seq<string>): seq<ColumnEntry> {
    Entries(cols, ColumnAlias)
  }

  /** The message of the "no columns" response. */
  const NoColumnsMessage := "No colums found."

  /**
   * The response of `getColumnsAction`. A success listing's `data` is `None` when the
   * adapter answers `false`, whose PHP `count` is 1. `leftover` is a `msg` an earlier
   * assignment left in the view next to the listing.
   */
  datatype ColumnsResponse =
    | Listed(data: Option<seq<ColumnEntry>>, total: nat, leftover: Option<string>)
    | NoColumns(msg: string)

  /**
   * The action as written: the "no columns" response is assigned but not returned, so the
   * success response that follows is merged over it and its message stays in the view.
   */
  function ColumnsActionAsWritten(columns: Option<seq<string>>): (r: ColumnsResponse)
    ensures r.Listed?
    ensures r.leftover.Some? <==> columns.None? || |columns.value| == 0
    ensures r.leftover.Some? ==> r.leftover.value == NoColumnsMessage
    ensures columns.None? ==> r.data.None? && r.total == 1
    ensures columns.Some? ==>
      r.data.Some? && r.total == |columns.value| == |r.data.value| &&
      forall i :: 0 <= i < |columns.value| ==>
        r.data.value[i].id == r.data.value[i].name == ColumnAliasAsWritten(columns.value[i])
  {
    var leftover := if columns.None? || |columns.value| == 0 then Some(NoColumnsMessage) else None;
    match columns
    case None => Listed(None, 1, leftover)
    case Some(cols) => Listed(Some(Entries(cols, ColumnAliasAsWritten)), |cols|, leftover)
  }

  /** The action as evidently intended: no columns (`false` or an empty list) is a failure. */
  function ColumnsAction(columns: Option<seq<string>>): (r: ColumnsResponse)
    ensures r.NoColumns? <==> columns.None? || |columns.value| == 0
    ensures r.NoColumns? ==> r.msg == NoColumnsMessage
    ensures r.Listed? ==>
      r.data == Some(ColumnEntries(columns.value)) && r.total == |columns.value| && r.leftover.None?
  {
    if columns.None? || |columns.value| == 0 then NoColumns(NoColumnsMessage)
    else Listed(Some(ColumnEntries(columns.value)), |columns.value|, None)
  }

  /** An adapter without columns for a section still gets a success response. */
  lemma MissingColumnsReportSuccess()
    ensures ColumnsActionAsWritten(None) == Listed(None, 1, Some(NoColumnsMessage))
    ensures ColumnsAction(None) == NoColumns(NoColumnsMessage)
  {
  }

  const SupportedFormats: set<string> := {"csv", "xml"}

  /** `isFormatValid`. */
  function IsFormatValid(extension: string): (b: bool)
    ensures b <==> extension in SupportedFormats
  {
    match extension
    case "csv" => true
    case "xml" => true
    case _ => false
  }

  // ---------------------------------------------------------------------------

  /** Where `pat` starts in `e + pat + a` when `pat` does not occur in `e + pat[..|pat| - 1]`. */
  lemma FirstOccurrenceAfter(e: string, pat: string, a: string)
    requires |pat| > 0 && !Occurs(e + pat[..|pat| - 1], pat)
    ensures AfterFirst(e + pat + a, pat) == Some(a)
  {
    var c := e + pat + a;
    var k := |e|;
    assert c[k..k + |pat|] == pat;
    assert OccursAt(c, pat, k);
    forall i: nat | i < k ensures !OccursAt(c, pat, i) {
      var pre := e + pat[..|pat| - 1];
      assert c[..k + |pat| - 1] == pre;
      if i + |pat| <= k + |pat| - 1 {
        assert pre[i..i + |pat|] == c[i..i + |pat|];
        assert !OccursAt(pre, pat, i);
      }
    }
    var rest := AfterFirst(c, pat).value;
    var j: nat :| OccursAt(c, pat, j) && (forall i: nat :: i < j ==> !OccursAt(c, pat, i)) && rest == c[j + |pat|..];
    assert j == k;
  }

  /** `pat` cannot occur in a string that lacks one of its characters. */
  lemma NotOccursWithout(s: string, pat: string, ch: char)
    requires ch in pat && ch !in s
    ensures !Occurs(s, pat)
  {
    forall j: nat | j <= |s| ensures !OccursAt(s, pat, j) {
      var i :| 0 <= i < |pat| && pat[i] == ch;
      if j + |pat| <= |s| {
        assert s[j..j + |pat|][i] == s[j + i];
      }
    }
  }

  /** A clean single-line name survives the trimming of a match. */
  lemma MatchOfClean(e: string, pat: string, a: string)
    requires |pat| > 0 && !Occurs(e + pat[..|pat| - 1], pat)
    requires CleanName(a)
    ensures MatchAfter(e + pat + a, pat) == a
  {
    FirstOccurrenceAfter(e, pat, a);
    FirstLineOfLine(a);
    TrimOfTrimmed(a);
  }

  /** A predicate for the names the lemmas below are about: non-empty, one line, no surrounding blanks. */
  predicate CleanName(a: string) {
    |a| > 0 && !IsTrimmed(a[0]) && !IsTrimmed(a[|a| - 1]) && '\n' !in a
  }

  lemma NoBlankIn(x: string, y: string)
    requires ' ' !in x && ' ' !in y
    ensures ' ' !in x + y
  {
    assert forall i :: 0 <= i < |x + y| ==> (x + y)[i] == if i < |x| then x[i] else y[i - |x|];
  }

  /** The keyword ` as ` does not occur in a blank-free word followed by ` as`. */
  lemma NoKeywordBefore(e: string)
    requires ' ' !in e
    ensures !Occurs(e + " as", " as ")
  {
    var s := e + " as";
    forall j: nat | j <= |s| ensures !OccursAt(s, " as ", j) {
      if j + 4 <= |s| {
        assert s[j..j + 4][0] == s[j] && s[j..j + 4][3] == s[j + 3];
        if j + 3 < |e| {
          assert s[j + 3] == e[j + 3];
        } else {
          assert j + 3 == |e| || s[j + 3] != ' ';
          assert s[j] == e[j];
        }
      }
    }
  }

  /**
   * A select expression `e as a`, `e` a single word, is listed under `a` when `a` is a
   * clean name.
   */
  lemma AliasOfAsColumn(e: string, a: string)
    requires ' ' !in e && CleanName(a)
    ensures ColumnAlias(e + " as " + a) == a
  {
    assert " as "[..3] == " as";
    NoKeywordBefore(e);
    MatchOfClean(e, " as ", a);
  }

  /** Regroupings of an `e as a` column around its blank. */
  lemma SplitAs(e: string, a: string)
    ensures e + " as" == (e + " ") + "as"
    ensures e + " as " + a == (e + " ") + "as " + a
  {
  }

  /**
   * As written, a select expression `e as a` is listed under `a` when `e` is a single word
   * that does not end in `as` and `a` is a clean name: the first `as ` is the keyword.
   */
  lemma AliasAsWrittenOfAsColumn(e: string, a: string)
    requires ' ' !in e && !Occurs(e + " as", "as ") && CleanName(a)
    ensures ColumnAliasAsWritten(e + " as " + a) == a
  {
    SplitAs(e, a);
    assert "as "[..2] == "as";
    MatchOfClean(e + " ", "as ", a);
  }

  /** A column `t.f` without an alias is listed under `f`. */
  lemma AliasOfFieldColumn(t: string, f: string)
    requires ' ' !in t && ' ' !in f && '.' !in t && CleanName(f)
    ensures ColumnAlias(t + "." + f) == f
  {
    NoBlankIn(t + ".", f);
    NotOccursWithout(t + "." + f, " as ", ' ');
    assert t + "."[..0] == t;
    NotOccursWithout(t, ".", '.');
    MatchOfClean(t, ".", f);
  }

  /** A clean name stays clean behind `as `. */
  lemma CleanAfterAs(a: string)
    requires CleanName(a)
    ensures CleanName("as " + a)
  {
    var b := "as " + a;
    assert b[0] == 'a' && b[|b| - 1] == a[|a| - 1];
    assert forall i :: 0 <= i < |b| ==> b[i] == if i < 3 then "as "[i] else a[i - 3];
  }

  lemma NoAsInWord(w: string)
    requires ' ' !in w
    ensures !Occurs(w + "as", "as ")
  {
    NoBlankIn(w, "as");
    NotOccursWithout(w + "as", "as ", ' ');
  }

  lemma MatchAfterWordEndingInAs(w: string, b: string)
    requires !Occurs(w + "as", "as ") && CleanName(b)
    ensures MatchAfter(w + "as " + b, "as ") == b
  {
    assert "as "[..2] == "as";
    MatchOfClean(w, "as ", b);
  }

  /**
   * Regroupings of the column text. They stay in lemmas of their own: stated inside the
   * alias lemmas, the literal strings make those proofs too costly.
   */
  lemma SplitAsAs(w: string, a: string)
    ensures w + "as " + ("as " + a) == w + "as as " + a
    ensures w + "as" + " as " + a == w + "as as " + a
  {
  }

  /** Where the alias as written goes wrong: `w + "as"` is a word that ends in `as`. */
  lemma MatchOfWordEndingInAs(w: string, a: string)
    requires ' ' !in w && CleanName(a)
    ensures MatchAfter(w + "as as " + a, "as ") == "as " + a
  {
    CleanAfterAs(a);
    NoAsInWord(w);
    MatchAfterWordEndingInAs(w, "as " + a);
    SplitAsAs(w, a);
  }

  /**
   * A column `e as a` whose expression `e` ends in `as` is listed under `as a` as written
   * and under `a` as intended.
   */
  lemma AliasAsWrittenOfNameEndingInAs(w: string, a: string)
    requires ' ' !in w && CleanName(a)
    ensures ColumnAliasAsWritten(w + "as as " + a) == "as " + a
    ensures ColumnAlias(w + "as as " + a) == a
  {
    MatchOfWordEndingInAs(w, a);
    NoBlankIn(w, "as");
    AliasOfAsColumn(w + "as", a);
    SplitAsAs(w, a);
  }

  /**
   * The literal facts about the `extras` column, kept apart from the lemma that uses them:
   * unfolded there, the literals make its proof too costly.
   */
  lemma ExtrasWords()
    ensures ' ' !in "attribute.extr" && CleanName("attrCustomerExtras")
  {
  }

  lemma ExtrasText(c: string)
    requires c == "attribute.extras as attrCustomerExtras"
    ensures "attribute.extr" + "as as " + "attrCustomerExtras" == c
  {
  }

  lemma ExtrasListed()
    ensures "as " + "attrCustomerExtras" == "as attrCustomerExtras"
  {
  }

  /** The concrete case: an attribute column `extras` of the customer attribute table. */
  lemma ExtrasColumnMisnamed(c: string)
    requires c == "attribute.extras as attrCustomerExtras"
    ensures ColumnAliasAsWritten(c) == "as attrCustomerExtras"
    ensures ColumnAlias(c) == "attrCustomerExtras"
  {
    ExtrasWords();
    ExtrasText(c);
    ExtrasListed();
    AliasAsWrittenOfNameEndingInAs("attribute.extr", "attrCustomerExtras");
  }
}

=== FILE: customer_columns.dfy ===
/**
 * The select columns of the customer adapter: a fixed list per group (customer, billing,
 * shipping address) followed by one column per attribute-table field, the section lookup
 * behind `getColumns`, and the column filter of `read`.
 *
 * The attribute-table fields (what `SHOW COLUMNS` reports) are a parameter.
 */
module CustomerColumns {
  import opened Wrappers
  import opened Text
  import opened ColumnListing

  datatype Group = Customer | Billing | Shipping

  /** The attribute table whose fields become columns of the group. */
  function AttributeTable(g: Group): string {
    match g
    case Customer => "s_user_attributes"
    case Billing => "s_user_billingaddress_attributes"
    case Shipping => "s_user_shippingaddress_attributes"
  }

  /** The query alias of the group's attribute entity. */
  function TablePrefix(g: Group): string {
    match g
    case Customer => "attribute"
    case Billing => "billingAttribute"
    case Shipping => "shippingAttribute"
  }

  /** The prefix of the group's attribute aliases, which the import side strips again. */
  function AliasPrefix(g: Group): string {
    match g
    case Customer => "attrCustomer"
    case Billing => "attrBilling"
    case Shipping => "attrShipping"
  }

  /** The attribute-table field that links back to the owner, never listed. */
  function ForeignKey(g: Group): string {
    match g
    case Customer => "userID"
    case Billing => "billingID"
    case Shipping => "shippingID"
  }

  /** A fixed column: `expr as alias`, or a bare name. */
  datatype BaseColumn = Aliased(expr: string, alias: string) | Plain(name: string)

  function BaseText(b: BaseColumn): string {
    match b
    case Aliased(e, a) => e + " as " + a
    case Plain(n) => n
  }

  /** The name the column is listed and imported under. */
  function BaseAlias(b: BaseColumn): string {
    match b
    case Aliased(_, a) => a
    case Plain(n) => n
  }

  const CustomerBase: seq<BaseColumn> := [
    Aliased("customer.id", "id"),
    Aliased("customer.hashPassword", "password"),
    Plain("unhashedPassword"),
    Aliased("customer.encoderName", "encoder"),
    Aliased("customer.email", "email"),
    Aliased("customer.active", "active"),
    Aliased("customer.accountMode", "accountMode"),
    Aliased("customer.paymentId", "paymentID"),
    Aliased("customer.firstLogin", "firstLogin"),
    Aliased("customer.lastLogin", "lastLogin"),
    Aliased("customer.sessionId", "sessionId"),
    Aliased("customer.newsletter", "newsletter"),
    Aliased("customer.validation", "validation"),
    Aliased("customer.affiliate", "affiliate"),
    Aliased("customer.groupKey", "customergroup"),
    Aliased("customer.paymentPreset", "paymentPreset"),
    Aliased("customer.languageId", "language"),
    Aliased("customer.shopId", "subshopID"),
    Aliased("customer.referer", "referer"),
    Aliased("customer.priceGroupId", "priceGroupId"),
    Aliased("customer.internalComment", "internalComment"),
    Aliased("customer.failedLogins", "failedLogins"),
    Aliased("customer.lockedUntil", "lockedUntil")
  ]

  const BillingBase: seq<BaseColumn> := [
    Aliased("billing.company", "billingCompany"),
    Aliased("billing.department", "billingDepartment"),
    Aliased("billing.salutation", "billingSalutation"),
    Aliased("billing.number", "customerNumber"),
    Aliased("billing.firstName", "billingFirstname"),
    Aliased("billing.lastName", "billingLastname"),
    Aliased("billing.street", "billingStreet"),
    Aliased("billing.zipCode", "billingZipcode"),
    Aliased("billing.city", "billingCity"),
    Aliased("billing.phone", "billingPhone"),
    Aliased("billing.fax", "billingFax"),
    Aliased("billing.countryId", "billingCountryID"),
    Aliased("billing.stateId", "billingStateID"),
    Aliased("billing.vatId", "ustid"),
    Aliased("billing.birthday", "birthday"),
    Aliased("billing.additionalAddressLine1", "billingAdditionalAddressLine1"),
    Aliased("billing.additionalAddressLine2", "billingAdditionalAddressLine2")
  ]

  const ShippingBase: seq<BaseColumn> := [
    Aliased("shipping.company", "shippingCompany"),
    Aliased("shipping.department", "shippingDepartment"),
    Aliased("shipping.salutation", "shippingSalutation"),
    Aliased("shipping.firstName", "shippingFirstname"),
    Aliased("shipping.lastName", "shippingLastname"),
    Aliased("shipping.street", "shippingStreet"),
    Aliased("shipping.zipCode", "shippingZipcode"),
    Aliased("shipping.city", "shippingCity"),
    Aliased("shipping.countryId", "shippingCountryID"),
    Aliased("shipping.stateId", "shippingStateID"),
    Aliased("shipping.additionalAddressLine1", "shippingAdditionalAddressLine1"),
    Aliased("shipping.additionalAddressLine2", "shippingAdditionalAddressLine2")
  ]

  function Base(g: Group): seq<BaseColumn> {
    match g
    case Customer => CustomerBase
    case Billing => BillingBase
    case Shipping => ShippingBase
  }

  // ---------------------------------------------------------------------------
  // snake_case to camelCase

  /**
   * `preg_replace('/\_(.)/e', "strtoupper('\\1')", s)`: each `_` followed by a character
   * other than a newline is replaced by that character upper-cased, left to right.
   */
  function Camelize(s: string): (r: string)
    decreases |s|
    ensures |r| <= |s|
    ensures '_' !in s ==> r == s
  {
    if |s| == 0 then ""
    else if |s| >= 2 && s[0] == '_' && s[1] != '\n' then
      assert forall i :: 0 <= i < |s| - 2 ==> s[2..][i] == s[i + 2];
      [ToUpper(s[1])] + Camelize(s[2..])
    else
      assert forall i :: 0 <= i < |s| - 1 ==> s[1..][i] == s[i + 1];
      [s[0]] + Camelize(s[1..])
  }

  /** Camel-casing a name gives a name: it only drops `_` and capitalises letters. */
  lemma {:induction false} CamelizeName(s: string)
    requires IsName(s)
    ensures IsName(Camelize(s))
    decreases |s|
  {
    if |s| >= 2 && s[0] == '_' && s[1] != '\n' {
      assert IsName(s[2..]) by {
        assert forall i :: 0 <= i < |s| - 2 ==> s[2..][i] == s[i + 2];
      }
      CamelizeName(s[2..]);
      assert NameChar(s[1]);
    } else if |s| > 0 {
      assert IsName(s[1..]) by {
        assert forall i :: 0 <= i < |s| - 1 ==> s[1..][i] == s[i + 1];
      }
      CamelizeName(s[1..]);
    }
  }

  /** The characters of a database field name: no blanks and no word delimiters. */
  predicate NameChar(c: char) {
    !IsTrimmed(c) && !IsWordDelimiter(c)
  }

  predicate IsName(s: string) {
    forall i :: 0 <= i < |s| ==> NameChar(s[i])
  }

  /** The words of a snake_case name joined by `_`: `w0_w1_..._wn`. */
  function Snake(w0: string, ws: seq<string>): string {
    w0 + Underscored(ws)
  }

  function Underscored(ws: seq<string>): string {
    if |ws| == 0 then "" else "_" + ws[0] + Underscored(ws[1..])
  }

  /** The words of a camelCase name: `w0`, then every later word capitalised. */
  function Camel(w0: string, ws: seq<string>): string {
    w0 + Capitalised(ws)
  }

  function Capitalised(ws: seq<string>): string {
    if |ws| == 0 then "" else Ucfirst(ws[0]) + Capitalised(ws[1..])
  }

  lemma CamelizeHead(s: string, c: char, t: string)
    requires s == [c] + t && c != '_'
    ensures Camelize(s) == [c] + Camelize(t)
  {
    assert s[1..] == t;
  }

  /** One step of `CamelizeWord`: a word's first character passes through unchanged. */
  lemma CamelizeWordStep(w: string, rest: string)
    requires |w| > 0 && '_' !in w
    requires Camelize(w[1..] + rest) == w[1..] + Camelize(rest)
    ensures Camelize(w + rest) == w + Camelize(rest)
  {
    var t := w[1..];
    assert w[0] != '_' by {
      assert w[0] in w;
    }
    Associative([w[0]], t, rest);
    Associative([w[0]], t, Camelize(rest));
    assert w == [w[0]] + t;
    CamelizeHead(w + rest, w[0], t + rest);
  }

  lemma Associative<T>(a: seq<T>, b: seq<T>, c: seq<T>)
    ensures (a + b) + c == a + (b + c)
  {
  }

  lemma NoUnderscoreTail(w: string)
    requires |w| > 0 && '_' !in w
    ensures '_' !in w[1..]
  {
    assert forall i :: 0 <= i < |w| - 1 ==> w[1..][i] == w[i + 1];
  }

  /** A word without `_` passes through camel-casing unchanged, whatever follows it. */
  lemma {:induction false} CamelizeWord(w: string, rest: string)
    requires '_' !in w
    ensures Camelize(w + rest) == w + Camelize(rest)
  {
    if |w| > 0 {
      NoUnderscoreTail(w);
      CamelizeWord(w[1..], rest);
      CamelizeWordStep(w, rest);
    } else {
      assert w + rest == rest;
    }
  }

  /** `_w` becomes `W`: the underscore goes and the first letter is capitalised. */
  lemma CamelizeUnderscore(w: string, rest: string)
    requires |w| > 0 && w[0] != '\n' && '_' !in w
    ensures Camelize("_" + w + rest) == Ucfirst(w) + Camelize(rest)
  {
    var s := "_" + w + rest;
    assert s[0] == '_' && s[1] == w[0];
    assert s[2..] == w[1..] + rest;
    assert forall i :: 0 <= i < |w| - 1 ==> w[1..][i] == w[i + 1];
    CamelizeWord(w[1..], rest);
  }

  lemma {:induction false} CamelizeUnderscored(ws: seq<string>)
    requires forall i :: 0 <= i < |ws| ==> |ws[i]| > 0 && ws[i][0] != '\n' && '_' !in ws[i]
    ensures Camelize(Underscored(ws)) == Capitalised(ws)
  {
    if |ws| > 0 {
      CamelizeUnderscore(ws[0], Underscored(ws[1..]));
      assert "_" + ws[0] + Underscored(ws[1..]) == Underscored(ws);
      CamelizeUnderscored(ws[1..]);
    }
  }

  /**
   * Camel-casing turns `w0_w1_..._wn` into `w0W1...Wn` when no word holds `_` and every
   * later word is non-empty and does not start with a newline.
   */
  lemma CamelizeSnake(w0: string, ws: seq<string>)
    requires '_' !in w0
    requires forall i :: 0 <= i < |ws| ==> |ws[i]| > 0 && ws[i][0] != '\n' && '_' !in ws[i]
    ensures Camelize(Snake(w0, ws)) == Camel(w0, ws)
  {
    CamelizeWord(w0, Underscored(ws));
    CamelizeUnderscored(ws);
  }

  // ---------------------------------------------------------------------------
  // Columns

  /**
   * The listed attribute fields: `SHOW COLUMNS` order, without `id` (dropped while reading
   * the table) and without the group's foreign key (skipped while building the columns).
   */
  function Kept(g: Group, fields: seq<string>): (r: seq<string>)
    ensures |r| <= |fields|
    ensures forall x :: x in r <==> x in fields && x != "id" && x != ForeignKey(g)
  {
    if |fields| == 0 then []
    else
      assert fields == [fields[0]] + fields[1..];
      (if fields[0] == "id" || fields[0] == ForeignKey(g) then [] else [fields[0]]) + Kept(g, fields[1..])
  }

  /** The alias an attribute field is listed under. */
  function AttributeAlias(g: Group, field: string): string {
    AliasPrefix(g) + Ucwords(Camelize(field))
  }

  /** `sprintf('%s.%s as attrX%s', prefix, camel, ucwords(camel))`. */
  function AttributeColumn(g: Group, field: string): string {
    TablePrefix(g) + "." + Camelize(field) + " as " + AttributeAlias(g, field)
  }

  /** The columns of one group, given the fields of its attribute table. */
  function GroupColumns(g: Group, fields: seq<string>): (r: seq<string>)
    ensures |r| == |Base(g)| + |Kept(g, fields)|
    ensures forall i :: 0 <= i < |Base(g)| ==> r[i] == BaseText(Base(g)[i])
    ensures forall i :: 0 <= i < |Kept(g, fields)| ==> r[|Base(g)| + i] == AttributeColumn(g, Kept(g, fields)[i])
  {
    var base := Base(g);
    var kept := Kept(g, fields);
    seq(|base|, i requires 0 <= i < |base| => BaseText(base[i]))
      + seq(|kept|, i requires 0 <= i < |kept| => AttributeColumn(g, kept[i]))
  }

  /** `getDefaultColumns`: the customer, billing and shipping columns in that order. */
  function DefaultColumns(fields: Group -> seq<string>): seq<string> {
    GroupColumns(Customer, fields(Customer)) + GroupColumns(Billing, fields(Billing))
      + GroupColumns(Shipping, fields(Shipping))
  }

  /** The lower-cased name of the method `getColumns` looks for. */
  lemma LowerMethodName(section: string)
    ensures Lower("get" + Ucfirst(section) + "Columns") == "get" + Lower(section) + "columns"
  {
    var m := "get" + Ucfirst(section) + "Columns";
    var l := "get" + Lower(section) + "columns";
    assert |Lower(m)| == |l|;
    forall i | 0 <= i < |m| ensures Lower(m)[i] == l[i] {
      if 3 <= i < 3 + |section| && i == 3 {
        LowerOfUpper(section[0]);
      }
    }
  }

  lemma MethodNameMatch(section: string, x: string)
    ensures "get" + Lower(section) + "columns" == "get" + x + "columns" <==> Lower(section) == x
  {
    var a, b := "get" + Lower(section) + "columns", "get" + x + "columns";
    if a == b {
      assert a[3..|a| - 7] == Lower(section);
      assert b[3..|b| - 7] == x;
    }
  }

  /** The name of the method `getColumns` calls for a section. */
  function MethodName(section: string): string {
    "get" + Ucfirst(section) + "Columns"
  }

  /**
   * `getColumns`: the list of the method `get<Section>Columns`; PHP matches method names
   * without regard to case. `None` is the `false` of a section without such a method.
   */
  function GetColumns(section: string, fields: Group -> seq<string>): Option<seq<string>> {
    var m := Lower(MethodName(section));
    if m == "getdefaultcolumns" then Some(DefaultColumns(fields))
    else if m == "getcustomercolumns" then Some(GroupColumns(Customer, fields(Customer)))
    else if m == "getbillingcolumns" then Some(GroupColumns(Billing, fields(Billing)))
    else if m == "getshippingcolumns" then Some(GroupColumns(Shipping, fields(Shipping)))
    else None
  }

  /** The list a section name selects, whatever the case of its letters. */
  function SectionList(name: string, fields: Group -> seq<string>): Option<seq<string>> {
    match name
    case "default" => Some(DefaultColumns(fields))
    case "customer" => Some(GroupColumns(Customer, fields(Customer)))
    case "billing" => Some(GroupColumns(Billing, fields(Billing)))
    case "shipping" => Some(GroupColumns(Shipping, fields(Shipping)))
    case _ => None
  }

  lemma MethodNames()
    ensures "get" + "default" + "columns" == "getdefaultcolumns"
    ensures "get" + "customer" + "columns" == "getcustomercolumns"
    ensures "get" + "billing" + "columns" == "getbillingcolumns"
    ensures "get" + "shipping" + "columns" == "getshippingcolumns"
  {
  }

  /**
   * `getColumns` answers for the four sections `default`, `customer`, `billing` and
   * `shipping` in any mix of case, and for nothing else.
   */
  lemma GetColumnsBySection(section: string, fields: Group -> seq<string>)
    ensures GetColumns(section, fields) == SectionList(Lower(section), fields)
    ensures GetColumns(section, fields).None? <==> Lower(section) !in {"default", "customer", "billing", "shipping"}
  {
    LowerMethodName(section);
    MethodNames();
    MethodNameMatch(section, "default");
    MethodNameMatch(section, "customer");
    MethodNameMatch(section, "billing");
    MethodNameMatch(section, "shipping");
  }

  /** One entry of `getSections`. */
  datatype Section = Section(id: string, name: string)

  /** `getSections`: the one section `default` (its display name has a trailing blank). */
  const Sections: seq<Section> := [Section("default", "default ")]

  /** Every section the adapter announces has a column list: the default columns. */
  lemma SectionsHaveColumns(fields: Group -> seq<string>)
    ensures forall s :: s in Sections ==> GetColumns(s.id, fields) == Some(DefaultColumns(fields))
  {
    assert Lower("default") == "default";
    GetColumnsBySection("default", fields);
  }

  /** A field on its own is listed unless it is `id` or the group's foreign key. */
  lemma KeptOne(g: Group, x: string)
    ensures Kept(g, [x]) == if x == "id" || x == ForeignKey(g) then [] else [x]
  {
    assert [x][1..] == [];
  }

  /** Filtering a list with a first field: that field's share, then the rest's. */
  lemma KeptCons(g: Group, fields: seq<string>)
    requires |fields| > 0
    ensures Kept(g, fields) == Kept(g, [fields[0]]) + Kept(g, fields[1..])
  {
    KeptOne(g, fields[0]);
  }

  /** The listed attribute fields keep the table's order: a list is filtered piece by piece. */
  lemma {:induction false} KeptInOrder(g: Group, a: seq<string>, b: seq<string>)
    ensures Kept(g, a + b) == Kept(g, a) + Kept(g, b)
    decreases |a|
  {
    if |a| == 0 {
      assert a + b == b;
    } else {
      var h := Kept(g, [a[0]]);
      assert Kept(g, a + b) == h + Kept(g, a[1..] + b) by {
        assert (a + b)[0] == a[0] && (a + b)[1..] == a[1..] + b;
        KeptCons(g, a + b);
      }
      assert Kept(g, a) == h + Kept(g, a[1..]) by {
        KeptCons(g, a);
      }
      KeptInOrder(g, a[1..], b);
      Associative(h, Kept(g, a[1..]), Kept(g, b));
    }
  }

  /** The columns `read` selects: all but `unhashedPassword`, which has no database column. */
  function ReadColumns(cols: seq<string>): (r: seq<string>)
    ensures |r| <= |cols|
    ensures forall c :: c in r <==> c in cols && c != "unhashedPassword"
  {
    if |cols| == 0 then []
    else
      assert cols == [cols[0]] + cols[1..];
      (if cols[0] == "unhashedPassword" then [] else [cols[0]]) + ReadColumns(cols[1..])
  }

  /** A column on its own is selected unless it is `unhashedPassword`. */
  lemma ReadColumnsOne(c: string)
    ensures ReadColumns([c]) == if c == "unhashedPassword" then [] else [c]
  {
    assert [c][1..] == [];
  }

  /** Filtering a list with a first column: that column's share, then the rest's. */
  lemma ReadColumnsCons(cols: seq<string>)
    requires |cols| > 0
    ensures ReadColumns(cols) == ReadColumns([cols[0]]) + ReadColumns(cols[1..])
  {
    ReadColumnsOne(cols[0]);
  }

  /** `read` keeps the columns it selects in their given order: a list is filtered piece by piece. */
  lemma {:induction false} ReadColumnsInOrder(a: seq<string>, b: seq<string>)
    ensures ReadColumns(a + b) == ReadColumns(a) + ReadColumns(b)
    decreases |a|
  {
    if |a| == 0 {
      assert a + b == b;
    } else {
      var h := ReadColumns([a[0]]);
      assert ReadColumns(a + b) == h + ReadColumns(a[1..] + b) by {
        assert (a + b)[0] == a[0] && (a + b)[1..] == a[1..] + b;
        ReadColumnsCons(a + b);
      }
      assert ReadColumns(a) == h + ReadColumns(a[1..]) by {
        ReadColumnsCons(a);
      }
      ReadColumnsInOrder(a[1..], b);
      Associative(h, ReadColumns(a[1..]), ReadColumns(b));
    }
  }

  /** The default columns offer `unhashedPassword` for import; reading never selects it. */
  lemma UnhashedPasswordOnlyForImport(fields: Group -> seq<string>)
    ensures "unhashedPassword" in DefaultColumns(fields)
    ensures "unhashedPassword" !in ReadColumns(DefaultColumns(fields))
  {
    var cs := GroupColumns(Customer, fields(Customer));
    assert cs[2] == BaseText(CustomerBase[2]) == "unhashedPassword";
    assert DefaultColumns(fields)[2] == cs[2];
  }

  // ---------------------------------------------------------------------------
  // Aliases

  /** A fixed column whose alias can be read back: a blank-free expression and a clean name. */
  predicate WellFormedBase(b: BaseColumn) {
    match b
    case Aliased(e, a) => ' ' !in e && CleanName(a)
    case Plain(n) => ' ' !in n && '.' !in n && CleanName(n)
  }

  lemma BaseColumnAlias(b: BaseColumn)
    requires WellFormedBase(b)
    ensures ColumnAlias(BaseText(b)) == BaseAlias(b)
  {
    match b
    case Aliased(e, a) => AliasOfAsColumn(e, a);
    case Plain(n) =>
      NotOccursWithout(n, " as ", ' ');
      NotOccursWithout(n, ".", '.');
  }

  lemma AttributeExprBlankless(g: Group, camel: string)
    requires IsName(camel)
    ensures ' ' !in TablePrefix(g) + "." + camel
  {
    var e := TablePrefix(g) + "." + camel;
    assert forall i :: 0 <= i < |e| ==> e[i] == if i <= |TablePrefix(g)| then (TablePrefix(g) + ".")[i] else camel[i - |TablePrefix(g)| - 1];
  }

  lemma AttributeAliasClean(g: Group, camel: string)
    requires IsName(camel)
    ensures CleanName(AliasPrefix(g) + Ucwords(camel))
  {
    var u := Ucwords(camel);
    var a := AliasPrefix(g) + u;
    assert IsName(u) by {
      forall i | 0 <= i < |u| ensures NameChar(u[i]) {
        assert NameChar(camel[i]);
      }
    }
    assert forall i :: 0 <= i < |a| ==> a[i] == if i < |AliasPrefix(g)| then AliasPrefix(g)[i] else u[i - |AliasPrefix(g)|];
  }

  /** An attribute field made of name characters is listed under its attribute alias. */
  lemma AttributeColumnAlias(g: Group, field: string)
    requires IsName(field)
    ensures ColumnAlias(AttributeColumn(g, field)) == AttributeAlias(g, field)
  {
    var camel := Camelize(field);
    CamelizeName(field);
    AttributeExprBlankless(g, camel);
    AttributeAliasClean(g, camel);
    AliasOfAsColumn(TablePrefix(g) + "." + camel, AttributeAlias(g, field));
  }

  /**
   * The columns of a group are listed under the fixed aliases, then the attribute aliases,
   * when the fixed columns are well formed and the attribute fields are names.
   */
  lemma GroupAliases(g: Group, fields: seq<string>)
    requires forall i :: 0 <= i < |fields| ==> IsName(fields[i])
    ensures var cols := GroupColumns(g, fields);
      forall i :: 0 <= i < |cols| && (i < |Base(g)| ==> WellFormedBase(Base(g)[i])) ==>
        ColumnAlias(cols[i]) == if i < |Base(g)| then BaseAlias(Base(g)[i]) else AttributeAlias(g, Kept(g, fields)[i - |Base(g)|])
  {
    var cols := GroupColumns(g, fields);
    var kept := Kept(g, fields);
    forall i | 0 <= i < |cols| && (i < |Base(g)| ==> WellFormedBase(Base(g)[i]))
      ensures ColumnAlias(cols[i]) == if i < |Base(g)| then BaseAlias(Base(g)[i]) else AttributeAlias(g, kept[i - |Base(g)|])
    {
      if i < |Base(g)| {
        BaseColumnAlias(Base(g)[i]);
      } else {
        var f := kept[i - |Base(g)|];
        assert f in kept;
        var j :| 0 <= j < |fields| && fields[j] == f;
        AttributeColumnAlias(g, f);
      }
    }
  }

  /**
   * The import side reads an attribute alias back to the field it was listed for: it strips
   * the group's prefix and lower-cases the first letter. This needs a field that does not
   * start with `_` or a capital.
   */
  lemma AttributeAliasRoundTrip(g: Group, field: string)
    requires IsName(field)
    requires |field| > 0 ==> field[0] != '_' && !IsUpper(field[0])
    ensures HasPrefix(AttributeAlias(g, field), AliasPrefix(g))
    ensures Lcfirst(AttributeAlias(g, field)[|AliasPrefix(g)|..]) == Camelize(field)
  {
    var camel := Camelize(field);
    var a := AttributeAlias(g, field);
    CamelizeName(field);
    assert a[|AliasPrefix(g)|..] == Ucwords(camel);
    UcwordsOfWord(camel);
    if |field| > 0 {
      if |field| >= 2 && field[1] != '\n' {
        assert camel == [field[0]] + Camelize(field[1..]);
      } else {
        assert camel == [field[0]] + Camelize(field[1..]);
      }
    }
    LcfirstUcfirst(camel);
  }

  lemma StreetNumberNotCustomerBase()
    ensures forall b :: b in CustomerBase ==> BaseAlias(b) != "billingStreetnumber"
  {
  }

  lemma StreetNumberNotBillingBase()
    ensures forall b :: b in BillingBase ==> BaseAlias(b) != "billingStreetnumber"
  {
  }

  lemma StreetNumberNotShippingBase()
    ensures forall b :: b in ShippingBase ==> BaseAlias(b) != "billingStreetnumber"
  {
  }

  /**
   * No column of the adapter is declared under `billingStreetnumber`, the field the import
   * demands of every new customer: no fixed column has that alias, and every attribute
   * alias starts with `attr`.
   */
  lemma StreetNumberNotListed(g: Group, field: string)
    ensures forall b :: b in Base(g) ==> BaseAlias(b) != "billingStreetnumber"
    ensures HasPrefix(AttributeAlias(g, field), "attr")
    ensures AttributeAlias(g, field) != "billingStreetnumber"
  {
    StreetNumberNotCustomerBase();
    StreetNumberNotBillingBase();
    StreetNumberNotShippingBase();
    var a := AttributeAlias(g, field);
    assert a[..4] == AliasPrefix(g)[..4] == "attr";
    assert a[0] != "billingStreetnumber"[0];
  }
}

=== FILE: customer_prepare.dfy ===
/**
 * The parts of the customer adapter's `write` that decide what a record becomes, before
 * anything is stored: the customer lookup, the password rules, the required fields, the
 * defaults, the payment fallback, and the split of the flat record into the customer,
 * billing-address and shipping-address parts.
 *
 * Database lookups, the password encoder and the column-to-field maps are the fields of a
 * `Services` value.
 */
module CustomerPrepare {
  import opened Wrappers
  import opened Text
  import opened Php
  import C = CustomerColumns

  /** One entry of a column-to-field map: an import key and the entity field it fills. */
  datatype Mapping = Mapping(column: string, field: string)

  /** A column-to-field map as the adapter builds it from its column list; keys are distinct. */
  type FieldMap = seq<Mapping>

  predicate UniqueColumns(m: FieldMap) {
    forall i, j :: 0 <= i < j < |m| ==> m[i].column != m[j].column
  }

  /** `$map[$k]`, `None` when the key is not set. */
  function Lookup(m: FieldMap, k: string): (r: Option<string>)
    ensures r.None? <==> forall i :: 0 <= i < |m| ==> m[i].column != k
    ensures UniqueColumns(m) ==> forall i :: 0 <= i < |m| && m[i].column == k ==> r == Some(m[i].field)
  {
    if |m| == 0 then None
    else if m[0].column == k then Some(m[0].field)
    else
      assert forall i :: 1 <= i < |m| ==> m[i] == m[1..][i - 1];
      Lookup(m[1..], k)
  }

  /** What one part of the entity receives: mapped fields, and the `attribute` sub-array. */
  datatype Part = Part(fields: Record, attribute: Record)

  /** The data handed to the customer entity. */
  datatype CustomerData = CustomerData(customer: Part, billing: Part, shipping: Part)

  datatype AdapterError =
    | EmailRequired
    | MultipleEmail(email: Value)
    | PasswordAndEncoderRequired(email: Value)
    | FieldRequired(field: string, email: Value)
    | ShopNotFound(shopId: Value)
    | InvalidCustomer(email: Value)

  /** Errors that are not adapter errors: they escape the per-record handler and end the batch. */
  datatype FatalError = GroupNotFound(groupKey: Value) | StrictErrorMode(error: AdapterError)

  datatype Failure = Rejected(error: AdapterError) | Aborted(fatal: FatalError)

  /** What the adapter asks of the shop system. */
  datatype Services = Services(
    findById: Value -> Option<Value>,
    findBy: (Value, int, Option<Value>) -> seq<Value>,
    defaultEncoder: string,
    encode: (Value, Value) -> Value,
    subShopPayment: Value -> Option<Value>,
    mainShopPayment: Value -> Option<Value>,
    defaultPayment: Value,
    shopExists: Value -> bool,
    groupExists: Value -> bool,
    isValid: (Found, CustomerData) -> bool,
    customerMap: FieldMap,
    billingMap: FieldMap,
    shippingMap: FieldMap,
    errorMode: Value)

  // ---------------------------------------------------------------------------
  // Lookup

  /** An existing customer (by its id) or a new one. */
  datatype Found = Existing(id: Value) | New

  /** `(int)` of the record's account mode, 1 when it is not set. */
  function AccountMode(r: Record): int {
    if IsSet(r, "accountMode") then IntCast(Get(r, "accountMode")) else 1
  }

  /** The shop filter: the record's sub-shop when it is filled. */
  function ShopFilter(r: Record): Option<Value> {
    if Filled(r, "subshopID") then Some(Get(r, "subshopID")) else None
  }

  /**
   * A filled `id` naming a customer selects it. Otherwise the customer is looked up by
   * e-mail, account mode and shop; an empty e-mail is an error, several matches are an
   * error, none means a new customer.
   */
  function LocateCustomer(r: Record, sv: Services): (res: Result<Found, AdapterError>)
    ensures Filled(r, "id") && sv.findById(Get(r, "id")).Some? ==> res == Ok(Existing(sv.findById(Get(r, "id")).value))
    ensures res == Err(EmailRequired) <==> (!Filled(r, "id") || sv.findById(Get(r, "id")).None?) && !Filled(r, "email")
    ensures res.Err? && res.error.MultipleEmail? ==> |sv.findBy(Get(r, "email"), AccountMode(r), ShopFilter(r))| > 1
    ensures res == Ok(New) ==> !Filled(r, "id") || sv.findById(Get(r, "id")).None?
    ensures res == Ok(New) ==> Filled(r, "email") && |sv.findBy(Get(r, "email"), AccountMode(r), ShopFilter(r))| == 0
    ensures var found := sv.findBy(Get(r, "email"), AccountMode(r), ShopFilter(r));
      (!Filled(r, "id") || sv.findById(Get(r, "id")).None?) && Filled(r, "email") ==>
        (|found| > 1 ==> res == Err(MultipleEmail(Get(r, "email")))) &&
        (|found| == 1 ==> res == Ok(Existing(found[0]))) &&
        (|found| == 0 ==> res == Ok(New))
  {
    var byId := if Filled(r, "id") then sv.findById(Get(r, "id")) else None;
    if byId.Some? then Ok(Existing(byId.value))
    else if !Filled(r, "email") then Err(EmailRequired)
    else
      var found := sv.findBy(Get(r, "email"), AccountMode(r), ShopFilter(r));
      if |found| > 1 then Err(MultipleEmail(Get(r, "email")))
      else if |found| == 1 then Ok(Existing(found[0]))
      else Ok(New)
  }

  // ---------------------------------------------------------------------------
  // Passwords

  /** Whether the record asks for its clear-text password to be hashed. */
  predicate HashesPassword(r: Record) {
    Filled(r, "unhashedPassword") && !Filled(r, "password")
  }

  /**
   * A filled `unhashedPassword` with an empty `password` is hashed with the record's
   * encoder, or the default encoder when none is given, and then dropped.
   */
  function ApplyPassword(r: Record, sv: Services): (r': Record)
    ensures !HashesPassword(r) ==> r' == r
    ensures HashesPassword(r) ==> !IsSet(r', "unhashedPassword")
    ensures HashesPassword(r) && Filled(r, "encoder") ==> Get(r', "encoder") == Get(r, "encoder")
    ensures HashesPassword(r) && !Filled(r, "encoder") ==> Get(r', "encoder") == Str(sv.defaultEncoder)
    ensures HashesPassword(r) ==> Get(r', "password") == sv.encode(Get(r', "encoder"), Get(r, "unhashedPassword"))
    ensures forall k :: k != "unhashedPassword" && k != "password" && k != "encoder" ==> Get(r', k) == Get(r, k)
  {
    if HashesPassword(r) then
      var r1 := if !Filled(r, "encoder") then Put(r, "encoder", Str(sv.defaultEncoder)) else r;
      var r2 := Put(r1, "password", sv.encode(Get(r1, "encoder"), Get(r1, "unhashedPassword")));
      Unset(r2, "unhashedPassword")
    else r
  }

  /** An existing customer needs both a password and an encoder, or neither (PHP truthiness). */
  predicate PasswordPairOk(r: Record) {
    Filled(r, "password") == Filled(r, "encoder")
  }

  /** Hashing a password with a non-empty encoder name and hash leaves a consistent pair. */
  lemma HashedPasswordPairs(r: Record, sv: Services)
    requires HashesPassword(r)
    requires Filled(r, "encoder") || !Empty(Str(sv.defaultEncoder))
    requires !Empty(sv.encode(Get(ApplyPassword(r, sv), "encoder"), Get(r, "unhashedPassword")))
    ensures PasswordPairOk(ApplyPassword(r, sv))
  {
  }

  // ---------------------------------------------------------------------------
  // Required fields and defaults

  /** The fields a new customer must have filled, in the order they are checked. */
  const RequiredFields: seq<string> := [
    "password", "encoder", "customergroup", "billingSalutation", "billingFirstname",
    "billingLastname", "billingStreet", "billingStreetnumber", "billingZipcode",
    "billingCity", "billingCountryID"
  ]

  /** The first of `fields` that the record leaves empty. */
  function FirstMissing(r: Record, fields: seq<string>): (f: Option<nat>)
    ensures f.None? <==> forall i :: 0 <= i < |fields| ==> Filled(r, fields[i])
    ensures f.Some? ==> f.value < |fields| && !Filled(r, fields[f.value])
    ensures f.Some? ==> forall i :: 0 <= i < f.value ==> Filled(r, fields[i])
  {
    if |fields| == 0 then None
    else if !Filled(r, fields[0]) then Some(0)
    else
      match FirstMissing(r, fields[1..])
      case None => None
      case Some(i) => Some(i + 1)
  }

  /** `checkRequiredFields`: the error for the first required field that is empty. */
  function CheckRequiredFields(r: Record): (e: Option<AdapterError>)
    ensures e.None? <==> forall i :: 0 <= i < |RequiredFields| ==> Filled(r, RequiredFields[i])
    ensures e.Some? ==> exists i :: (0 <= i < |RequiredFields| && !Filled(r, RequiredFields[i]) &&
      e.value == FieldRequired(RequiredFields[i], Get(r, "email")) && forall j :: 0 <= j < i ==> Filled(r, RequiredFields[j]))
  {
    match FirstMissing(r, RequiredFields)
    case None => None
    case Some(i) => Some(FieldRequired(RequiredFields[i], Get(r, "email")))
  }

  /** `isset` fails or the value is the empty string (`=== ''`). */
  predicate Unspecified(v: Value) {
    v == Null || v == Str("")
  }

  /** The payment method for a record's sub-shop: sub-shop setting, main-shop setting, default. */
  function PreparePayment(subShop: Value, sv: Services): (p: Value)
    ensures Unspecified(subShop) ==> p == sv.defaultPayment
    ensures !Unspecified(subShop) && sv.subShopPayment(subShop).Some? ==> p == sv.subShopPayment(subShop).value
    ensures !Unspecified(subShop) && sv.subShopPayment(subShop).None? && sv.mainShopPayment(subShop).Some? ==>
      p == sv.mainShopPayment(subShop).value
    ensures !Unspecified(subShop) && sv.subShopPayment(subShop).None? && sv.mainShopPayment(subShop).None? ==>
      p == sv.defaultPayment
  {
    if Unspecified(subShop) then sv.defaultPayment
    else match sv.subShopPayment(subShop)
      case Some(p) => p
      case None =>
        match sv.mainShopPayment(subShop)
        case Some(p) => p
        case None => sv.defaultPayment
  }

  /** `active` becomes 1 and `paymentID` the prepared payment when they are unspecified. */
  function WithDefaults(r: Record, sv: Services): (r': Record)
    ensures Get(r', "active") == if Unspecified(Get(r, "active")) then Int(1) else Get(r, "active")
    ensures Get(r', "paymentID") ==
      if Unspecified(Get(r, "paymentID")) then PreparePayment(Get(r, "subshopID"), sv) else Get(r, "paymentID")
    ensures forall k :: k != "active" && k != "paymentID" ==> Get(r', k) == Get(r, k)
  {
    var r1 := if Unspecified(Get(r, "active")) then Put(r, "active", Int(1)) else r;
    if Unspecified(Get(r1, "paymentID")) then Put(r1, "paymentID", PreparePayment(Get(r1, "subshopID"), sv)) else r1
  }

  // ---------------------------------------------------------------------------
  // Splitting the record

  /** Whether a key of the record names a field of the part, or an attribute by its prefix. */
  predicate Consumed(k: string, prefix: string, m: FieldMap) {
    HasPrefix(k, prefix) || Lookup(m, k).Some?
  }

  /** The attribute a prefixed key names: the prefix removed, the first letter lower-cased. */
  function AttributeName(k: string, prefix: string): string
    requires HasPrefix(k, prefix)
  {
    Lcfirst(k[|prefix|..])
  }

  /** What one record entry adds to a part. */
  function Take(part: Part, e: Entry, prefix: string, m: FieldMap): Part {
    if HasPrefix(e.key, prefix) then part.(attribute := Put(part.attribute, AttributeName(e.key, prefix), e.value))
    else match Lookup(m, e.key)
      case Some(f) => part.(fields := Put(part.fields, f, e.value))
      case None => part
  }

  /** The part filled from the record's entries in order. */
  function Consume(r: Record, prefix: string, m: FieldMap, part: Part): Part
    decreases |r|
  {
    if |r| == 0 then part else Consume(r[1..], prefix, m, Take(part, r[0], prefix, m))
  }

  /** The record once the entries a part took have been unset. */
  function Remaining(r: Record, prefix: string, m: FieldMap): (rest: Record)
    ensures |rest| <= |r|
    ensures forall k :: k in Keys(rest) <==> k in Keys(r) && !Consumed(k, prefix, m)
    ensures forall k :: !Consumed(k, prefix, m) ==> Get(rest, k) == Get(r, k)
    ensures forall k :: Consumed(k, prefix, m) ==> Get(rest, k) == Null
  {
    if |r| == 0 then r
    else
      var tail := Remaining(r[1..], prefix, m);
      ConsEntry(r[0], r[1..]);
      assert r == [r[0]] + r[1..];
      if Consumed(r[0].key, prefix, m) then tail
      else
        ConsEntry(r[0], tail);
        [r[0]] + tail
  }

  /** A field of a part, or an attribute, that the lemmas below follow through a split. */
  datatype Wanted = Field(field: string) | Attribute(name: string)

  /** Whether a record key fills the wanted field or attribute. */
  predicate Fills(k: string, prefix: string, m: FieldMap, w: Wanted) {
    match w
    case Field(f) => !HasPrefix(k, prefix) && Lookup(m, k) == Some(f)
    case Attribute(n) => HasPrefix(k, prefix) && AttributeName(k, prefix) == n
  }

  /** The value of the wanted field or attribute in a part. */
  function Read(part: Part, w: Wanted): Value {
    match w
    case Field(f) => Get(part.fields, f)
    case Attribute(n) => Get(part.attribute, n)
  }

  /** The value of the last entry of the record that fills the wanted field or attribute. */
  function LastFilling(r: Record, prefix: string, m: FieldMap, w: Wanted): (v: Option<Value>)
    ensures v.None? <==> forall i :: 0 <= i < |r| ==> !Fills(r[i].key, prefix, m, w)
  {
    if |r| == 0 then None
    else
      assert forall i :: 1 <= i < |r| ==> r[i] == r[1..][i - 1];
      var later := LastFilling(r[1..], prefix, m, w);
      if later.Some? then later
      else if Fills(r[0].key, prefix, m, w) then Some(r[0].value)
      else None
  }

  /**
   * Splitting keeps, for each field and attribute, the value of the last entry that fills it,
   * and leaves the rest of the part as it was.
   */
  lemma {:induction false} ConsumeReads(r: Record, prefix: string, m: FieldMap, part: Part, w: Wanted)
    ensures Read(Consume(r, prefix, m, part), w) ==
      match LastFilling(r, prefix, m, w) case Some(v) => v case None => Read(part, w)
  {
    if |r| > 0 {
      var next := Take(part, r[0], prefix, m);
      ConsumeReads(r[1..], prefix, m, next, w);
      assert Read(next, w) == if Fills(r[0].key, prefix, m, w) then r[0].value else Read(part, w);
    }
  }

  /** The tail of a record with distinct keys has distinct keys. */
  lemma UniqueTail(r: Record)
    requires |r| > 0 && UniqueKeys(r)
    ensures UniqueKeys(r[1..])
    ensures forall i :: 0 <= i < |r[1..]| ==> r[1..][i] == r[i + 1]
    ensures forall i :: 1 <= i < |r| ==> r[i].key != r[0].key
  {
    assert forall i :: 0 <= i < |r[1..]| ==> r[1..][i] == r[i + 1];
  }

  /** Only key `k` fills `w` in the tail too, and nothing there does when the head has key `k`. */
  lemma OnlyFillerTail(r: Record, prefix: string, m: FieldMap, w: Wanted, k: string)
    requires |r| > 0 && UniqueKeys(r)
    requires forall i :: 0 <= i < |r| && Fills(r[i].key, prefix, m, w) ==> r[i].key == k
    ensures UniqueKeys(r[1..])
    ensures forall i :: 0 <= i < |r[1..]| && Fills(r[1..][i].key, prefix, m, w) ==> r[1..][i].key == k
    ensures r[0].key == k ==> forall i :: 0 <= i < |r[1..]| ==> !Fills(r[1..][i].key, prefix, m, w)
  {
    UniqueTail(r);
  }

  /** A key that is not the head's is in the tail, with the same value. */
  lemma KeyInTail(r: Record, k: string)
    requires k in Keys(r) && r[0].key != k
    ensures k in Keys(r[1..]) && Get(r, k) == Get(r[1..], k)
  {
    ConsEntry(r[0], r[1..]);
    assert [r[0]] + r[1..] == r;
  }

  /** With distinct keys, the one key that fills a field or attribute decides it. */
  lemma {:induction false} LastFillingOfOnly(r: Record, prefix: string, m: FieldMap, w: Wanted, k: string)
    requires UniqueKeys(r) && k in Keys(r) && Fills(k, prefix, m, w)
    requires forall i :: 0 <= i < |r| && Fills(r[i].key, prefix, m, w) ==> r[i].key == k
    ensures LastFilling(r, prefix, m, w) == Some(Get(r, k))
  {
    OnlyFillerTail(r, prefix, m, w, k);
    if r[0].key == k {
      assert LastFilling(r[1..], prefix, m, w).None?;
    } else {
      KeyInTail(r, k);
      LastFillingOfOnly(r[1..], prefix, m, w, k);
    }
  }

  /**
   * The import side of an attribute column: the record key the column list exports for an
   * attribute field lands in the part's attribute array under the field's camel-cased name.
   */
  lemma ImportedAttribute(g: C.Group, field: string, r: Record, m: FieldMap, part: Part)
    requires C.IsName(field) && (|field| > 0 ==> field[0] != '_' && !IsUpper(field[0]))
    requires UniqueKeys(r) && C.AttributeAlias(g, field) in Keys(r)
    requires forall i :: 0 <= i < |r| && Fills(r[i].key, C.AliasPrefix(g), m, Attribute(C.Camelize(field))) ==>
      r[i].key == C.AttributeAlias(g, field)
    ensures Get(Consume(r, C.AliasPrefix(g), m, part).attribute, C.Camelize(field)) == Get(r, C.AttributeAlias(g, field))
  {
    var w := Attribute(C.Camelize(field));
    C.AttributeAliasRoundTrip(g, field);
    LastFillingOfOnly(r, C.AliasPrefix(g), m, w, C.AttributeAlias(g, field));
    ConsumeReads(r, C.AliasPrefix(g), m, part, w);
  }

  /** The shop a record belongs to: its sub-shop when filled, else shop 1. */
  function ShopId(r: Record): Value {
    if Filled(r, "subshopID") then Get(r, "subshopID") else Int(1)
  }

  /** The customer part before the group and password fix-ups: the shop, then the record's keys. */
  function CustomerPart(r: Record, sv: Services): Part {
    Consume(r, C.AliasPrefix(C.Customer), sv.customerMap, Part([Entry("shop", ShopId(r))], []))
  }

  /**
   * `prepareCustomer`: the shop must exist; the customer part takes the `attrCustomer` keys
   * and the mapped keys; a filled group key must name a group; a filled hash becomes the raw
   * password; `hashPassword` is unset from the record.
   */
  function PrepareCustomer(r: Record, sv: Services): (res: Result<(Part, Record), Failure>)
    ensures !sv.shopExists(ShopId(r)) <==> res == Err(Rejected(ShopNotFound(ShopId(r))))
    ensures var key := Get(CustomerPart(r, sv).fields, "groupKey");
      res.Err? && res.error.Aborted? <==> sv.shopExists(ShopId(r)) && !Empty(key) && !sv.groupExists(key)
    ensures res.Err? && res.error.Aborted? ==> res.error.fatal == GroupNotFound(Get(CustomerPart(r, sv).fields, "groupKey"))
    ensures res.Ok? ==> res.value == FinishCustomer(r, sv)
    ensures var key := Get(CustomerPart(r, sv).fields, "groupKey");
      sv.shopExists(ShopId(r)) && (Empty(key) || sv.groupExists(key)) ==> res == Ok(FinishCustomer(r, sv))
  {
    if !sv.shopExists(ShopId(r)) then Err(Rejected(ShopNotFound(ShopId(r))))
    else
      var groupKey := Get(CustomerPart(r, sv).fields, "groupKey");
      if !Empty(groupKey) && !sv.groupExists(groupKey) then Err(Aborted(GroupNotFound(groupKey)))
      else Ok(FinishCustomer(r, sv))
  }

  /**
   * The fields after the split, completed: a filled group key names the group, a filled
   * hash becomes the raw password; nothing else changes.
   */
  function FixUpFields(fields: Record): (f: Record)
    ensures forall k :: k != "group" && k != "rawPassword" ==> Get(f, k) == Get(fields, k)
    ensures !Empty(Get(fields, "groupKey")) ==> Get(f, "group") == Get(fields, "groupKey")
    ensures Empty(Get(fields, "groupKey")) ==> Get(f, "group") == Get(fields, "group")
    ensures !Empty(Get(fields, "hashPassword")) ==> Get(f, "rawPassword") == Get(fields, "hashPassword")
    ensures Empty(Get(fields, "hashPassword")) ==> Get(f, "rawPassword") == Get(fields, "rawPassword")
  {
    var groupKey := Get(fields, "groupKey");
    var f1 := if !Empty(groupKey) then Put(fields, "group", groupKey) else fields;
    var hash := Get(fields, "hashPassword");
    if !Empty(hash) then Put(f1, "rawPassword", hash) else f1
  }

  /** The customer part with its group and raw password, and the record without what it took. */
  function FinishCustomer(r: Record, sv: Services): (Part, Record) {
    var part := CustomerPart(r, sv);
    (Part(FixUpFields(part.fields), part.attribute), Unset(Remaining(r, C.AliasPrefix(C.Customer), sv.customerMap), "hashPassword"))
  }

  /**
   * What a prepared customer part holds: the split's fields and attributes, the group found
   * for a filled group key, the hash as raw password.
   */
  lemma FinishCustomerPart(r: Record, sv: Services)
    ensures var part := FinishCustomer(r, sv).0; var p0 := CustomerPart(r, sv);
      part.attribute == p0.attribute &&
      (forall k :: k != "group" && k != "rawPassword" ==> Get(part.fields, k) == Get(p0.fields, k)) &&
      (!Empty(Get(p0.fields, "groupKey")) ==> Get(part.fields, "group") == Get(p0.fields, "groupKey")) &&
      (!Empty(Get(p0.fields, "hashPassword")) ==> Get(part.fields, "rawPassword") == Get(p0.fields, "hashPassword"))
  {
    var p0 := CustomerPart(r, sv);
    assert FinishCustomer(r, sv).0 == Part(FixUpFields(p0.fields), p0.attribute);
  }

  /** The record after `prepareCustomer` loses the keys the part took, and `hashPassword`. */
  lemma FinishCustomerRest(r: Record, sv: Services)
    ensures var rest := FinishCustomer(r, sv).1; var prefix := C.AliasPrefix(C.Customer);
      (forall k :: k in Keys(rest) ==> k in Keys(r) && !Consumed(k, prefix, sv.customerMap) && k != "hashPassword") &&
      (forall k :: k != "hashPassword" && !Consumed(k, prefix, sv.customerMap) ==> Get(rest, k) == Get(r, k))
  {
    var prefix := C.AliasPrefix(C.Customer);
    var rest0 := Remaining(r, prefix, sv.customerMap);
    var rest := Unset(rest0, "hashPassword");
    forall k | k in Keys(rest) ensures k in Keys(r) && !Consumed(k, prefix, sv.customerMap) && k != "hashPassword" {
      assert Get(rest, k) == Get(rest0, k) || k == "hashPassword";
      UnsetKeys(rest0, "hashPassword", k);
    }
  }

  /** `prepareBilling`: the billing part takes the `attrBilling` keys and the mapped keys. */
  function PrepareBilling(r: Record, sv: Services): (Part, Record) {
    var prefix := C.AliasPrefix(C.Billing);
    (Consume(r, prefix, sv.billingMap, Part([], [])), Remaining(r, prefix, sv.billingMap))
  }

  /**
   * The shipping address taken over from the billing address: for each shipping column the
   * record sets, in map order, the mapped field gets the billing value and the column is unset.
   */
  function CopyBilling(r: Record, m: FieldMap, billing: Record, data: Record): (Record, Record)
    decreases |m|
  {
    if |m| == 0 then (data, r)
    else if IsSet(r, m[0].column) then
      CopyBilling(Unset(r, m[0].column), m[1..], billing, Put(data, m[0].field, Get(billing, m[0].field)))
    else CopyBilling(r, m[1..], billing, data)
  }

  /** Whether some column of the map that the record sets fills field `f`. */
  predicate CopiedTo(r: Record, m: FieldMap, f: string) {
    exists i :: 0 <= i < |m| && m[i].field == f && IsSet(r, m[i].column)
  }

  /** The tail of a map with distinct columns has distinct columns, none equal to the head's. */
  lemma UniqueMapTail(m: FieldMap)
    requires |m| > 0 && UniqueColumns(m)
    ensures UniqueColumns(m[1..])
    ensures forall i :: 0 <= i < |m[1..]| ==> m[1..][i] == m[i + 1]
    ensures forall i :: 1 <= i < |m| ==> m[i].column != m[0].column
  {
    assert forall i :: 0 <= i < |m[1..]| ==> m[1..][i] == m[i + 1];
  }

  /** Copying the first column of the map leaves what the later columns see unchanged. */
  lemma CopiedToStep(r: Record, m: FieldMap, k: string)
    requires |m| > 0 && UniqueColumns(m)
    ensures var r' := if IsSet(r, m[0].column) then Unset(r, m[0].column) else r;
      CopiedTo(r, m, k) <==> CopiedTo(r', m[1..], k) || (m[0].field == k && IsSet(r, m[0].column))
  {
    UniqueMapTail(m);
    var r' := if IsSet(r, m[0].column) then Unset(r, m[0].column) else r;
    assert forall i :: 1 <= i < |m| ==> IsSet(r', m[i].column) == IsSet(r, m[i].column);
    if CopiedTo(r, m, k) {
      var i :| 0 <= i < |m| && m[i].field == k && IsSet(r, m[i].column);
      if i > 0 {
        assert m[1..][i - 1].field == k && IsSet(r', m[1..][i - 1].column);
      }
    }
    if CopiedTo(r', m[1..], k) {
      var i :| 0 <= i < |m[1..]| && m[1..][i].field == k && IsSet(r', m[1..][i].column);
      assert m[i + 1].field == k && IsSet(r, m[i + 1].column);
    }
  }

  /** Taking over the billing address: a field some set column maps to gets the billing value. */
  lemma {:induction false} CopyBillingData(r: Record, m: FieldMap, billing: Record, data: Record, k: string)
    requires UniqueColumns(m)
    ensures Get(CopyBilling(r, m, billing, data).0, k) == if CopiedTo(r, m, k) then Get(billing, k) else Get(data, k)
    decreases |m|
  {
    if |m| > 0 {
      var c := m[0].column;
      var r' := if IsSet(r, c) then Unset(r, c) else r;
      var d' := if IsSet(r, c) then Put(data, m[0].field, Get(billing, m[0].field)) else data;
      UniqueMapTail(m);
      CopyBillingData(r', m[1..], billing, d', k);
      CopiedToStep(r, m, k);
    }
  }

  /** Taking over the billing address unsets every column of the shipping map. */
  lemma {:induction false} CopyBillingRest(r: Record, m: FieldMap, billing: Record, data: Record, k: string)
    ensures Get(CopyBilling(r, m, billing, data).1, k) ==
      if exists i :: 0 <= i < |m| && m[i].column == k then Null else Get(r, k)
    decreases |m|
  {
    if |m| > 0 {
      var c := m[0].column;
      var r' := if IsSet(r, c) then Unset(r, c) else r;
      var d' := if IsSet(r, c) then Put(data, m[0].field, Get(billing, m[0].field)) else data;
      CopyBillingRest(r', m[1..], billing, d', k);
      assert (exists i :: 0 <= i < |m| && m[i].column == k) <==> c == k || exists i :: 0 <= i < |m[1..]| && m[1..][i].column == k by {
        if exists i :: 0 <= i < |m| && m[i].column == k {
          var i :| 0 <= i < |m| && m[i].column == k;
          if i > 0 { assert m[1..][i - 1].column == k; }
        }
        if exists i :: 0 <= i < |m[1..]| && m[1..][i].column == k {
          var i :| 0 <= i < |m[1..]| && m[1..][i].column == k;
          assert m[i + 1].column == k;
        }
      }
    }
  }

  /** The condition under which `prepareShipping` takes over the billing address, as written. */
  predicate CopiesBillingAsWritten(r: Record, customerId: Value) {
    Empty(customerId) && Empty(Get(r, "shippingFirstname")) && Empty(Null)
  }

  /** The condition as evidently intended: no customer yet, no shipping first or last name. */
  predicate CopiesBilling(r: Record, customerId: Value) {
    Empty(customerId) && Empty(Get(r, "shippingFirstname")) && Empty(Get(r, "shippingLastname"))
  }

  /** The shipping part and what remains of the record, either copied or split off. */
  function ShippingFrom(r: Record, copy: bool, billing: Part, sv: Services): (Part, Record) {
    if copy then
      var (data, rest) := CopyBilling(r, sv.shippingMap, billing.fields, []);
      (Part(data, []), rest)
    else
      var prefix := C.AliasPrefix(C.Shipping);
      (Consume(r, prefix, sv.shippingMap, Part([], [])), Remaining(r, prefix, sv.shippingMap))
  }

  /** `prepareShipping` as written: a shipping last name alone does not stop the copy. */
  function PrepareShippingAsWritten(r: Record, customerId: Value, billing: Part, sv: Services): (Part, Record) {
    ShippingFrom(r, CopiesBillingAsWritten(r, customerId), billing, sv)
  }

  /** `prepareShipping` as evidently intended. */
  function PrepareShipping(r: Record, customerId: Value, billing: Part, sv: Services): (Part, Record) {
    ShippingFrom(r, CopiesBilling(r, customerId), billing, sv)
  }

  /** The shipping map's entry for `shippingLastname`, and the record key that fills it. */
  predicate LastNameSetUp(r: Record, sv: Services, lastName: string) {
    UniqueKeys(r) && UniqueColumns(sv.shippingMap) &&
    Mapping("shippingLastname", lastName) in sv.shippingMap &&
    forall i :: 0 <= i < |r| && Fills(r[i].key, C.AliasPrefix(C.Shipping), sv.shippingMap, Field(lastName)) ==>
      r[i].key == "shippingLastname"
  }

  /**
   * A new customer's record with a shipping last name but no shipping first name: as
   * written the shipping last name is replaced by the billing one.
   */
  lemma ShippingLastnameLost(r: Record, billing: Part, sv: Services, lastName: string)
    requires LastNameSetUp(r, sv, lastName)
    requires Empty(Get(r, "shippingFirstname")) && !Empty(Get(r, "shippingLastname"))
    ensures Get(PrepareShippingAsWritten(r, Null, billing, sv).0.fields, lastName) == Get(billing.fields, lastName)
  {
    var m := sv.shippingMap;
    var i :| 0 <= i < |m| && m[i] == Mapping("shippingLastname", lastName);
    assert CopiedTo(r, m, lastName);
    CopyBillingData(r, m, billing.fields, [], lastName);
  }

  /** As evidently intended, that record keeps its shipping last name. */
  lemma ShippingLastnameKept(r: Record, billing: Part, sv: Services, lastName: string)
    requires LastNameSetUp(r, sv, lastName)
    requires Empty(Get(r, "shippingFirstname")) && !Empty(Get(r, "shippingLastname"))
    ensures Get(PrepareShipping(r, Null, billing, sv).0.fields, lastName) == Get(r, "shippingLastname")
  {
    var m := sv.shippingMap;
    var prefix := C.AliasPrefix(C.Shipping);
    assert !HasPrefix("shippingLastname", prefix) by {
      assert "shippingLastname"[..|prefix|][0] != prefix[0];
    }
    assert Lookup(m, "shippingLastname") == Some(lastName);
    assert "shippingLastname" in Keys(r);
    LastFillingOfOnly(r, prefix, m, Field(lastName), "shippingLastname");
    ConsumeReads(r, prefix, m, Part([], []), Field(lastName));
  }
}

=== FILE: customer_write.dfy ===
/**
 * The customer adapter's `write`: each record of the batch is looked up, checked, completed
 * with defaults, split into the entity's parts and validated. A record that fails with an
 * adapter error goes to the message log (or, in strict error mode, ends the batch); any other
 * error ends the batch.
 */
module CustomerWrite {
  import opened Wrappers
  import opened Text
  import opened Php
  import opened CustomerPrepare

  /** A customer the adapter stores, with the encoder name written back to the user table. */
  datatype Stored = Stored(customer: Found, data: CustomerData, encoder: Option<string>)

  /** The id of the customer being written, `null` for a new one. */
  function CustomerId(found: Found): (id: Value)
    ensures found.New? ==> Empty(id)
  {
    match found
    case Existing(id) => id
    case New => Null
  }

  /**
   * The checks before the record is touched: the lookup, the password hashing, then the
   * password/encoder pair for an existing customer or the required fields for a new one.
   */
  function Admit(r: Record, sv: Services): (res: Result<(Found, Record), AdapterError>)
    ensures LocateCustomer(r, sv).Err? ==> res == Err(LocateCustomer(r, sv).error)
    ensures res.Ok? ==> LocateCustomer(r, sv) == Ok(res.value.0) && res.value.1 == ApplyPassword(r, sv)
    ensures res.Ok? && res.value.0.Existing? ==> PasswordPairOk(res.value.1)
    ensures res.Ok? && res.value.0.New? ==> forall i :: 0 <= i < |RequiredFields| ==> Filled(res.value.1, RequiredFields[i])
    ensures LocateCustomer(r, sv) == Ok(New) && res.Err? ==> res.error.FieldRequired?
    ensures LocateCustomer(r, sv).Ok? && LocateCustomer(r, sv).value.Existing? && res.Err? ==>
      res.error == PasswordAndEncoderRequired(Get(ApplyPassword(r, sv), "email"))
    ensures LocateCustomer(r, sv) == Ok(New) && res.Err? ==> Some(res.error) == CheckRequiredFields(ApplyPassword(r, sv))
    ensures LocateCustomer(r, sv).Ok? ==>
      var found := LocateCustomer(r, sv).value;
      var r1 := ApplyPassword(r, sv);
      (found.Existing? ==> PasswordPairOk(r1)) && (found.New? ==> CheckRequiredFields(r1).None?) ==>
        res == Ok((found, r1))
  {
    match LocateCustomer(r, sv)
    case Err(e) => Err(e)
    case Ok(found) =>
      var r1 := ApplyPassword(r, sv);
      if found.Existing? then
        if PasswordPairOk(r1) then Ok((found, r1)) else Err(PasswordAndEncoderRequired(Get(r1, "email")))
      else
        match CheckRequiredFields(r1)
        case Some(e) => Err(e)
        case None => Ok((found, r1))
  }

  /** `lcfirst` of a filled `encoderName` of the customer part: the name written back. */
  function EncoderUpdate(customer: Part): (e: Option<string>)
    ensures e.Some? <==> Filled(customer.fields, "encoderName")
    ensures e.Some? && |e.value| > 0 ==> !IsUpper(e.value[0])
    ensures e.Some? ==>
      var n := StrVal(Get(customer.fields, "encoderName"));
      |e.value| == |n| && (|n| > 0 ==> e.value[0] == ToLower(n[0]) && e.value[1..] == n[1..])
  {
    var name := Get(customer.fields, "encoderName");
    if Filled(customer.fields, "encoderName") then Some(Lcfirst(StrVal(name))) else None
  }

  /** A filled encoder name that does not start with a capital is written back as it is. */
  lemma EncoderNameKept(customer: Part)
    requires Filled(customer.fields, "encoderName")
    requires var n := StrVal(Get(customer.fields, "encoderName")); |n| == 0 || !IsUpper(n[0])
    ensures EncoderUpdate(customer) == Some(StrVal(Get(customer.fields, "encoderName")))
  {
    var n := StrVal(Get(customer.fields, "encoderName"));
    var e := EncoderUpdate(customer).value;
    if |n| > 0 {
      assert e[0] == n[0];
      assert e == [e[0]] + e[1..] && n == [n[0]] + n[1..];
    }
  }

  /** The billing part and what the customer and billing parts leave of the record. */
  function BeforeShipping(r: Record, sv: Services): (Part, Record) {
    PrepareBilling(FinishCustomer(WithDefaults(r, sv), sv).1, sv)
  }

  /**
   * The entity data prepared from an admitted record, and what is left of the record. The
   * shipping part follows `prepareShipping` as written, with its always-true last-name test.
   */
  function Prepare(found: Found, r: Record, sv: Services): (res: Result<(CustomerData, Record), Failure>)
    ensures var r1 := WithDefaults(r, sv);
      res.Err? <==> PrepareCustomer(r1, sv).Err?
    ensures var r1 := WithDefaults(r, sv);
      res.Err? ==> res.error == PrepareCustomer(r1, sv).error
    ensures var r1 := WithDefaults(r, sv);
      res.Ok? ==> res.value.0.customer == FinishCustomer(r1, sv).0 &&
                  res.value.0.billing == PrepareBilling(FinishCustomer(r1, sv).1, sv).0
    ensures var (billing, r3) := BeforeShipping(r, sv);
      res.Ok? ==> res.value == (CustomerData(res.value.0.customer, billing, PrepareShippingAsWritten(r3, CustomerId(found), billing, sv).0),
                                PrepareShippingAsWritten(r3, CustomerId(found), billing, sv).1)
  {
    var r1 := WithDefaults(r, sv);
    match PrepareCustomer(r1, sv)
    case Err(f) => Err(f)
    case Ok((customer, r2)) =>
      var (billing, r3) := PrepareBilling(r2, sv);
      var (shipping, r4) := PrepareShippingAsWritten(r3, CustomerId(found), billing, sv);
      Ok((CustomerData(customer, billing, shipping), r4))
  }

  /**
   * In `write`, a new customer whose record, once the customer and billing parts are taken,
   * has a shipping last name but no shipping first name is stored with the billing last name.
   */
  lemma WriteCopiesBillingLastname(r: Record, sv: Services, lastName: string)
    requires LocateCustomer(r, sv) == Ok(New) && WriteRecord(r, sv).Ok?
    requires var r3 := BeforeShipping(ApplyPassword(r, sv), sv).1;
      LastNameSetUp(r3, sv, lastName) &&
      Empty(Get(r3, "shippingFirstname")) && !Empty(Get(r3, "shippingLastname"))
    ensures var (billing, _) := BeforeShipping(ApplyPassword(r, sv), sv);
      Get(WriteRecord(r, sv).value.data.shipping.fields, lastName) == Get(billing.fields, lastName)
  {
    var r1 := ApplyPassword(r, sv);
    var (billing, r3) := BeforeShipping(r1, sv);
    assert Admit(r, sv) == Ok((New, r1));
    assert WriteRecord(r, sv).value.data.shipping == PrepareShippingAsWritten(r3, Null, billing, sv).0 by {
      assert Prepare(New, r1, sv).Ok?;
    }
    ShippingLastnameLost(r3, billing, sv, lastName);
  }

  /** The outcome of an admitted record: prepared, then validated and stored. */
  function StoreAdmitted(found: Found, r1: Record, sv: Services): (res: Result<Stored, Failure>)
    ensures var p := Prepare(found, r1, sv);
      (p.Err? ==> res == Err(p.error)) &&
      (p.Ok? ==> (res.Ok? <==> sv.isValid(found, p.value.0))) &&
      (p.Ok? && !sv.isValid(found, p.value.0) ==> res == Err(Rejected(InvalidCustomer(Get(p.value.1, "email"))))) &&
      (res.Ok? ==> res.value == Stored(found, p.value.0, EncoderUpdate(p.value.0.customer)))
    ensures res.Err? && res.error.Aborted? ==> res.error.fatal.GroupNotFound?
  {
    match Prepare(found, r1, sv)
    case Err(f) => Err(f)
    case Ok((data, rest)) =>
      if sv.isValid(found, data) then Ok(Stored(found, data, EncoderUpdate(data.customer)))
      else Err(Rejected(InvalidCustomer(Get(rest, "email"))))
  }

  /** The outcome of writing one record. */
  function WriteRecord(r: Record, sv: Services): (res: Result<Stored, Failure>)
    ensures LocateCustomer(r, sv).Err? ==> res == Err(Rejected(LocateCustomer(r, sv).error))
    ensures res.Ok? ==> LocateCustomer(r, sv) == Ok(res.value.customer)
    ensures res.Ok? && res.value.customer.Existing? ==> PasswordPairOk(ApplyPassword(r, sv))
    ensures res.Ok? && res.value.customer.New? ==>
      forall i :: 0 <= i < |RequiredFields| ==> Filled(ApplyPassword(r, sv), RequiredFields[i])
    ensures res.Ok? ==>
      Prepare(res.value.customer, ApplyPassword(r, sv), sv).Ok? &&
      Prepare(res.value.customer, ApplyPassword(r, sv), sv).value.0 == res.value.data
    ensures res.Ok? ==> sv.isValid(res.value.customer, res.value.data)
    ensures res.Ok? ==> res.value.encoder == EncoderUpdate(res.value.data.customer)
    ensures res.Err? && res.error.Aborted? ==> res.error.fatal.GroupNotFound?
    ensures Admit(r, sv).Err? ==> res == Err(Rejected(Admit(r, sv).error))
    ensures Admit(r, sv).Ok? ==>
      var (found, r1) := Admit(r, sv).value;
      var p := Prepare(found, r1, sv);
      (p.Err? ==> res == Err(p.error)) &&
      (p.Ok? ==> (res.Ok? <==> sv.isValid(found, p.value.0))) &&
      (p.Ok? && !sv.isValid(found, p.value.0) ==> res == Err(Rejected(InvalidCustomer(Get(p.value.1, "email")))))
  {
    match Admit(r, sv)
    case Err(e) => Err(Rejected(e))
    case Ok((found, r1)) => StoreAdmitted(found, r1, sv)
  }

  /**
   * A record is stored when every check passes: it is located, it passes the password pair
   * rule (an existing customer) or has every required field (a new one), its shop exists,
   * its group key is empty or names a group, and the validator accepts the prepared data.
   */
  lemma StoredWhenChecksPass(r: Record, sv: Services)
    requires LocateCustomer(r, sv).Ok?
    requires var found := LocateCustomer(r, sv).value; var r1 := ApplyPassword(r, sv);
      (found.Existing? ==> PasswordPairOk(r1)) && (found.New? ==> CheckRequiredFields(r1).None?)
    requires var r2 := WithDefaults(ApplyPassword(r, sv), sv);
      var key := Get(CustomerPart(r2, sv).fields, "groupKey");
      sv.shopExists(ShopId(r2)) && (Empty(key) || sv.groupExists(key))
    ensures var found := LocateCustomer(r, sv).value;
      var p := Prepare(found, ApplyPassword(r, sv), sv);
      p.Ok? && (WriteRecord(r, sv).Ok? <==> sv.isValid(found, p.value.0))
  {
    var found := LocateCustomer(r, sv).value;
    var r1 := ApplyPassword(r, sv);
    assert Admit(r, sv) == Ok((found, r1));
    assert PrepareCustomer(WithDefaults(r1, sv), sv).Ok?;
  }

  /**
   * A new customer whose record leaves `billingStreetnumber` empty is refused for a missing
   * field, whatever else it holds.
   */
  lemma NewCustomerNeedsStreetNumber(r: Record, sv: Services)
    requires LocateCustomer(r, sv) == Ok(New) && !Filled(r, "billingStreetnumber")
    ensures WriteRecord(r, sv).Err? && WriteRecord(r, sv).error.Rejected?
    ensures WriteRecord(r, sv).error.error.FieldRequired?
  {
    assert Admit(r, sv).Err? by {
      assert RequiredFields[7] == "billingStreetnumber";
      assert !Filled(ApplyPassword(r, sv), RequiredFields[7]);
    }
  }

  /** An existing customer is never refused for a missing required field. */
  lemma ExistingNeedsNoRequiredFields(r: Record, sv: Services)
    requires LocateCustomer(r, sv).Ok? && LocateCustomer(r, sv).value.Existing?
    ensures WriteRecord(r, sv).Err? && WriteRecord(r, sv).error.Rejected? ==>
      !WriteRecord(r, sv).error.error.FieldRequired?
  {
  }

  // ---------------------------------------------------------------------------
  // The batch

  /** The stored customers, the logged messages, and the error that ended the batch, if any. */
  datatype WriteLog = WriteLog(stored: seq<Stored>, messages: seq<AdapterError>, aborted: Option<FatalError>)

  const EmptyLog := WriteLog([], [], None)

  /** Strict error mode (`=== false`) turns an adapter error into one that ends the batch. */
  predicate Strict(sv: Services) {
    sv.errorMode == Bool(false)
  }

  /** `saveMessage`. */
  function SaveMessage(log: WriteLog, e: AdapterError, sv: Services): (log': WriteLog)
    ensures log'.stored == log.stored
    ensures Strict(sv) ==> log'.messages == log.messages && log'.aborted == Some(StrictErrorMode(e))
    ensures !Strict(sv) ==> log'.messages == log.messages + [e] && log'.aborted == log.aborted
  {
    if Strict(sv) then log.(aborted := Some(StrictErrorMode(e))) else log.(messages := log.messages + [e])
  }

  /** What each record of the batch comes to on its own. */
  function Outcomes(records: seq<Record>, sv: Services): (o: seq<Result<Stored, Failure>>)
    ensures |o| == |records| && forall i :: 0 <= i < |records| ==> o[i] == WriteRecord(records[i], sv)
  {
    seq(|records|, i requires 0 <= i < |records| => WriteRecord(records[i], sv))
  }

  /** One iteration of the record loop; nothing happens once the batch has ended. */
  function Step(log: WriteLog, res: Result<Stored, Failure>, sv: Services): WriteLog {
    if log.aborted.Some? then log
    else match res
      case Ok(s) => log.(stored := log.stored + [s])
      case Err(Rejected(e)) => SaveMessage(log, e, sv)
      case Err(Aborted(f)) => log.(aborted := Some(f))
  }

  /** The record loop from a given log, over the records' outcomes. */
  function Run(outcomes: seq<Result<Stored, Failure>>, log: WriteLog, sv: Services): WriteLog
    decreases |outcomes|
  {
    if |outcomes| == 0 then log else Run(outcomes[1..], Step(log, outcomes[0], sv), sv)
  }

  /**
   * `write` on the records of the `default` section, as the event filter hands them over.
   * Every record is looked up against the same `Services`.
   */
  function Write(records: seq<Record>, sv: Services): WriteLog {
    Run(Outcomes(records, sv), EmptyLog, sv)
  }

  // ---------------------------------------------------------------------------
  // The batch, described record by record

  /** The error an outcome ends the batch with, if it does. */
  function FatalOf(res: Result<Stored, Failure>, sv: Services): (f: Option<FatalError>)
    ensures res.Ok? ==> f.None?
    ensures res.Err? && res.error.Aborted? ==> f == Some(res.error.fatal)
    ensures res.Err? && res.error.Rejected? ==> (f.Some? <==> Strict(sv))
  {
    match res
    case Ok(_) => None
    case Err(Aborted(f)) => Some(f)
    case Err(Rejected(e)) => if Strict(sv) then Some(StrictErrorMode(e)) else None
  }

  /** The stored customers among the outcomes, in order. */
  function StoredOf(outcomes: seq<Result<Stored, Failure>>): (s: seq<Stored>)
    ensures |s| <= |outcomes|
  {
    if |outcomes| == 0 then []
    else (match outcomes[0] case Ok(st) => [st] case Err(_) => []) + StoredOf(outcomes[1..])
  }

  /** The adapter errors among the outcomes, in order. */
  function RejectedOf(outcomes: seq<Result<Stored, Failure>>): (e: seq<AdapterError>)
    ensures |e| <= |outcomes|
  {
    if |outcomes| == 0 then []
    else (match outcomes[0] case Err(Rejected(e)) => [e] case _ => []) + RejectedOf(outcomes[1..])
  }

  /** Whether none of the outcomes ends the batch. */
  predicate NoneFatal(outcomes: seq<Result<Stored, Failure>>, sv: Services) {
    forall i :: 0 <= i < |outcomes| ==> FatalOf(outcomes[i], sv).None?
  }

  lemma NoneFatalTail(outcomes: seq<Result<Stored, Failure>>, sv: Services)
    requires |outcomes| > 0 && NoneFatal(outcomes, sv)
    ensures FatalOf(outcomes[0], sv).None? && NoneFatal(outcomes[1..], sv)
  {
    assert forall i :: 0 <= i < |outcomes| - 1 ==> outcomes[1..][i] == outcomes[i + 1];
  }

  /** Without a fatal outcome every record is either stored or rejected. */
  lemma {:induction false} Accounted(outcomes: seq<Result<Stored, Failure>>, sv: Services)
    requires NoneFatal(outcomes, sv)
    ensures |StoredOf(outcomes)| + |RejectedOf(outcomes)| == |outcomes|
  {
    if |outcomes| > 0 {
      NoneFatalTail(outcomes, sv);
      Accounted(outcomes[1..], sv);
    }
  }

  /** A record that does not end the batch adds its own share to what is stored and logged. */
  lemma StepShares(log: WriteLog, o: Result<Stored, Failure>, t: seq<Result<Stored, Failure>>, sv: Services)
    requires log.aborted.None? && FatalOf(o, sv).None?
    ensures var next := Step(log, o, sv);
      next.aborted.None? &&
      next.stored + StoredOf(t) == log.stored + StoredOf([o] + t) &&
      next.messages + RejectedOf(t) == log.messages + RejectedOf([o] + t)
  {
    assert ([o] + t)[0] == o && ([o] + t)[1..] == t;
    match o
    case Ok(s) =>
      assert StoredOf([o] + t) == [s] + StoredOf(t);
      assert RejectedOf([o] + t) == RejectedOf(t);
      assert log.stored + ([s] + StoredOf(t)) == (log.stored + [s]) + StoredOf(t);
    case Err(Rejected(e)) =>
      assert StoredOf([o] + t) == StoredOf(t);
      assert RejectedOf([o] + t) == [e] + RejectedOf(t);
      assert log.messages + ([e] + RejectedOf(t)) == (log.messages + [e]) + RejectedOf(t);
    case Err(Aborted(f)) =>
      assert false;
  }

  /** Without a fatal outcome, the loop stores and logs exactly what the records come to. */
  lemma {:induction false} RunWithoutFatal(outcomes: seq<Result<Stored, Failure>>, log: WriteLog, sv: Services)
    requires log.aborted.None? && NoneFatal(outcomes, sv)
    ensures Run(outcomes, log, sv) ==
      WriteLog(log.stored + StoredOf(outcomes), log.messages + RejectedOf(outcomes), None)
  {
    if |outcomes| > 0 {
      NoneFatalTail(outcomes, sv);
      RunWithoutFatal(outcomes[1..], Step(log, outcomes[0], sv), sv);
      StepShares(log, outcomes[0], outcomes[1..], sv);
      assert [outcomes[0]] + outcomes[1..] == outcomes;
    } else {
      assert log.stored + [] == log.stored && log.messages + [] == log.messages;
    }
  }

  /** Once the batch has ended, later records change nothing. */
  lemma {:induction false} RunAfterAbort(outcomes: seq<Result<Stored, Failure>>, log: WriteLog, sv: Services)
    requires log.aborted.Some?
    ensures Run(outcomes, log, sv) == log
  {
    if |outcomes| > 0 {
      RunAfterAbort(outcomes[1..], log, sv);
    }
  }

  /** A fatal first outcome ends the batch with its error and nothing else. */
  lemma FatalFirst(outcomes: seq<Result<Stored, Failure>>, log: WriteLog, sv: Services)
    requires log.aborted.None? && |outcomes| > 0 && FatalOf(outcomes[0], sv).Some?
    ensures Run(outcomes, log, sv) == log.(aborted := FatalOf(outcomes[0], sv))
  {
    RunAfterAbort(outcomes[1..], Step(log, outcomes[0], sv), sv);
  }

  lemma PrefixCons(outcomes: seq<Result<Stored, Failure>>, i: nat)
    requires 0 < i <= |outcomes|
    ensures outcomes[..i] == [outcomes[0]] + outcomes[1..][..i - 1]
  {
  }

  /**
   * The first fatal outcome decides the batch's error: what was stored and logged is what
   * the records before it come to, and later records change nothing.
   */
  lemma {:induction false} RunUpToFatal(outcomes: seq<Result<Stored, Failure>>, log: WriteLog, sv: Services, i: nat)
    requires log.aborted.None?
    requires i < |outcomes| && FatalOf(outcomes[i], sv).Some? && NoneFatal(outcomes[..i], sv)
    ensures Run(outcomes, log, sv) ==
      WriteLog(log.stored + StoredOf(outcomes[..i]), log.messages + RejectedOf(outcomes[..i]), FatalOf(outcomes[i], sv))
  {
    if i == 0 {
      FatalFirst(outcomes, log, sv);
      assert log.stored + [] == log.stored && log.messages + [] == log.messages;
    } else {
      var tail := outcomes[1..];
      PrefixCons(outcomes, i);
      NoneFatalTail(outcomes[..i], sv);
      assert tail[i - 1] == outcomes[i];
      RunUpToFatal(tail, Step(log, outcomes[0], sv), sv, i - 1);
      StepShares(log, outcomes[0], tail[..i - 1], sv);
    }
  }

  /** The loop over two batches is the loop over the second from where the first left off. */
  lemma {:induction false} RunComposes(a: seq<Result<Stored, Failure>>, b: seq<Result<Stored, Failure>>, log: WriteLog, sv: Services)
    ensures Run(a + b, log, sv) == Run(b, Run(a, log, sv), sv)
  {
    if |a| > 0 {
      assert (a + b)[1..] == a[1..] + b;
      RunComposes(a[1..], b, Step(log, a[0], sv), sv);
    } else {
      assert a + b == b;
    }
  }

  /** Writing two batches one after the other is writing them together. */
  lemma WriteComposes(a: seq<Record>, b: seq<Record>, sv: Services)
    ensures Write(a + b, sv) == Run(Outcomes(b, sv), Write(a, sv), sv)
  {
    assert Outcomes(a + b, sv) == Outcomes(a, sv) + Outcomes(b, sv);
    RunComposes(Outcomes(a, sv), Outcomes(b, sv), EmptyLog, sv);
  }

  /** In strict error mode nothing is ever logged: the first adapter error ends the batch. */
  lemma {:induction false} StrictLogsNothing(outcomes: seq<Result<Stored, Failure>>, log: WriteLog, sv: Services)
    requires Strict(sv) && log.messages == []
    ensures Run(outcomes, log, sv).messages == []
  {
    if |outcomes| > 0 {
      StrictLogsNothing(outcomes[1..], Step(log, outcomes[0], sv), sv);
    }
  }
}

=== FILE: node_actions.dfy ===
/**
 * The batch actions of the profile editor: `createNodeAction`, `updateNodeAction` and
 * `deleteNodeAction`. Each takes a list of node requests, edits the decoded tree one
 * request at a time and reports whether every request succeeded; the tree is stored
 * whatever the outcome.
 */
module NodeActions {
  import opened Wrappers
  import opened ProfileTree
  import opened TreeAppend
  import opened TreeFind
  import opened TreeChange
  import opened TreeDelete

  /** The tree that gets stored, and whether the response reports success. */
  datatype Outcome = Outcome(tree: Node, ok: bool)

  /**
   * `createNodeAction`: every request gets the next generated id (`newIds`, one per
   * request) and is appended; a failed append is reported but the batch carries on.
   */
  function CreateNodes(t: Node, reqs: seq<NodeRequest>, newIds: seq<string>): Outcome
    requires |newIds| == |reqs|
    decreases |reqs|
  {
    if |reqs| == 0 then Outcome(t, true)
    else
      var step := AppendNode(t, reqs[0].(id := newIds[0]));
      var rest := CreateNodes(if step.Some? then step.value else t, reqs[1..], newIds[1..]);
      Outcome(rest.tree, step.Some? && rest.ok)
  }

  /**
   * One request of `updateNodeAction`: change the node; look it up again; if the request
   * names a different parent than the one found, delete the node and re-attach the found
   * copy under the requested parent. `ok == false` makes the batch stop.
   */
  function UpdateStep(t: Node, req: NodeRequest): Outcome {
    match ChangeNode(t, req)
    case None => Outcome(t, false)
    case Some(t1) =>
      match GetNodeById(req.id, t1, "root")
      case None => Outcome(t1, false)
      case Some(found) =>
        if req.parentId == found.parentId then Outcome(t1, true)
        else match DeleteNode(t1, req.id)
          case None => Outcome(t1, false)
          case Some(t2) =>
            match MoveNode(t2, req.parentId, req.kind, found.node)
            case None => Outcome(t2, false)
            case Some(t3) => Outcome(t3, true)
  }

  /** `updateNodeAction`: the first failing request ends the batch; what was done stays. */
  function UpdateNodes(t: Node, reqs: seq<NodeRequest>): Outcome
    decreases |reqs|
  {
    if |reqs| == 0 then Outcome(t, true)
    else
      var step := UpdateStep(t, reqs[0]);
      if !step.ok then step else UpdateNodes(step.tree, reqs[1..])
  }

  /** `deleteNodeAction`: every id is deleted in turn; a failure is reported and the batch carries on. */
  function DeleteNodes(t: Node, ids: seq<string>): Outcome
    decreases |ids|
  {
    if |ids| == 0 then Outcome(t, true)
    else
      var step := DeleteNode(t, ids[0]);
      var rest := DeleteNodes(if step.Some? then step.value else t, ids[1..]);
      Outcome(rest.tree, step.Some? && rest.ok)
  }

  // ---------------------------------------------------------------------------
  // Carrying on versus stopping

  /** Creating is a plain sequence: a batch is its first part followed by the rest, and succeeds when both do. */
  lemma {:induction false} CreateComposes(t: Node, a: seq<NodeRequest>, b: seq<NodeRequest>, fa: seq<string>, fb: seq<string>)
    requires |fa| == |a| && |fb| == |b|
    ensures CreateNodes(t, a + b, fa + fb) ==
      Outcome(CreateNodes(CreateNodes(t, a, fa).tree, b, fb).tree,
              CreateNodes(t, a, fa).ok && CreateNodes(CreateNodes(t, a, fa).tree, b, fb).ok)
    decreases |a|
  {
    if |a| > 0 {
      var step := AppendNode(t, a[0].(id := fa[0]));
      var t' := if step.Some? then step.value else t;
      CreateComposes(t', a[1..], b, fa[1..], fb);
      var first := CreateNodes(t', a[1..], fa[1..]);
      assert CreateNodes(t, a, fa) == Outcome(first.tree, step.Some? && first.ok);
      var whole := CreateNodes(t', a[1..] + b, fa[1..] + fb);
      assert CreateNodes(t, a + b, fa + fb) == Outcome(whole.tree, step.Some? && whole.ok) by {
        assert (a + b)[0] == a[0] && (a + b)[1..] == a[1..] + b;
        assert (fa + fb)[0] == fa[0] && (fa + fb)[1..] == fa[1..] + fb;
      }
    } else {
      assert a + b == b && fa + fb == fb;
    }
  }

  /** Deleting is a plain sequence in the same way. */
  lemma {:induction false} DeleteComposes(t: Node, a: seq<string>, b: seq<string>)
    ensures DeleteNodes(t, a + b) ==
      Outcome(DeleteNodes(DeleteNodes(t, a).tree, b).tree, DeleteNodes(t, a).ok && DeleteNodes(DeleteNodes(t, a).tree, b).ok)
    decreases |a|
  {
    if |a| > 0 {
      var step := DeleteNode(t, a[0]);
      DeleteComposes(if step.Some? then step.value else t, a[1..], b);
      assert (a + b)[0] == a[0] && (a + b)[1..] == a[1..] + b;
    } else {
      assert a + b == b;
    }
  }

  /** Updating stops: the rest of a batch runs only if its first part succeeded. */
  lemma {:induction false} UpdateComposes(t: Node, a: seq<NodeRequest>, b: seq<NodeRequest>)
    ensures UpdateNodes(t, a + b) ==
      (if UpdateNodes(t, a).ok then UpdateNodes(UpdateNodes(t, a).tree, b) else UpdateNodes(t, a))
    decreases |a|
  {
    if |a| > 0 {
      assert (a + b)[0] == a[0] && (a + b)[1..] == a[1..] + b;
      var step := UpdateStep(t, a[0]);
      if step.ok {
        UpdateComposes(step.tree, a[1..], b);
      }
    } else {
      assert a + b == b;
    }
  }

  // ---------------------------------------------------------------------------
  // Ids

  /**
   * Creating adds at most the generated ids, exactly those when the batch succeeds; so
   * generated ids that are distinct and new keep the tree's ids unique.
   */
  lemma {:induction false} CreateIds(t: Node, reqs: seq<NodeRequest>, newIds: seq<string>)
    requires |newIds| == |reqs|
    ensures Ids(CreateNodes(t, reqs, newIds).tree) <= Ids(t) + multiset(newIds)
    ensures CreateNodes(t, reqs, newIds).ok ==> Ids(CreateNodes(t, reqs, newIds).tree) == Ids(t) + multiset(newIds)
    decreases |reqs|
  {
    if |reqs| > 0 {
      var req := reqs[0].(id := newIds[0]);
      var step := AppendNode(t, req);
      var t' := if step.Some? then step.value else t;
      AppendNodeSpec(t, req);
      CreateIds(t', reqs[1..], newIds[1..]);
      assert newIds == [newIds[0]] + newIds[1..];
      assert multiset(newIds) == multiset{newIds[0]} + multiset(newIds[1..]);
    }
  }

  lemma CreateKeepsIdsUnique(t: Node, reqs: seq<NodeRequest>, newIds: seq<string>)
    requires |newIds| == |reqs|
    requires forall x | x in Ids(t) + multiset(newIds) :: (Ids(t) + multiset(newIds))[x] <= 1
    ensures UniqueIds(CreateNodes(t, reqs, newIds).tree)
  {
    CreateIds(t, reqs, newIds);
  }

  lemma MoveIds(t: Node, parentId: string, kind: string, n: Node)
    requires MoveNode(t, parentId, kind, n).Some?
    ensures Ids(MoveNode(t, parentId, kind, n).value) == Ids(t) + Ids(n)
  {
    AttachIds(t, parentId, n.(kind := None), kind == "attribute");
  }

  /** After a successful change the lookup that follows it cannot fail. */
  lemma ChangedNodeIsFound(t: Node, req: NodeRequest)
    requires ChangeNode(t, req).Some?
    ensures GetNodeById(req.id, ChangeNode(t, req).value, "root").Some?
  {
    ChangeEditsFirstMatch(t, req);
    var p :| FirstMatch(ChangeSearch, t, req.id, p) && ChangeNode(t, req).value == Replace(t, p, Changed(At(t, p), req));
    ReplaceAt(t, p, Changed(At(t, p), req));
    assert Matches(FindSearch, ChangeNode(t, req).value, req.id, p);
    FindFailsIffAbsent(req.id, ChangeNode(t, req).value, "root");
  }

  /** With unique ids a successful update step, move or not, keeps exactly the same ids. */
  lemma UpdateStepKeepsIds(t: Node, req: NodeRequest)
    requires UniqueIds(t) && UpdateStep(t, req).ok
    ensures Ids(UpdateStep(t, req).tree) == Ids(t)
  {
    var t1 := ChangeNode(t, req).value;
    ChangeKeepsIds(t, req);
    var found := GetNodeById(req.id, t1, "root").value;
    if req.parentId != found.parentId {
      var t2 := DeleteNode(t1, req.id).value;
      DeleteRemovesFirstMatch(t1, req.id);
      var p :| FirstMatch(DeleteSearch, t1, req.id, p) && |p| > 0 && t2 == RemoveAt(t1, p);
      RemoveAtIds(t1, p);
      FindUnique(req.id, t1, p);
      MoveIds(t2, req.parentId, req.kind, found.node);
      assert Ids(found.node.(kind := None)) == Ids(found.node);
    }
  }

  /** With unique ids, a batch of updates that succeeds keeps exactly the same ids. */
  lemma {:induction false} UpdateNodesKeepsIds(t: Node, reqs: seq<NodeRequest>)
    requires UniqueIds(t) && UpdateNodes(t, reqs).ok
    ensures Ids(UpdateNodes(t, reqs).tree) == Ids(t)
    decreases |reqs|
  {
    if |reqs| > 0 {
      UpdateStepKeepsIds(t, reqs[0]);
      UpdateNodesKeepsIds(UpdateStep(t, reqs[0]).tree, reqs[1..]);
    }
  }

  /** With unique ids, a change reaches the node at `p`, and the lookup after it finds that node where it was. */
  lemma ChangeThenFind(t: Node, req: NodeRequest, p: Path)
    requires UniqueIds(t) && ValidPath(t, p) && At(t, p).id == req.id
    ensures ChangeNode(t, req) == Some(Replace(t, p, Changed(At(t, p), req)))
    ensures UniqueIds(ChangeNode(t, req).value)
    ensures ValidPath(ChangeNode(t, req).value, p) && At(ChangeNode(t, req).value, p).id == req.id
    ensures Ids(At(ChangeNode(t, req).value, p)) == Ids(At(t, p))
    ensures GetNodeById(req.id, ChangeNode(t, req).value, "root") ==
      Some(Found(At(ChangeNode(t, req).value, p), ParentIdAt(t, p, "root")))
  {
    var n := At(t, p);
    var t1 := Replace(t, p, Changed(n, req));
    assert ChangeNode(t, req) == Some(t1) by {
      assert Matches(ChangeSearch, t, req.id, p);
      UniqueMatchIsFirst(ChangeSearch, t, req.id, p);
      ChangeAtFirstMatch(t, req, p);
    }
    assert UniqueIds(t1) by {
      ChangeKeepsIds(t, req);
    }
    ReplaceAt(t, p, Changed(n, req));
    assert Ids(At(t1, p)) == Ids(n);
    FindUnique(req.id, t1, p);
  }

  /** With unique ids, deleting the id at a path the delete search reaches removes that subtree and all its ids. */
  lemma DeleteDropsAllOf(t: Node, id: string, p: Path)
    requires UniqueIds(t) && ValidPath(t, p) && Searched(DeleteSearch, p) && At(t, p).id == id
    ensures |p| > 0 && DeleteNode(t, id) == Some(RemoveAt(t, p))
    ensures forall x :: x in Ids(At(t, p)) ==> x !in Ids(RemoveAt(t, p))
  {
    assert Matches(DeleteSearch, t, id, p);
    UniqueMatchIsFirst(DeleteSearch, t, id, p);
    DeleteAtFirstMatch(t, id, p);
    RemoveAtIds(t, p);
    AtIds(t, p);
    forall x | x in Ids(At(t, p)) ensures x !in Ids(RemoveAt(t, p)) {
      assert (Ids(RemoveAt(t, p)) + Ids(At(t, p)))[x] == Ids(t)[x];
    }
  }

  /**
   * Moving a node under a node of its own subtree: the node is deleted first, so the new
   * parent is gone and the re-attach fails; the batch stops, and the stored tree has lost
   * the whole subtree.
   */
  lemma MoveUnderOwnSubtreeLosesIt(t: Node, req: NodeRequest, p: Path)
    requires UniqueIds(t) && ValidPath(t, p) && Searched(DeleteSearch, p) && At(t, p).id == req.id
    requires req.parentId in Ids(At(t, p)) && req.parentId != ParentIdAt(t, p, "root")
    ensures !UpdateStep(t, req).ok
    ensures forall x :: x in Ids(At(t, p)) ==> x !in Ids(UpdateStep(t, req).tree)
  {
    ChangeThenFind(t, req, p);
    var t1 := ChangeNode(t, req).value;
    var found := GetNodeById(req.id, t1, "root").value;
    DeleteDropsAllOf(t1, req.id, p);
    var t2 := RemoveAt(t1, p);
    if Present(AppendSearch, t2, req.parentId) {
      var q :| Matches(AppendSearch, t2, req.parentId, q);
      AtIds(t2, q);
    }
    AttachFailsIffNoParent(t2, req.parentId, found.node.(kind := None), req.kind == "attribute");
    assert UpdateStep(t, req) == Outcome(t2, false);
  }

  lemma DeleteShrinks(t: Node, id: string)
    requires DeleteNode(t, id).Some?
    ensures Ids(DeleteNode(t, id).value) <= Ids(t)
  {
    DeleteRemovesFirstMatch(t, id);
    var p :| FirstMatch(DeleteSearch, t, id, p) && |p| > 0 && DeleteNode(t, id).value == RemoveAt(t, p);
    RemoveAtIds(t, p);
  }

  /** Deleting never adds an id, so unique ids stay unique. */
  lemma {:induction false} DeleteNodesShrinks(t: Node, ids: seq<string>)
    ensures Ids(DeleteNodes(t, ids).tree) <= Ids(t)
    ensures UniqueIds(t) ==> UniqueIds(DeleteNodes(t, ids).tree)
    decreases |ids|
  {
    if |ids| > 0 {
      var step := DeleteNode(t, ids[0]);
      if step.Some? {
        DeleteShrinks(t, ids[0]);
      }
      DeleteNodesShrinks(if step.Some? then step.value else t, ids[1..]);
    }
  }

  /** With unique ids, a delete batch that succeeds leaves none of its ids in the tree. */
  lemma {:induction false} DeleteNodesRemoves(t: Node, ids: seq<string>)
    requires UniqueIds(t) && DeleteNodes(t, ids).ok
    ensures forall i :: 0 <= i < |ids| ==> ids[i] !in Ids(DeleteNodes(t, ids).tree)
    decreases |ids|
  {
    if |ids| > 0 {
      var t' := DeleteNode(t, ids[0]).value;
      DeleteRemovesSubtree(t, ids[0]);
      DeleteNodesShrinks(t', ids[1..]);
      DeleteNodesRemoves(t', ids[1..]);
      assert forall i :: 0 < i < |ids| ==> ids[i] == ids[1..][i - 1];
    }
  }
}

=== FILE: php.dfy ===
/**
 * The slice of PHP's value model the customer adapter relies on: scalar values with
 * `empty()` and `(int)`, and records as ordered arrays with string keys, read with
 * `isset`/`empty`, written by assignment and `unset`.
 */
module Php {
  /** A scalar as it arrives in an import record, or is produced by a lookup. */
  datatype Value = Null | Bool(b: bool) | Int(i: int) | Str(s: string)

  /** PHP's `empty()` on a value that is there; an absent key reads as `Null`. */
  predicate Empty(v: Value) {
    match v
    case Null => true
    case Bool(b) => !b
    case Int(i) => i == 0
    case Str(s) => s == "" || s == "0"
  }

  /** An ordered array entry. */
  datatype Entry = Entry(key: string, value: Value)

  /** An ordered array with string keys; assignment keeps the keys distinct. */
  type Record = seq<Entry>

  function Keys(r: Record): (ks: seq<string>)
    ensures |ks| == |r| && forall i :: 0 <= i < |r| ==> ks[i] == r[i].key
  {
    seq(|r|, i requires 0 <= i < |r| => r[i].key)
  }

  predicate UniqueKeys(r: Record) {
    forall i, j :: 0 <= i < j < |r| ==> r[i].key != r[j].key
  }

  /** `$r[$k]`, reading `null` for a missing key. */
  function Get(r: Record, k: string): (v: Value)
    ensures k !in Keys(r) ==> v == Null
    ensures v != Null ==> exists i :: 0 <= i < |r| && r[i].key == k && r[i].value == v
  {
    if |r| == 0 then Null
    else if r[0].key == k then r[0].value
    else
      assert Keys(r) == [r[0].key] + Keys(r[1..]);
      assert forall i :: 1 <= i < |r| ==> r[i] == r[1..][i - 1];
      Get(r[1..], k)
  }

  /** Reading an array through its first entry. */
  lemma ConsEntry(e: Entry, t: Record)
    ensures Keys([e] + t) == [e.key] + Keys(t)
    ensures forall k :: Get([e] + t, k) == if e.key == k then e.value else Get(t, k)
  {
    assert ([e] + t)[1..] == t;
  }

  /** `$r[$k]` is the value of the first entry with key `k`. */
  lemma {:induction false} GetFirst(r: Record, k: string, i: nat)
    requires i < |r| && r[i].key == k && forall j :: 0 <= j < i ==> r[j].key != k
    ensures Get(r, k) == r[i].value
  {
    if i > 0 {
      GetFirst(r[1..], k, i - 1);
    }
  }

  /** `isset($r[$k])`. */
  predicate IsSet(r: Record, k: string) {
    Get(r, k) != Null
  }

  /** `isset($r[$k]) && !empty($r[$k])`, which is `!empty($r[$k])`. */
  predicate Filled(r: Record, k: string) {
    !Empty(Get(r, k))
  }

  /** `$r[$k] = $v`: an existing key keeps its position, a new one is appended. */
  function Put(r: Record, k: string, v: Value): (r': Record)
    ensures Keys(r') == if k in Keys(r) then Keys(r) else Keys(r) + [k]
    ensures Get(r', k) == v
    ensures forall k' :: k' != k ==> Get(r', k') == Get(r, k')
  {
    if |r| == 0 then
      ConsEntry(Entry(k, v), []);
      [Entry(k, v)]
    else
      ConsEntry(r[0], r[1..]);
      assert [r[0]] + r[1..] == r;
      if r[0].key == k then
        ConsEntry(Entry(k, v), r[1..]);
        [Entry(k, v)] + r[1..]
      else
        var rest := Put(r[1..], k, v);
        ConsEntry(r[0], rest);
        [r[0]] + rest
  }

  /** `unset($r[$k])`: the entry goes, the others keep their order. */
  function Unset(r: Record, k: string): (r': Record)
    ensures k !in Keys(r')
    ensures forall k' :: k' != k ==> Get(r', k') == Get(r, k')
    ensures |r'| <= |r|
  {
    if |r| == 0 then r
    else
      var rest := Unset(r[1..], k);
      ConsEntry(r[0], r[1..]);
      assert [r[0]] + r[1..] == r;
      if r[0].key == k then rest
      else
        ConsEntry(r[0], rest);
        [r[0]] + rest
  }

  /** `unset` keeps every other key. */
  lemma {:induction false} UnsetKeys(r: Record, k: string, k': string)
    ensures k' in Keys(Unset(r, k)) <==> k' in Keys(r) && k' != k
  {
    if |r| > 0 {
      UnsetKeys(r[1..], k, k');
      ConsEntry(r[0], r[1..]);
      assert [r[0]] + r[1..] == r;
      ConsEntry(r[0], Unset(r[1..], k));
    }
  }

  /** Removing a key just written gives the same array as removing it from the start. */
  lemma {:induction false} UnsetAfterPut(r: Record, k: string, v: Value)
    ensures Unset(Put(r, k, v), k) == Unset(r, k)
  {
    if |r| > 0 && r[0].key != k {
      UnsetAfterPut(r[1..], k, v);
      assert Put(r, k, v)[1..] == Put(r[1..], k, v);
    } else if |r| > 0 {
      assert Put(r, k, v)[1..] == r[1..];
    }
  }

  /** Writing the value a key already has changes nothing, when keys are distinct. */
  lemma {:induction false} PutSame(r: Record, k: string)
    requires UniqueKeys(r) && k in Keys(r)
    ensures Put(r, k, Get(r, k)) == r
  {
    assert [r[0]] + r[1..] == r;
    if r[0].key != k {
      var t := r[1..];
      assert k in Keys(t) by {
        var i :| 0 <= i < |r| && Keys(r)[i] == k;
        assert Keys(t)[i - 1] == k;
      }
      assert UniqueKeys(t) by {
        forall i, j | 0 <= i < j < |t| ensures t[i].key != t[j].key {
          assert t[i] == r[i + 1] && t[j] == r[j + 1];
        }
      }
      PutSame(t, k);
      assert Get(r, k) == Get(t, k);
      assert Put(r, k, Get(t, k)) == [r[0]] + Put(t, k, Get(t, k));
    }
  }

  // ---------------------------------------------------------------------------
  // (int)

  predicate IsDigit(c: char) { '0' <= c <= '9' }

  /** The characters C's `strtol`, and so PHP's string-to-int conversion, skips first. */
  predicate IsSpace(c: char) {
    c == ' ' || c == '\t' || c == '\n' || c == '\r' || c == '\U{B}' || c == '\U{C}'
  }

  /** The longest prefix of digits. */
  function DigitPrefix(s: string): (d: string)
    ensures d <= s && forall i :: 0 <= i < |d| ==> IsDigit(d[i])
    ensures |d| < |s| ==> !IsDigit(s[|d|])
  {
    if |s| > 0 && IsDigit(s[0]) then [s[0]] + DigitPrefix(s[1..]) else ""
  }

  /** The number a string of decimal digits denotes. */
  function DigitsValue(d: string): (n: nat)
    requires forall i :: 0 <= i < |d| ==> IsDigit(d[i])
  {
    if |d| == 0 then 0
    else
      assert IsDigit(d[|d| - 1]);
      DigitsValue(d[..|d| - 1]) * 10 + (d[|d| - 1] as int - '0' as int)
  }

  function SkipSpace(s: string): (r: string)
    ensures r <= s || (|r| <= |s| && r == s[|s| - |r|..])
    ensures |r| > 0 ==> !IsSpace(r[0])
  {
    if |s| > 0 && IsSpace(s[0]) then SkipSpace(s[1..]) else s
  }

  /** The integer at the start of a string: blanks, an optional sign, digits; 0 without digits. */
  function LeadingInt(s: string): int {
    var t := SkipSpace(s);
    if |t| > 0 && t[0] == '-' then 0 - DigitsValue(DigitPrefix(t[1..]))
    else if |t| > 0 && t[0] == '+' then DigitsValue(DigitPrefix(t[1..]))
    else DigitsValue(DigitPrefix(t))
  }

  /** PHP's `(int)` cast. */
  function IntCast(v: Value): int {
    match v
    case Null => 0
    case Bool(b) => if b then 1 else 0
    case Int(i) => i
    case Str(s) => LeadingInt(s)
  }

  /** The decimal digits of a natural number, as PHP prints it. */
  function Decimal(n: nat): (d: string)
    ensures |d| > 0 && forall i :: 0 <= i < |d| ==> IsDigit(d[i])
  {
    var last := [('0' as int + n % 10) as char];
    if n < 10 then last else Decimal(n / 10) + last
  }

  /** The digits PHP prints for `n` denote `n`. */
  lemma {:induction false} DecimalValue(n: nat)
    ensures DigitsValue(Decimal(n)) == n
  {
    var d := Decimal(n);
    if n >= 10 {
      DecimalValue(n / 10);
      assert d[..|d| - 1] == Decimal(n / 10);
    }
  }

  lemma {:induction false} DigitPrefixOfDigits(d: string)
    requires forall i :: 0 <= i < |d| ==> IsDigit(d[i])
    ensures DigitPrefix(d) == d
  {
    if |d| > 0 {
      DigitPrefixOfDigits(d[1..]);
    }
  }

  lemma LeadingIntOfDigits(d: string)
    requires |d| > 0 && forall i :: 0 <= i < |d| ==> IsDigit(d[i])
    ensures LeadingInt(d) == DigitsValue(d)
    ensures LeadingInt("-" + d) == 0 - DigitsValue(d)
  {
    DigitPrefixOfDigits(d);
    assert SkipSpace(d) == d;
    assert SkipSpace("-" + d) == "-" + d;
    assert ("-" + d)[1..] == d;
  }

  /** `(int)` reads back every integer PHP prints. */
  lemma IntCastOfPrinted(i: int)
    ensures IntCast(Str(if i < 0 then "-" + Decimal(-i) else Decimal(i))) == i
  {
    var n: nat := if i < 0 then -i else i;
    DecimalValue(n);
    LeadingIntOfDigits(Decimal(n));
  }

  /** PHP's string conversion of a scalar. */
  function StrVal(v: Value): (s: string)
    ensures v.Str? ==> s == v.s
  {
    match v
    case Null => ""
    case Bool(b) => if b then "1" else ""
    case Int(i) => if i < 0 then "-" + Decimal(-i) else Decimal(i)
    case Str(t) => t
  }

  /** `(int)` reads back the string an integer converts to. */
  lemma IntCastOfStrVal(i: int)
    ensures IntCast(Str(StrVal(Int(i)))) == i
  {
    IntCastOfPrinted(i);
  }
}

=== FILE: profile_tree.dfy ===
/**
 * The profile mapping tree as the import/export profile stores it (a JSON document
 * decoded into nested PHP arrays), and the vocabulary used to state what the editor's
 * recursive operations do: paths into the tree, the set of ids in a tree, and the
 * order in which each operation visits candidate nodes.
 */
module ProfileTree {
  import opened Wrappers

  /**
   * One entry of the tree. Every key except `id`, `name`, `children` and `attributes`
   * may be missing in the stored document, hence the `Option`s; a missing `children`
   * key behaves exactly like an empty list everywhere, while a present-but-empty
   * `attributes` key is observable (it makes the node a non-leaf in the admin view),
   * which `hasAttributesKey` records.
   */
  datatype Node = Node(
    id: string,
    name: string,
    kind: Option<string>,            // the stored `type`: node, leaf, iteration, ...
    index: Option<int>,
    shopwareField: Option<string>,
    adapter: Option<string>,
    parentKey: Option<string>,
    children: seq<Node>,
    attributes: seq<Node>,
    hasAttributesKey: bool)

  /** A node holding only an id and a name, as the editor creates them. */
  function Bare(id: string, name: string): Node {
    Node(id, name, None, None, None, None, None, [], [], false)
  }

  /** Whether the stored record carries an `attributes` key. */
  predicate CarriesAttributes(n: Node) {
    n.hasAttributesKey || |n.attributes| > 0
  }

  /**
   * A node record as the admin tree sends it with a create or update request: `text`
   * is the display name, `kind` the requested `type`, `parentId` the id of the node it
   * is to be placed under, and `swColumn` the bound data-source column. For a create
   * request `id` is the freshly generated id.
   */
  datatype NodeRequest = NodeRequest(
    id: string,
    parentId: string,
    kind: string,
    text: string,
    index: Option<int>,
    swColumn: Option<string>,
    adapter: Option<string>,
    parentKey: Option<string>)

  // ---------------------------------------------------------------------------
  // Paths

  /** One step down the tree: into the k-th child or the k-th attribute. */
  datatype Step = Child(k: nat) | Attr(k: nat)

  type Path = seq<Step>

  predicate StepOk(t: Node, s: Step) {
    match s
    case Child(k) => k < |t.children|
    case Attr(k) => k < |t.attributes|
  }

  function Sub(t: Node, s: Step): Node
    requires StepOk(t, s)
  {
    match s
    case Child(k) => t.children[k]
    case Attr(k) => t.attributes[k]
  }

  /** `t` with the entry that step `s` leads to replaced by `c`. */
  function Swap(t: Node, s: Step, c: Node): Node
    requires StepOk(t, s)
  {
    match s
    case Child(k) => t.(children := t.children[k := c])
    case Attr(k) => t.(attributes := t.attributes[k := c])
  }

  predicate ValidPath(t: Node, p: Path)
    decreases |p|
  {
    |p| == 0 || (StepOk(t, p[0]) && ValidPath(Sub(t, p[0]), p[1..]))
  }

  /** The node reached from `t` along `p`. */
  function At(t: Node, p: Path): Node
    requires ValidPath(t, p)
    decreases |p|
  {
    if |p| == 0 then t else At(Sub(t, p[0]), p[1..])
  }

  /** `t` with the node at `p` replaced by `n`. */
  function Replace(t: Node, p: Path, n: Node): Node
    requires ValidPath(t, p)
    decreases |p|
  {
    if |p| == 0 then n else Swap(t, p[0], Replace(Sub(t, p[0]), p[1..], n))
  }

  /** `t` with the node at the non-empty path `p`, and so its whole subtree, taken out of its list. */
  function RemoveAt(t: Node, p: Path): Node
    requires ValidPath(t, p) && |p| > 0
    decreases |p|
  {
    if |p| == 1 then
      match p[0]
      case Child(k) => t.(children := t.children[..k] + t.children[k + 1..])
      case Attr(k) => t.(attributes := t.attributes[..k] + t.attributes[k + 1..], hasAttributesKey := true)
    else Swap(t, p[0], RemoveAt(Sub(t, p[0]), p[1..]))
  }

  /** The id of the node enclosing the node at `p`; `top` for the root itself. */
  function ParentIdAt(t: Node, p: Path, top: string): string
    requires ValidPath(t, p)
    decreases |p|
  {
    if |p| == 0 then top else ParentIdAt(Sub(t, p[0]), p[1..], t.id)
  }

  lemma PathCons(t: Node, s: Step, q: Path)
    ensures ValidPath(t, [s] + q) <==> StepOk(t, s) && ValidPath(Sub(t, s), q)
    ensures ValidPath(t, [s] + q) ==> At(t, [s] + q) == At(Sub(t, s), q)
    ensures ValidPath(t, [s] + q) ==> forall top :: ParentIdAt(t, [s] + q, top) == ParentIdAt(Sub(t, s), q, t.id)
    ensures ValidPath(t, [s] + q) ==> forall n :: Replace(t, [s] + q, n) == Swap(t, s, Replace(Sub(t, s), q, n))
    ensures ValidPath(t, [s] + q) && |q| > 0 ==> RemoveAt(t, [s] + q) == Swap(t, s, RemoveAt(Sub(t, s), q))
  {
    assert ([s] + q)[0] == s;
    assert ([s] + q)[1..] == q;
  }

  /** After a replacement the path still leads somewhere, to the new node, and the nodes above it keep their ids. */
  lemma {:induction false} ReplaceAt(t: Node, p: Path, n: Node)
    requires ValidPath(t, p)
    ensures ValidPath(Replace(t, p, n), p)
    ensures At(Replace(t, p, n), p) == n
    ensures forall top :: ParentIdAt(Replace(t, p, n), p, top) == ParentIdAt(t, p, top)
    ensures |p| > 0 ==> Replace(t, p, n).id == t.id
    decreases |p|
  {
    if |p| > 0 {
      ReplaceAt(Sub(t, p[0]), p[1..], n);
    }
  }

  lemma PathSnoc(t: Node, p: Path, s: Step)
    ensures ValidPath(t, p + [s]) <==> ValidPath(t, p) && StepOk(At(t, p), s)
    ensures ValidPath(t, p + [s]) ==> At(t, p + [s]) == Sub(At(t, p), s)
    decreases |p|
  {
    if |p| == 0 {
      assert p + [s] == [s];
      PathCons(t, s, []);
    } else {
      assert (p + [s])[0] == p[0];
      assert (p + [s])[1..] == p[1..] + [s];
      if StepOk(t, p[0]) {
        PathSnoc(Sub(t, p[0]), p[1..], s);
      }
    }
  }

  // ---------------------------------------------------------------------------
  // Ids

  /** Every id in the tree, attributes included, with multiplicity. */
  function Ids(t: Node): multiset<string>
    decreases t
  {
    multiset{t.id} + IdsOf(t.children) + IdsOf(t.attributes)
  }

  function IdsOf(cs: seq<Node>): multiset<string>
    decreases cs
  {
    if |cs| == 0 then multiset{} else Ids(cs[0]) + IdsOf(cs[1..])
  }

  /** No id occurs twice: the invariant the editor is meant to keep. */
  predicate UniqueIds(t: Node) {
    forall x | x in Ids(t) :: Ids(t)[x] <= 1
  }

  lemma {:induction false} IdsOfConcat(a: seq<Node>, b: seq<Node>)
    ensures IdsOf(a + b) == IdsOf(a) + IdsOf(b)
    decreases |a|
  {
    if |a| == 0 {
      assert a + b == b;
    } else {
      assert (a + b)[0] == a[0];
      assert (a + b)[1..] == a[1..] + b;
      IdsOfConcat(a[1..], b);
    }
  }

  lemma IdsOfSplit(cs: seq<Node>, k: nat)
    requires k < |cs|
    ensures IdsOf(cs) == IdsOf(cs[..k]) + Ids(cs[k]) + IdsOf(cs[k + 1..])
  {
    var a, b := cs[..k], cs[k..];
    assert cs == a + b;
    IdsOfConcat(a, b);
    assert b[0] == cs[k] && b[1..] == cs[k + 1..];
    assert IdsOf(b) == Ids(cs[k]) + IdsOf(cs[k + 1..]);
  }

  /** Replacing one list element swaps exactly its ids. */
  lemma IdsOfUpdate(cs: seq<Node>, k: nat, c: Node)
    requires k < |cs|
    ensures IdsOf(cs[k := c]) + Ids(cs[k]) == IdsOf(cs) + Ids(c)
  {
    var cs' := cs[k := c];
    IdsOfSplit(cs, k);
    IdsOfSplit(cs', k);
    assert cs'[..k] == cs[..k];
    assert cs'[k + 1..] == cs[k + 1..];
  }

  lemma IdsOfRemove(cs: seq<Node>, k: nat)
    requires k < |cs|
    ensures IdsOf(cs[..k] + cs[k + 1..]) + Ids(cs[k]) == IdsOf(cs)
  {
    IdsOfSplit(cs, k);
    IdsOfConcat(cs[..k], cs[k + 1..]);
  }

  lemma IdsOfAppend(cs: seq<Node>, e: Node)
    ensures IdsOf(cs + [e]) == IdsOf(cs) + Ids(e)
  {
    IdsOfConcat(cs, [e]);
    assert [e][1..] == [];
  }

  lemma IdsOfElement(cs: seq<Node>, k: nat)
    requires k < |cs|
    ensures Ids(cs[k]) <= IdsOf(cs)
  {
    IdsOfSplit(cs, k);
  }

  lemma SubIds(t: Node, s: Step)
    requires StepOk(t, s)
    ensures Ids(Sub(t, s)) <= Ids(t)
  {
    match s
    case Child(k) => IdsOfElement(t.children, k);
    case Attr(k) => IdsOfElement(t.attributes, k);
  }

  /** The id of every node reachable along a path, and its whole subtree, belong to the tree. */
  lemma {:induction false} AtIds(t: Node, p: Path)
    requires ValidPath(t, p)
    ensures Ids(At(t, p)) <= Ids(t)
    ensures At(t, p).id in Ids(t)
    decreases |p|
  {
    if |p| > 0 {
      AtIds(Sub(t, p[0]), p[1..]);
      SubIds(t, p[0]);
    }
  }

  // Cancellation steps on multisets, done pointwise so that the solver does not search.

  /** Updating past the head of a sequence is updating its tail. */
  lemma UpdateTail<T>(cs: seq<T>, j: nat, v: T)
    requires 0 < j < |cs|
    ensures [cs[0]] + cs[1..][j - 1 := v] == cs[j := v]
  {
  }

  /** If replacing `n` by `n'` turned `t` into `r`, and `n'` is `n` grown by `e`, then `r` is `t` grown by `e`. */
  lemma GrowBy<T>(r: multiset<T>, n: multiset<T>, t: multiset<T>, n': multiset<T>, e: multiset<T>)
    requires r + n == t + n'
    requires n' == n + e
    ensures r == t + e
  {
    forall x ensures r[x] == (t + e)[x] {
      assert (r + n)[x] == (t + n')[x];
    }
  }

  lemma SwapCancel(i: multiset<string>, a: multiset<string>, b: multiset<string>, x: multiset<string>,
                   c: multiset<string>, z: multiset<string>)
    requires a + x == b + c
    ensures (i + a + z) + x == (i + b + z) + c
    ensures (i + z + a) + x == (i + z + b) + c
  {
    forall y ensures ((i + a + z) + x)[y] == ((i + b + z) + c)[y] {
      assert (a + x)[y] == (b + c)[y];
    }
    forall y ensures ((i + z + a) + x)[y] == ((i + z + b) + c)[y] {
      assert (a + x)[y] == (b + c)[y];
    }
  }

  lemma ChainCancel(t': multiset<string>, at: multiset<string>, c: multiset<string>, n: multiset<string>,
                    t: multiset<string>, c': multiset<string>)
    requires c' + at == c + n
    requires t' + c == t + c'
    ensures t' + at == t + n
  {
    forall y ensures (t' + at)[y] == (t + n)[y] {
      assert (c' + at)[y] == (c + n)[y];
      assert (t' + c)[y] == (t + c')[y];
    }
  }

  /** The ids of a node whose children (or attributes) list had one entry swapped. */
  lemma IdsAfterSwap(t: Node, s: Step, c: Node)
    requires StepOk(t, s)
    ensures Ids(Swap(t, s, c)) + Ids(Sub(t, s)) == Ids(t) + Ids(c)
  {
    var t' := Swap(t, s, c);
    match s
    case Child(k) =>
      IdsOfUpdate(t.children, k, c);
      assert Ids(t') == multiset{t.id} + IdsOf(t.children[k := c]) + IdsOf(t.attributes);
      SwapCancel(multiset{t.id}, IdsOf(t.children[k := c]), IdsOf(t.children), Ids(t.children[k]), Ids(c), IdsOf(t.attributes));
    case Attr(k) =>
      IdsOfUpdate(t.attributes, k, c);
      assert Ids(t') == multiset{t.id} + IdsOf(t.children) + IdsOf(t.attributes[k := c]);
      SwapCancel(multiset{t.id}, IdsOf(t.attributes[k := c]), IdsOf(t.attributes), Ids(t.attributes[k]), Ids(c), IdsOf(t.children));
  }

  /** Replacing the node at `p` swaps exactly the ids of the replaced subtree. */
  lemma {:induction false} ReplaceIds(t: Node, p: Path, n: Node)
    requires ValidPath(t, p)
    ensures Ids(Replace(t, p, n)) + Ids(At(t, p)) == Ids(t) + Ids(n)
    decreases |p|
  {
    if |p| > 0 {
      var c := Sub(t, p[0]);
      var c' := Replace(c, p[1..], n);
      var t' := Replace(t, p, n);
      assert t' == Swap(t, p[0], c');
      assert At(t, p) == At(c, p[1..]);
      ReplaceIds(c, p[1..], n);
      IdsAfterSwap(t, p[0], c');
      ChainCancel(Ids(t'), Ids(At(t, p)), Ids(c), Ids(n), Ids(t), Ids(c'));
    }
  }

  /** Removing one child or attribute removes exactly the ids of its subtree. */
  lemma RemoveStepIds(t: Node, s: Step)
    requires StepOk(t, s)
    ensures Ids(RemoveAt(t, [s])) + Ids(Sub(t, s)) == Ids(t)
  {
    var t' := RemoveAt(t, [s]);
    match s
    case Child(k) =>
      var rest := t.children[..k] + t.children[k + 1..];
      IdsOfRemove(t.children, k);
      assert Ids(t') == multiset{t.id} + IdsOf(rest) + IdsOf(t.attributes);
      SwapCancel(multiset{t.id}, IdsOf(rest), IdsOf(t.children), Ids(t.children[k]), multiset{}, IdsOf(t.attributes));
    case Attr(k) =>
      var rest := t.attributes[..k] + t.attributes[k + 1..];
      IdsOfRemove(t.attributes, k);
      assert Ids(t') == multiset{t.id} + IdsOf(t.children) + IdsOf(rest);
      SwapCancel(multiset{t.id}, IdsOf(rest), IdsOf(t.attributes), Ids(t.attributes[k]), multiset{}, IdsOf(t.children));
  }

  /** Removing the node at `p` removes exactly the ids of its subtree. */
  lemma {:induction false} RemoveAtIds(t: Node, p: Path)
    requires ValidPath(t, p) && |p| > 0
    ensures Ids(RemoveAt(t, p)) + Ids(At(t, p)) == Ids(t)
    decreases |p|
  {
    var t' := RemoveAt(t, p);
    if |p| == 1 {
      assert p[1..] == [];
      assert At(t, p) == Sub(t, p[0]);
      RemoveStepIds(t, p[0]);
      assert t' == RemoveAt(t, [p[0]]) by {
        assert p == [p[0]];
      }
    } else {
      var c := Sub(t, p[0]);
      var c' := RemoveAt(c, p[1..]);
      assert t' == Swap(t, p[0], c');
      assert At(t, p) == At(c, p[1..]);
      RemoveAtIds(c, p[1..]);
      IdsAfterSwap(t, p[0], c');
      ChainCancel(Ids(t'), Ids(At(t, p)), Ids(c), multiset{}, Ids(t), Ids(c'));
    }
  }

  lemma IdsOfTwo(cs: seq<Node>, i: nat, j: nat)
    requires i < j < |cs|
    ensures Ids(cs[i]) + Ids(cs[j]) <= IdsOf(cs)
  {
    var rest := cs[i + 1..];
    var k := j - i - 1;
    assert IdsOf(cs) == IdsOf(cs[..i]) + Ids(cs[i]) + IdsOf(rest) by {
      IdsOfSplit(cs, i);
    }
    assert IdsOf(rest) == IdsOf(rest[..k]) + Ids(cs[j]) + IdsOf(rest[k + 1..]) by {
      IdsOfSplit(rest, k);
      assert rest[k] == cs[j];
    }
    TwoInSum(IdsOf(cs[..i]), Ids(cs[i]), IdsOf(rest[..k]), Ids(cs[j]), IdsOf(rest[k + 1..]));
  }

  lemma TwoInSum(a: multiset<string>, x: multiset<string>, b: multiset<string>, y: multiset<string>, c: multiset<string>)
    ensures x + y <= a + x + (b + y + c)
  {
  }

  /** Two different paths to the same id mean the id occurs twice. */
  lemma {:induction false} TwoPathsTwoIds(t: Node, p: Path, q: Path)
    requires ValidPath(t, p) && ValidPath(t, q) && p != q
    requires At(t, p).id == At(t, q).id
    ensures Ids(t)[At(t, p).id] >= 2
    decreases |p|
  {
    var x := At(t, p).id;
    if |p| == 0 {
      AtIds(Sub(t, q[0]), q[1..]);
      SubIdsStrict(t, q[0]);
    } else if |q| == 0 {
      AtIds(Sub(t, p[0]), p[1..]);
      SubIdsStrict(t, p[0]);
    } else if p[0] == q[0] {
      assert p == [p[0]] + p[1..] && q == [q[0]] + q[1..];
      TwoPathsTwoIds(Sub(t, p[0]), p[1..], q[1..]);
      SubIds(t, p[0]);
    } else {
      AtIds(Sub(t, p[0]), p[1..]);
      AtIds(Sub(t, q[0]), q[1..]);
      DistinctSubsIds(t, p[0], q[0]);
    }
  }

  /** In a tree with unique ids, a node's id pins down its path. */
  lemma UniquePath(t: Node, p: Path, q: Path)
    requires UniqueIds(t)
    requires ValidPath(t, p) && ValidPath(t, q)
    requires At(t, p).id == At(t, q).id
    ensures p == q
  {
    if p != q {
      TwoPathsTwoIds(t, p, q);
      AtIds(t, p);
      assert false;
    }
  }

  /** A subtree never contains its parent's own id occurrence. */
  lemma SubIdsStrict(t: Node, s: Step)
    requires StepOk(t, s)
    ensures Ids(Sub(t, s)) + multiset{t.id} <= Ids(t)
  {
    SubIds(t, s);
    match s
    case Child(k) => IdsOfElement(t.children, k);
    case Attr(k) => IdsOfElement(t.attributes, k);
  }

  lemma UniqueSub(t: Node, s: Step)
    requires StepOk(t, s) && UniqueIds(t)
    ensures UniqueIds(Sub(t, s))
  {
    SubIds(t, s);
  }

  lemma DistinctSubsIds(t: Node, s1: Step, s2: Step)
    requires StepOk(t, s1) && StepOk(t, s2) && s1 != s2
    ensures Ids(Sub(t, s1)) + Ids(Sub(t, s2)) <= Ids(t)
  {
    match (s1, s2)
    case (Child(i), Child(j)) =>
      if i < j { IdsOfTwo(t.children, i, j); } else { IdsOfTwo(t.children, j, i); }
    case (Attr(i), Attr(j)) =>
      if i < j { IdsOfTwo(t.attributes, i, j); } else { IdsOfTwo(t.attributes, j, i); }
    case (Child(i), Attr(j)) =>
      IdsOfElement(t.children, i);
      IdsOfElement(t.attributes, j);
      SumWithin(Ids(t.children[i]), IdsOf(t.children), Ids(t.attributes[j]), IdsOf(t.attributes), multiset{t.id});
    case (Attr(i), Child(j)) =>
      IdsOfElement(t.children, j);
      IdsOfElement(t.attributes, i);
      SumWithin(Ids(t.children[j]), IdsOf(t.children), Ids(t.attributes[i]), IdsOf(t.attributes), multiset{t.id});
  }

  lemma SumWithin<T>(x: multiset<T>, a: multiset<T>, y: multiset<T>, b: multiset<T>, e: multiset<T>)
    requires x <= a && y <= b
    ensures x + y <= e + a + b && y + x <= e + a + b
  {
  }

  // ---------------------------------------------------------------------------
  // Visiting order

  /**
   * The four recursive searches of the editor differ in which nodes they look at and in
   * which order: appending and moving look at the root and its descendants through
   * `children` only; finding looks everywhere, a node's attributes before its children;
   * changing looks everywhere, children before attributes; deleting never looks at the
   * root and looks into attributes without descending below them.
   */
  datatype Traversal = AppendSearch | FindSearch | ChangeSearch | DeleteSearch

  /** Whether the search `tr` considers the node at path `p` at all. */
  predicate Searched(tr: Traversal, p: Path) {
    match tr
    case AppendSearch => forall i :: 0 <= i < |p| ==> p[i].Child?
    case DeleteSearch => |p| > 0 && forall i :: 0 <= i < |p| - 1 ==> p[i].Child?
    case _ => true
  }

  /** Among the entries of one node, whether `a` is visited before `b`. */
  predicate StepBefore(tr: Traversal, a: Step, b: Step) {
    if a.Child? == b.Child? then a.k < b.k
    else if tr == FindSearch then a.Attr?
    else a.Child?
  }

  /**
   * Whether the node at `q` is visited before the node at `p`: pre-order, that is a node
   * before everything below it, and the subtrees of one node in `StepBefore` order.
   */
  predicate Before(tr: Traversal, q: Path, p: Path)
    decreases |p|
  {
    |p| > 0 &&
    (|q| == 0 || StepBefore(tr, q[0], p[0]) || (q[0] == p[0] && Before(tr, q[1..], p[1..])))
  }

  predicate Matches(tr: Traversal, t: Node, id: string, p: Path) {
    ValidPath(t, p) && Searched(tr, p) && At(t, p).id == id
  }

  /** Some node the search `tr` looks at carries `id`. */
  ghost predicate Present(tr: Traversal, t: Node, id: string) {
    exists p :: Matches(tr, t, id, p)
  }

  /** `p` is the first node carrying `id` that the search `tr` visits. */
  ghost predicate FirstMatch(tr: Traversal, t: Node, id: string, p: Path) {
    Matches(tr, t, id, p) &&
    forall q :: Matches(tr, t, id, q) ==> !Before(tr, q, p)
  }

  lemma BeforeCons(tr: Traversal, a: Step, q: Path, b: Step, p: Path)
    ensures Before(tr, [a] + q, [b] + p) <==> StepBefore(tr, a, b) || (a == b && Before(tr, q, p))
  {
    assert ([a] + q)[0] == a && ([a] + q)[1..] == q;
    assert ([b] + p)[0] == b && ([b] + p)[1..] == p;
  }

  lemma SearchedCons(tr: Traversal, s: Step, q: Path)
    ensures tr == AppendSearch ==> (Searched(tr, [s] + q) <==> s.Child? && Searched(tr, q))
    ensures tr == DeleteSearch ==> (Searched(tr, [s] + q) <==> |q| == 0 || (s.Child? && Searched(tr, q)))
    ensures tr == FindSearch || tr == ChangeSearch ==> Searched(tr, [s] + q)
  {
    var p := [s] + q;
    assert p[0] == s;
    assert forall i :: 0 <= i < |q| ==> p[i + 1] == q[i];
    assert forall i :: 0 < i < |p| ==> p[i] == q[i - 1];
  }

  /** Under unique ids every match is the first one. */
  lemma UniqueMatchIsFirst(tr: Traversal, t: Node, id: string, p: Path)
    requires UniqueIds(t) && Matches(tr, t, id, p)
    ensures FirstMatch(tr, t, id, p)
  {
    forall q | Matches(tr, t, id, q) ensures !Before(tr, q, p) {
      UniquePath(t, p, q);
      NotBeforeSelf(tr, p);
    }
  }

  lemma {:induction false} NotBeforeSelf(tr: Traversal, p: Path)
    ensures !Before(tr, p, p)
    decreases |p|
  {
    if |p| > 0 {
      NotBeforeSelf(tr, p[1..]);
    }
  }

  // Decomposing a first match one step down. These are shared by the four searches.

  /** Nothing before the first match carries the id: in particular not the root, if searched. */
  lemma FirstMatchNotRoot(tr: Traversal, t: Node, id: string, p: Path)
    requires FirstMatch(tr, t, id, p) && |p| > 0 && Searched(tr, [])
    ensures t.id != id
  {
    assert !Matches(tr, t, id, []) by {
      if Matches(tr, t, id, []) { assert Before(tr, [], p); }
    }
  }

  /** No node inside an entry visited earlier than the first match's entry carries the id. */
  lemma FirstMatchEarlier(tr: Traversal, t: Node, id: string, b: Step, p: Path, a: Step, q: Path)
    requires FirstMatch(tr, t, id, [b] + p)
    requires StepBefore(tr, a, b) && StepOk(t, a)
    requires ValidPath(Sub(t, a), q) && Searched(tr, [a] + q)
    ensures At(Sub(t, a), q).id != id
  {
    PathCons(t, a, q);
    BeforeCons(tr, a, q, b, p);
    assert !Matches(tr, t, id, [a] + q);
  }

  /** A first match stays first inside the subtree it lies in. */
  lemma FirstMatchTail(tr: Traversal, t: Node, id: string, b: Step, p: Path)
    requires FirstMatch(tr, t, id, [b] + p)
    requires Searched(tr, p)
    ensures StepOk(t, b)
    ensures FirstMatch(tr, Sub(t, b), id, p)
  {
    PathCons(t, b, p);
    SearchedCons(tr, b, p);
    forall q | Matches(tr, Sub(t, b), id, q) ensures !Before(tr, q, p) {
      PathCons(t, b, q);
      SearchedCons(tr, b, q);
      BeforeCons(tr, b, q, b, p);
      assert Matches(tr, t, id, [b] + q);
    }
  }

  /** Lexicographic order on paths is total: of two different paths one is visited first. */
  lemma {:induction false} BeforeTotal(tr: Traversal, p: Path, q: Path)
    requires p != q
    ensures Before(tr, p, q) || Before(tr, q, p)
    decreases |p|
  {
    if |p| > 0 && |q| > 0 && p[0] == q[0] {
      assert p == [p[0]] + p[1..] && q == [q[0]] + q[1..];
      BeforeTotal(tr, p[1..], q[1..]);
    }
  }

  /** There is at most one first match. */
  lemma FirstMatchUnique(tr: Traversal, t: Node, id: string, p: Path, q: Path)
    requires FirstMatch(tr, t, id, p) && FirstMatch(tr, t, id, q)
    ensures p == q
  {
    if p != q {
      BeforeTotal(tr, p, q);
    }
  }

  /**
   * Building a first match from the inside out: the match at `p` inside the entry `s`
   * is first in the whole tree when the root (if searched), everything inside earlier
   * entries and everything inside `s` visited before `p` all carry other ids.
   */
  lemma FirstMatchLift(tr: Traversal, t: Node, id: string, s: Step, p: Path)
    requires StepOk(t, s) && Matches(tr, t, id, [s] + p)
    requires Searched(tr, []) ==> t.id != id
    requires forall a: Step, q: Path ::
      (StepOk(t, a) && StepBefore(tr, a, s) && ValidPath(Sub(t, a), q) && Searched(tr, [a] + q)) ==>
        At(Sub(t, a), q).id != id
    requires forall q: Path ::
      (ValidPath(Sub(t, s), q) && Searched(tr, [s] + q) && Before(tr, q, p)) ==>
        At(Sub(t, s), q).id != id
    ensures FirstMatch(tr, t, id, [s] + p)
  {
    forall q | Matches(tr, t, id, q) ensures !Before(tr, q, [s] + p) {
      if |q| > 0 {
        var a, q' := q[0], q[1..];
        assert q == [a] + q';
        PathCons(t, a, q');
        BeforeCons(tr, a, q', s, p);
      }
    }
  }

  /** For the searches that visit everything: a first match inside entry `s` is the first match in `t` when nothing before `s` carries the id. */
  lemma FirstMatchLiftAny(tr: Traversal, id: string, t: Node, s: Step, p': Path, parentId: string)
    requires tr == FindSearch || tr == ChangeSearch
    requires t.id != id && StepOk(t, s)
    requires FirstMatch(tr, Sub(t, s), id, p')
    requires forall a :: StepOk(t, a) && StepBefore(tr, a, s) ==> !Present(tr, Sub(t, a), id)
    ensures FirstMatch(tr, t, id, [s] + p')
    ensures At(t, [s] + p') == At(Sub(t, s), p')
    ensures ParentIdAt(t, [s] + p', parentId) == ParentIdAt(Sub(t, s), p', t.id)
  {
    PathCons(t, s, p');
    SearchedCons(tr, s, p');
    forall a: Step, q: Path | StepOk(t, a) && StepBefore(tr, a, s) && ValidPath(Sub(t, a), q) && Searched(tr, [a] + q)
      ensures At(Sub(t, a), q).id != id
    {
      assert !Matches(tr, Sub(t, a), id, q);
    }
    forall q: Path | ValidPath(Sub(t, s), q) && Searched(tr, [s] + q) && Before(tr, q, p')
      ensures At(Sub(t, s), q).id != id
    {
      assert !Matches(tr, Sub(t, s), id, q);
    }
    assert Matches(tr, t, id, [s] + p');
    FirstMatchLift(tr, t, id, s, p');
  }

  // How a search's candidates split over a node's entries.

  /** Some entry of `cs` contains a node the search looks at that carries `id`. */
  ghost predicate PresentAmong(tr: Traversal, cs: seq<Node>, id: string) {
    exists k :: 0 <= k < |cs| && Present(tr, cs[k], id)
  }

  lemma PresentAppendSplit(t: Node, id: string)
    ensures Present(AppendSearch, t, id) <==> t.id == id || PresentAmong(AppendSearch, t.children, id)
  {
    var tr := AppendSearch;
    if Present(tr, t, id) {
      var p :| Matches(tr, t, id, p);
      if |p| > 0 {
        assert p == [p[0]] + p[1..];
        PathCons(t, p[0], p[1..]);
        SearchedCons(tr, p[0], p[1..]);
        assert Matches(tr, Sub(t, p[0]), id, p[1..]);
      }
    }
    if t.id == id {
      assert Matches(tr, t, id, []);
    } else if PresentAmong(tr, t.children, id) {
      var k :| 0 <= k < |t.children| && Present(tr, t.children[k], id);
      var q :| Matches(tr, t.children[k], id, q);
      PathCons(t, Child(k), q);
      SearchedCons(tr, Child(k), q);
      assert Matches(tr, t, id, [Child(k)] + q);
    }
  }

  lemma PresentAnySplit(tr: Traversal, t: Node, id: string)
    requires tr == FindSearch || tr == ChangeSearch
    ensures Present(tr, t, id) <==>
      t.id == id || PresentAmong(tr, t.children, id) || PresentAmong(tr, t.attributes, id)
  {
    if Present(tr, t, id) {
      var p :| Matches(tr, t, id, p);
      if |p| > 0 {
        assert p == [p[0]] + p[1..];
        PathCons(t, p[0], p[1..]);
        SearchedCons(tr, p[0], p[1..]);
        match p[0]
        case Child(k) => assert Matches(tr, t.children[k], id, p[1..]);
        case Attr(k) => assert Matches(tr, t.attributes[k], id, p[1..]);
      }
    }
    if t.id == id {
      assert Matches(tr, t, id, []);
    } else if PresentAmong(tr, t.children, id) {
      var k :| 0 <= k < |t.children| && Present(tr, t.children[k], id);
      var q :| Matches(tr, t.children[k], id, q);
      PathCons(t, Child(k), q);
      SearchedCons(tr, Child(k), q);
      assert Matches(tr, t, id, [Child(k)] + q);
    } else if PresentAmong(tr, t.attributes, id) {
      var k :| 0 <= k < |t.attributes| && Present(tr, t.attributes[k], id);
      var q :| Matches(tr, t.attributes[k], id, q);
      PathCons(t, Attr(k), q);
      SearchedCons(tr, Attr(k), q);
      assert Matches(tr, t, id, [Attr(k)] + q);
    }
  }

  /** Some child either carries `id` or has a deletable descendant that does. */
  ghost predicate DeletableAmongChildren(cs: seq<Node>, id: string) {
    exists k :: 0 <= k < |cs| && (cs[k].id == id || Present(DeleteSearch, cs[k], id))
  }

  lemma PresentAmongCons(tr: Traversal, cs: seq<Node>, id: string)
    requires |cs| > 0
    ensures PresentAmong(tr, cs, id) <==> Present(tr, cs[0], id) || PresentAmong(tr, cs[1..], id)
  {
    if PresentAmong(tr, cs[1..], id) {
      var k :| 0 <= k < |cs[1..]| && Present(tr, cs[1..][k], id);
      assert cs[1..][k] == cs[k + 1];
    }
    if PresentAmong(tr, cs, id) {
      var k :| 0 <= k < |cs| && Present(tr, cs[k], id);
      if k > 0 {
        assert cs[1..][k - 1] == cs[k];
      }
    }
  }

  predicate HasId(cs: seq<Node>, id: string) {
    exists k :: 0 <= k < |cs| && cs[k].id == id
  }

  lemma PresentDeleteSplit(t: Node, id: string)
    ensures Present(DeleteSearch, t, id) <==>
      DeletableAmongChildren(t.children, id) || HasId(t.attributes, id)
  {
    var tr := DeleteSearch;
    if Present(tr, t, id) {
      var p :| Matches(tr, t, id, p);
      assert p == [p[0]] + p[1..];
      PathCons(t, p[0], p[1..]);
      SearchedCons(tr, p[0], p[1..]);
      if |p| == 1 {
        assert At(t, p) == Sub(t, p[0]);
      } else {
        assert Matches(tr, Sub(t, p[0]), id, p[1..]);
      }
    }
    if DeletableAmongChildren(t.children, id) {
      var k :| 0 <= k < |t.children| && (t.children[k].id == id || Present(tr, t.children[k], id));
      if t.children[k].id == id {
        PathCons(t, Child(k), []);
        SearchedCons(tr, Child(k), []);
        assert Matches(tr, t, id, [Child(k)] + []);
      } else {
        var q :| Matches(tr, t.children[k], id, q);
        PathCons(t, Child(k), q);
        SearchedCons(tr, Child(k), q);
        assert Matches(tr, t, id, [Child(k)] + q);
      }
    } else if HasId(t.attributes, id) {
      var k :| 0 <= k < |t.attributes| && t.attributes[k].id == id;
      PathCons(t, Attr(k), []);
      SearchedCons(tr, Attr(k), []);
      assert Matches(tr, t, id, [Attr(k)] + []);
    }
  }
}

=== FILE: text.dfy ===
/**
 * The handful of PHP string functions the modelled code relies on, restricted to the
 * ASCII behaviour of the default "C" locale: `strtoupper`/`strtolower` on one character,
 * `ucfirst`, `lcfirst`, `ucwords`, `trim`, and the search behind `preg_match` with a
 * look-behind (the text after the first occurrence of a pattern, up to the end of line).
 */
module Text {
  import opened Wrappers

  predicate IsUpper(c: char) { 'A' <= c <= 'Z' }

  predicate IsLower(c: char) { 'a' <= c <= 'z' }

  /** `strtoupper` on one character. */
  function ToUpper(c: char): (u: char)
    ensures IsLower(c) ==> IsUpper(u)
    ensures !IsLower(c) ==> u == c
  {
    if IsLower(c) then (c as int - 'a' as int + 'A' as int) as char else c
  }

  /** `strtolower` on one character. */
  function ToLower(c: char): (l: char)
    ensures IsUpper(c) ==> IsLower(l)
    ensures !IsUpper(c) ==> l == c
  {
    if IsUpper(c) then (c as int - 'A' as int + 'a' as int) as char else c
  }

  lemma LowerUndoesUpper(c: char)
    requires !IsUpper(c)
    ensures ToLower(ToUpper(c)) == c
  {
  }

  /** `strtolower` on a string. */
  function Lower(s: string): (r: string)
    ensures |r| == |s| && forall i :: 0 <= i < |s| ==> r[i] == ToLower(s[i])
  {
    seq(|s|, i requires 0 <= i < |s| => ToLower(s[i]))
  }

  /** Lower-casing does not see the case a character was in. */
  lemma LowerOfUpper(c: char)
    ensures ToLower(ToUpper(c)) == ToLower(c)
  {
  }

  function Ucfirst(s: string): (r: string)
    ensures |r| == |s|
    ensures |s| > 0 ==> r[0] == ToUpper(s[0]) && r[1..] == s[1..]
  {
    if |s| == 0 then s else [ToUpper(s[0])] + s[1..]
  }

  function Lcfirst(s: string): (r: string)
    ensures |r| == |s|
    ensures |s| > 0 ==> r[0] == ToLower(s[0]) && r[1..] == s[1..]
  {
    if |s| == 0 then s else [ToLower(s[0])] + s[1..]
  }

  /** `lcfirst` undoes `ucfirst` on a string that does not start with a capital. */
  lemma LcfirstUcfirst(s: string)
    requires |s| == 0 || !IsUpper(s[0])
    ensures Lcfirst(Ucfirst(s)) == s
  {
    if |s| > 0 {
      LowerUndoesUpper(s[0]);
      assert Lcfirst(Ucfirst(s)) == [ToLower(ToUpper(s[0]))] + s[1..];
    }
  }

  /** The characters `ucwords` treats as word separators by default. */
  predicate IsWordDelimiter(c: char) {
    c == ' ' || c == '\t' || c == '\r' || c == '\n' || c == '\U{C}' || c == '\U{B}'
  }

  /** The character `ucwords` puts at index `i` of `s`. */
  function UcwordsChar(s: string, i: nat): char
    requires i < |s|
  {
    if i == 0 || IsWordDelimiter(s[i - 1]) then ToUpper(s[i]) else s[i]
  }

  /** `ucwords`: upper-cases the first character and every character after a delimiter. */
  function Ucwords(s: string): (r: string)
    ensures |r| == |s|
    ensures forall i: nat :: i < |s| ==> r[i] == UcwordsChar(s, i)
  {
    seq(|s|, i requires 0 <= i < |s| => UcwordsChar(s, i))
  }

  /** On a single word `ucwords` and `ucfirst` agree. */
  lemma UcwordsOfWord(s: string)
    requires forall i :: 0 <= i < |s| ==> !IsWordDelimiter(s[i])
    ensures Ucwords(s) == Ucfirst(s)
  {
  }

  /** The characters PHP's `trim` strips by default. */
  predicate IsTrimmed(c: char) {
    c == ' ' || c == '\t' || c == '\n' || c == '\r' || c == '\0' || c == '\U{B}'
  }

  function TrimLeft(s: string): (r: string)
    ensures |r| <= |s| && r == s[|s| - |r|..]
    ensures |r| > 0 ==> !IsTrimmed(r[0])
    ensures forall i :: 0 <= i < |s| - |r| ==> IsTrimmed(s[i])
  {
    if |s| > 0 && IsTrimmed(s[0]) then TrimLeft(s[1..]) else s
  }

  function TrimRight(s: string): (r: string)
    ensures |r| <= |s| && r == s[..|r|]
    ensures |r| > 0 ==> !IsTrimmed(r[|r| - 1])
    ensures forall i :: |r| <= i < |s| ==> IsTrimmed(s[i])
  {
    if |s| > 0 && IsTrimmed(s[|s| - 1]) then TrimRight(s[..|s| - 1]) else s
  }

  /** PHP `trim` with its default character list. */
  function Trim(s: string): (r: string)
    ensures |r| <= |s|
    ensures |r| > 0 ==> !IsTrimmed(r[0]) && !IsTrimmed(r[|r| - 1])
  {
    TrimRight(TrimLeft(s))
  }

  /** A string without surrounding blanks is its own trim. */
  lemma TrimOfTrimmed(s: string)
    requires |s| > 0 ==> !IsTrimmed(s[0]) && !IsTrimmed(s[|s| - 1])
    ensures Trim(s) == s
  {
  }

  /** Whether `pat` occurs in `s` starting at index `j`. */
  predicate OccursAt(s: string, pat: string, j: nat) {
    j + |pat| <= |s| && s[j..j + |pat|] == pat
  }

  predicate Occurs(s: string, pat: string) {
    exists j: nat | j <= |s| :: OccursAt(s, pat, j)
  }

  /** The index of the first occurrence of `pat` in `s`. */
  function IndexOf(s: string, pat: string): (r: Option<nat>)
    decreases |s|
    ensures r.Some? ==> OccursAt(s, pat, r.value)
    ensures r.Some? ==> forall j: nat :: j < r.value ==> !OccursAt(s, pat, j)
    ensures r.None? <==> !Occurs(s, pat)
  {
    if |s| < |pat| then None
    else if s[..|pat|] == pat then Some(0)
    else
      var rest := IndexOf(s[1..], pat);
      assert forall j: nat :: OccursAt(s, pat, j + 1) <==> OccursAt(s[1..], pat, j) by {
        forall j: nat ensures OccursAt(s, pat, j + 1) <==> OccursAt(s[1..], pat, j) {
          if j + 1 + |pat| <= |s| {
            assert s[1..][j..j + |pat|] == s[j + 1..j + 1 + |pat|];
          }
        }
      }
      match rest
      case None =>
        assert forall j: nat :: !OccursAt(s, pat, j) by {
          forall j: nat ensures !OccursAt(s, pat, j) {
            if j > 0 {
              assert !OccursAt(s[1..], pat, j - 1);
            }
          }
        }
        None
      case Some(i) =>
        assert forall j: nat :: j < i + 1 ==> !OccursAt(s, pat, j) by {
          forall j: nat | j < i + 1 ensures !OccursAt(s, pat, j) {
            if j > 0 {
              assert !OccursAt(s[1..], pat, j - 1);
            }
          }
        }
        Some(i + 1)
  }

  /** The text following the first occurrence of `pat`, if there is one. */
  function AfterFirst(s: string, pat: string): (r: Option<string>)
    ensures r.None? <==> !Occurs(s, pat)
    ensures r.Some? ==> exists j: nat :: (OccursAt(s, pat, j) && (forall i: nat :: i < j ==> !OccursAt(s, pat, i)) &&
                                          r.value == s[j + |pat|..])
  {
    match IndexOf(s, pat)
    case None => None
    case Some(i) => Some(s[i + |pat|..])
  }

  /** What a regular-expression `.*` matches from the start of `s`: everything before the first newline. */
  function FirstLine(s: string): (r: string)
    ensures r <= s
    ensures '\n' !in r
    ensures |r| < |s| ==> s[|r|] == '\n'
  {
    if |s| == 0 || s[0] == '\n' then "" else [s[0]] + FirstLine(s[1..])
  }

  lemma FirstLineOfLine(s: string)
    requires '\n' !in s
    ensures FirstLine(s) == s
  {
  }

  /** Whether `s` starts with `pre` (`preg_match('/^pre/', s)` for a literal prefix). */
  predicate HasPrefix(s: string, pre: string) {
    |pre| <= |s| && s[..|pre|] == pre
  }
}

=== FILE: tree_append.dfy ===
/**
 * `appendNode` and `moveNode` of the profile editor: both search the tree in pre-order
 * through `children` only (attributes are never parents) and attach an entry at the end
 * of the first matching node's `attributes` or `children`.
 */
module TreeAppend {
  import opened Wrappers
  import opened ProfileTree

  /** `n` with `e` added at the end of its attributes (an attribute entry) or children. */
  function AddEntry(n: Node, e: Node, asAttribute: bool): (r: Node)
    ensures r.id == n.id
    ensures asAttribute ==> r.attributes == n.attributes + [e] && r.children == n.children
    ensures !asAttribute ==> r.children == n.children + [e] && r.attributes == n.attributes
  {
    if asAttribute then n.(attributes := n.attributes + [e], hasAttributesKey := true)
    else n.(children := n.children + [e])
  }

  /** The shared search of `appendNode` and `moveNode`; `None` is the source's `false`. */
  function Attach(t: Node, parentId: string, e: Node, asAttribute: bool): Option<Node>
    decreases t
  {
    if t.id == parentId then Some(AddEntry(t, e, asAttribute))
    else match AttachAmong(t.children, parentId, e, asAttribute)
      case Some(cs) => Some(t.(children := cs))
      case None => None
  }

  /** The loop over the children: the first child under which the entry can be attached. */
  function AttachAmong(cs: seq<Node>, parentId: string, e: Node, asAttribute: bool): Option<seq<Node>>
    decreases cs
  {
    if |cs| == 0 then None
    else match Attach(cs[0], parentId, e, asAttribute)
      case Some(c) => Some([c] + cs[1..])
      case None =>
        match AttachAmong(cs[1..], parentId, e, asAttribute)
        case Some(rest) => Some([cs[0]] + rest)
        case None => None
  }

  /**
   * What `appendNode` stores for a new node: `attribute` and `node` requests keep the
   * bound column, `iteration` requests keep adapter and parent key, anything else only
   * id and name. Neither `type` nor `index` is stored.
   */
  function Payload(req: NodeRequest): (n: Node)
    ensures n.id == req.id && n.name == req.text
    ensures n.kind.None? && n.index.None?
    ensures n.children == [] && n.attributes == [] && !CarriesAttributes(n)
    ensures n.shopwareField == (if req.kind == "attribute" || req.kind == "node" then req.swColumn else None)
    ensures n.adapter == (if req.kind == "iteration" then req.adapter else None)
    ensures n.parentKey == (if req.kind == "iteration" then req.parentKey else None)
  {
    var bare := Bare(req.id, req.text);
    if req.kind == "attribute" || req.kind == "node" then bare.(shopwareField := req.swColumn)
    else if req.kind == "iteration" then bare.(adapter := req.adapter, parentKey := req.parentKey)
    else bare
  }

  /** `appendNode`: a new entry under `req.parentId`, among the attributes for an `attribute` request. */
  function AppendNode(t: Node, req: NodeRequest): Option<Node> {
    Attach(t, req.parentId, Payload(req), req.kind == "attribute")
  }

  /**
   * `moveNode`: re-attaches the detached subtree `n` under `parentId`. The source strips
   * the request's `parentId` and `type` keys from the payload, so the moved node loses
   * its stored `type`.
   */
  function MoveNode(t: Node, parentId: string, kind: string, n: Node): Option<Node> {
    Attach(t, parentId, n.(kind := None), kind == "attribute")
  }

  // ---------------------------------------------------------------------------

  lemma {:induction false} AttachFailsIffNoParent(t: Node, parentId: string, e: Node, asAttribute: bool)
    ensures Attach(t, parentId, e, asAttribute).None? <==> !Present(AppendSearch, t, parentId)
    decreases t
  {
    PresentAppendSplit(t, parentId);
    AttachAmongFails(t.children, parentId, e, asAttribute);
  }

  lemma {:induction false} AttachAmongFails(cs: seq<Node>, parentId: string, e: Node, asAttribute: bool)
    ensures AttachAmong(cs, parentId, e, asAttribute).None? <==> !PresentAmong(AppendSearch, cs, parentId)
    decreases cs
  {
    if |cs| > 0 {
      AttachFailsIffNoParent(cs[0], parentId, e, asAttribute);
      AttachAmongFails(cs[1..], parentId, e, asAttribute);
      PresentAmongCons(AppendSearch, cs, parentId);
    }
  }

  /** A successful loop over the children attaches under exactly one child, the first that accepts. */
  lemma {:induction false} AttachAmongPicksFirst(cs: seq<Node>, parentId: string, e: Node, asAttribute: bool) returns (j: nat)
    requires AttachAmong(cs, parentId, e, asAttribute).Some?
    ensures j < |cs| && Attach(cs[j], parentId, e, asAttribute).Some?
    ensures forall k :: 0 <= k < j ==> Attach(cs[k], parentId, e, asAttribute).None?
    ensures AttachAmong(cs, parentId, e, asAttribute).value == cs[j := Attach(cs[j], parentId, e, asAttribute).value]
    decreases cs
  {
    match Attach(cs[0], parentId, e, asAttribute)
    case Some(c) =>
      j := 0;
    case None =>
      var j' := AttachAmongPicksFirst(cs[1..], parentId, e, asAttribute);
      j := j' + 1;
      assert cs[1..][j'] == cs[j];
      assert forall k :: 0 < k < j ==> cs[k] == cs[1..][k - 1];
      UpdateTail(cs, j, Attach(cs[j], parentId, e, asAttribute).value);
  }

  /** A successful attach edits the tree at the first node, in pre-order over children, carrying the parent id. */
  lemma {:induction false} AttachEditsFirstMatch(t: Node, parentId: string, e: Node, asAttribute: bool)
    requires Attach(t, parentId, e, asAttribute).Some?
    ensures exists p :: (FirstMatch(AppendSearch, t, parentId, p) &&
                         Attach(t, parentId, e, asAttribute).value == Replace(t, p, AddEntry(At(t, p), e, asAttribute)))
    decreases t
  {
    var tr := AppendSearch;
    if t.id == parentId {
      assert Matches(tr, t, parentId, []);
      assert FirstMatch(tr, t, parentId, []);
    } else {
      var j := AttachAmongPicksFirst(t.children, parentId, e, asAttribute);
      var child := t.children[j];
      AttachEditsFirstMatch(child, parentId, e, asAttribute);
      var p' :| FirstMatch(tr, child, parentId, p') &&
        Attach(child, parentId, e, asAttribute).value == Replace(child, p', AddEntry(At(child, p'), e, asAttribute));
      var s := Child(j);
      PathCons(t, s, p');
      SearchedCons(tr, s, p');
      forall a: Step, q: Path | StepOk(t, a) && StepBefore(tr, a, s) && ValidPath(Sub(t, a), q) && Searched(tr, [a] + q)
        ensures At(Sub(t, a), q).id != parentId
      {
        SearchedCons(tr, a, q);
        if a.Child? {
          AttachFailsIffNoParent(t.children[a.k], parentId, e, asAttribute);
          assert Sub(t, a) == t.children[a.k];
          assert !Matches(tr, t.children[a.k], parentId, q);
        }
      }
      forall q: Path | ValidPath(child, q) && Searched(tr, [s] + q) && Before(tr, q, p')
        ensures At(child, q).id != parentId
      {
        SearchedCons(tr, s, q);
      }
      FirstMatchLift(tr, t, parentId, s, p');
      var p := [s] + p';
      assert p[0] == s && p[1..] == p';
      assert Replace(t, p, AddEntry(At(t, p), e, asAttribute)) == Attach(t, parentId, e, asAttribute).value;
    }
  }

  /** Attaching at a given first match: the characterisation both directions rest on. */
  lemma AttachAtFirstMatch(t: Node, parentId: string, e: Node, asAttribute: bool, p: Path)
    requires FirstMatch(AppendSearch, t, parentId, p)
    ensures Attach(t, parentId, e, asAttribute) == Some(Replace(t, p, AddEntry(At(t, p), e, asAttribute)))
  {
    AttachFailsIffNoParent(t, parentId, e, asAttribute);
    AttachEditsFirstMatch(t, parentId, e, asAttribute);
    var p' :| FirstMatch(AppendSearch, t, parentId, p') &&
      Attach(t, parentId, e, asAttribute).value == Replace(t, p', AddEntry(At(t, p'), e, asAttribute));
    FirstMatchUnique(AppendSearch, t, parentId, p, p');
  }

  lemma AddEntryIds(n: Node, e: Node, asAttribute: bool)
    ensures Ids(AddEntry(n, e, asAttribute)) == Ids(n) + Ids(e)
  {
    if asAttribute {
      IdsOfAppend(n.attributes, e);
    } else {
      IdsOfAppend(n.children, e);
    }
  }

  /** Attaching adds exactly the ids of the attached entry. */
  lemma AttachIds(t: Node, parentId: string, e: Node, asAttribute: bool)
    requires Attach(t, parentId, e, asAttribute).Some?
    ensures Ids(Attach(t, parentId, e, asAttribute).value) == Ids(t) + Ids(e)
  {
    AttachEditsFirstMatch(t, parentId, e, asAttribute);
    var p :| FirstMatch(AppendSearch, t, parentId, p) &&
      Attach(t, parentId, e, asAttribute).value == Replace(t, p, AddEntry(At(t, p), e, asAttribute));
    var n := At(t, p);
    var n' := AddEntry(n, e, asAttribute);
    ReplaceIds(t, p, n');
    AddEntryIds(n, e, asAttribute);
    GrowBy(Ids(Replace(t, p, n')), Ids(n), Ids(t), Ids(n'), Ids(e));
  }

  /**
   * `appendNode` in full: it fails, leaving the tree alone, exactly when no node reachable
   * through `children` has the parent id; otherwise the first such node in pre-order gets
   * the payload appended, and the tree gains exactly the new id.
   */
  lemma AppendNodeSpec(t: Node, req: NodeRequest)
    ensures AppendNode(t, req).None? <==> !Present(AppendSearch, t, req.parentId)
    ensures forall p :: FirstMatch(AppendSearch, t, req.parentId, p) ==>
      AppendNode(t, req) == Some(Replace(t, p, AddEntry(At(t, p), Payload(req), req.kind == "attribute")))
    ensures AppendNode(t, req).Some? ==> Ids(AppendNode(t, req).value) == Ids(t) + multiset{req.id}
  {
    var e, b := Payload(req), req.kind == "attribute";
    AttachFailsIffNoParent(t, req.parentId, e, b);
    forall p | FirstMatch(AppendSearch, t, req.parentId, p)
      ensures AppendNode(t, req) == Some(Replace(t, p, AddEntry(At(t, p), e, b)))
    {
      AttachAtFirstMatch(t, req.parentId, e, b, p);
    }
    if AppendNode(t, req).Some? {
      AttachIds(t, req.parentId, e, b);
      assert Ids(e) == multiset{req.id} + IdsOf([]) + IdsOf([]);
    }
  }
}

=== FILE: tree_change.dfy ===
/**
 * `changeNode`: renames, re-indexes and re-binds the first node carrying the request's
 * id, searching a node's children before its attributes.
 */
module TreeChange {
  import opened Wrappers
  import opened ProfileTree

  /**
   * The edit applied to the matching node: name, index and bound column always follow the
   * request (an absent column removes the binding); adapter and parent key follow it only
   * for an `iteration` request. Id, type and everything below the node stay.
   */
  function Changed(n: Node, req: NodeRequest): (r: Node)
    ensures r.id == n.id && r.kind == n.kind
    ensures r.children == n.children && r.attributes == n.attributes && r.hasAttributesKey == n.hasAttributesKey
    ensures r.name == req.text && r.index == req.index && r.shopwareField == req.swColumn
    ensures req.kind == "iteration" ==> r.adapter == req.adapter && r.parentKey == req.parentKey
    ensures req.kind != "iteration" ==> r.adapter == n.adapter && r.parentKey == n.parentKey
  {
    var named := n.(name := req.text, index := req.index, shopwareField := req.swColumn);
    if req.kind == "iteration" then named.(adapter := req.adapter, parentKey := req.parentKey)
    else named
  }

  function ChangeNode(t: Node, req: NodeRequest): Option<Node>
    decreases t
  {
    if t.id == req.id then Some(Changed(t, req))
    else match ChangeAmong(t.children, req)
      case Some(cs) => Some(t.(children := cs))
      case None =>
        match ChangeAmong(t.attributes, req)
        case Some(cs) => Some(t.(attributes := cs))
        case None => None
  }

  function ChangeAmong(cs: seq<Node>, req: NodeRequest): Option<seq<Node>>
    decreases cs
  {
    if |cs| == 0 then None
    else match ChangeNode(cs[0], req)
      case Some(c) => Some([c] + cs[1..])
      case None =>
        match ChangeAmong(cs[1..], req)
        case Some(rest) => Some([cs[0]] + rest)
        case None => None
  }

  // ---------------------------------------------------------------------------

  lemma {:induction false} ChangeFailsIffAbsent(t: Node, req: NodeRequest)
    ensures ChangeNode(t, req).None? <==> !Present(ChangeSearch, t, req.id)
    decreases t
  {
    PresentAnySplit(ChangeSearch, t, req.id);
    ChangeAmongFails(t.children, req);
    ChangeAmongFails(t.attributes, req);
  }

  lemma {:induction false} ChangeAmongFails(cs: seq<Node>, req: NodeRequest)
    ensures ChangeAmong(cs, req).None? <==> !PresentAmong(ChangeSearch, cs, req.id)
    decreases cs
  {
    if |cs| > 0 {
      ChangeFailsIffAbsent(cs[0], req);
      ChangeAmongFails(cs[1..], req);
      PresentAmongCons(ChangeSearch, cs, req.id);
    }
  }

  /** A successful loop edits exactly one entry, the first that accepts the change. */
  lemma {:induction false} ChangeAmongPicksFirst(cs: seq<Node>, req: NodeRequest) returns (j: nat)
    requires ChangeAmong(cs, req).Some?
    ensures j < |cs| && ChangeNode(cs[j], req).Some?
    ensures forall k :: 0 <= k < j ==> ChangeNode(cs[k], req).None?
    ensures ChangeAmong(cs, req).value == cs[j := ChangeNode(cs[j], req).value]
    decreases cs
  {
    match ChangeNode(cs[0], req)
    case Some(c) =>
      j := 0;
    case None =>
      var j' := ChangeAmongPicksFirst(cs[1..], req);
      j := j' + 1;
      assert cs[1..][j'] == cs[j];
      assert forall k :: 0 < k < j ==> cs[k] == cs[1..][k - 1];
      UpdateTail(cs, j, ChangeNode(cs[j], req).value);
  }

  /** A successful change edits the first node, children before attributes, that carries the id. */
  lemma {:induction false} ChangeEditsFirstMatch(t: Node, req: NodeRequest)
    requires ChangeNode(t, req).Some?
    ensures exists p :: (FirstMatch(ChangeSearch, t, req.id, p) &&
                         ChangeNode(t, req).value == Replace(t, p, Changed(At(t, p), req)))
    decreases t
  {
    var tr := ChangeSearch;
    if t.id == req.id {
      assert Matches(tr, t, req.id, []);
      assert FirstMatch(tr, t, req.id, []);
    } else {
      var s := ChangedEntry(t, req);
      ChangeEditsFirstMatch(Sub(t, s), req);
      var p' :| FirstMatch(tr, Sub(t, s), req.id, p') &&
        ChangeNode(Sub(t, s), req).value == Replace(Sub(t, s), p', Changed(At(Sub(t, s), p'), req));
      FirstMatchLiftAny(tr, req.id, t, s, p', "root");
      PathCons(t, s, p');
    }
  }

  /**
   * The entry a successful change below the root goes through: the first child that
   * accepts it, or failing that the first attribute. Nothing before it carries the id.
   */
  lemma ChangedEntry(t: Node, req: NodeRequest) returns (s: Step)
    requires t.id != req.id && ChangeNode(t, req).Some?
    ensures StepOk(t, s) && ChangeNode(Sub(t, s), req).Some?
    ensures ChangeNode(t, req).value == Swap(t, s, ChangeNode(Sub(t, s), req).value)
    ensures forall a :: StepOk(t, a) && StepBefore(ChangeSearch, a, s) ==> !Present(ChangeSearch, Sub(t, a), req.id)
    ensures Sub(t, s) < t
  {
    var tr := ChangeSearch;
    if ChangeAmong(t.children, req).Some? {
      var j := ChangeAmongPicksFirst(t.children, req);
      s := Child(j);
      forall a | StepOk(t, a) && StepBefore(tr, a, s)
        ensures !Present(tr, Sub(t, a), req.id)
      {
        ChangeFailsIffAbsent(t.children[a.k], req);
      }
    } else {
      ChangeAmongFails(t.children, req);
      var j := ChangeAmongPicksFirst(t.attributes, req);
      s := Attr(j);
      forall a | StepOk(t, a) && StepBefore(tr, a, s)
        ensures !Present(tr, Sub(t, a), req.id)
      {
        if a.Attr? {
          ChangeFailsIffAbsent(t.attributes[a.k], req);
        } else {
          assert !(0 <= a.k < |t.children| && Present(tr, t.children[a.k], req.id));
        }
      }
    }
  }

  /** `changeNode` in full: it edits the first match when there is one. */
  lemma ChangeAtFirstMatch(t: Node, req: NodeRequest, p: Path)
    requires FirstMatch(ChangeSearch, t, req.id, p)
    ensures ChangeNode(t, req) == Some(Replace(t, p, Changed(At(t, p), req)))
  {
    ChangeFailsIffAbsent(t, req);
    ChangeEditsFirstMatch(t, req);
    var p' :| FirstMatch(ChangeSearch, t, req.id, p') && ChangeNode(t, req).value == Replace(t, p', Changed(At(t, p'), req));
    FirstMatchUnique(ChangeSearch, t, req.id, p, p');
  }

  /** A change never adds, drops or renames an id: the tree keeps the same ids. */
  lemma ChangeKeepsIds(t: Node, req: NodeRequest)
    requires ChangeNode(t, req).Some?
    ensures Ids(ChangeNode(t, req).value) == Ids(t)
    ensures ValidPath(ChangeNode(t, req).value, []) && ChangeNode(t, req).value.id == t.id
  {
    ChangeEditsFirstMatch(t, req);
    var p :| FirstMatch(ChangeSearch, t, req.id, p) && ChangeNode(t, req).value == Replace(t, p, Changed(At(t, p), req));
    var n := At(t, p);
    ReplaceIds(t, p, Changed(n, req));
    assert Ids(Changed(n, req)) == Ids(n);
    GrowBy(Ids(ChangeNode(t, req).value), Ids(n), Ids(t), Ids(Changed(n, req)), multiset{});
    if |p| > 0 {
      assert Replace(t, p, Changed(n, req)) == Swap(t, p[0], Replace(Sub(t, p[0]), p[1..], Changed(n, req)));
    }
  }
}

=== FILE: tree_delete.dfy ===
/**
 * `deleteNode`: removes the first node carrying the id, with its whole subtree. Children
 * are searched in pre-order, each child's own id checked before its subtree; attributes
 * are only matched directly under the node. The root itself is never deleted.
 */
module TreeDelete {
  import opened Wrappers
  import opened ProfileTree

  function DeleteNode(t: Node, id: string): Option<Node>
    decreases t
  {
    match DeleteAmongChildren(t.children, id)
    case Some(cs) => Some(t.(children := cs))
    case None =>
      match DropFirst(t.attributes, id)
      case Some(attrs) => Some(t.(attributes := attrs, hasAttributesKey := true))
      case None => None
  }

  /** The loop over the children: drop a child that carries the id, else delete inside it. */
  function DeleteAmongChildren(cs: seq<Node>, id: string): Option<seq<Node>>
    decreases cs
  {
    if |cs| == 0 then None
    else if cs[0].id == id then Some(cs[1..])
    else match DeleteNode(cs[0], id)
      case Some(c) => Some([c] + cs[1..])
      case None =>
        match DeleteAmongChildren(cs[1..], id)
        case Some(rest) => Some([cs[0]] + rest)
        case None => None
  }

  /** The loop over the attributes: drop the first one that carries the id. */
  function DropFirst(cs: seq<Node>, id: string): Option<seq<Node>> {
    if |cs| == 0 then None
    else if cs[0].id == id then Some(cs[1..])
    else match DropFirst(cs[1..], id)
      case Some(rest) => Some([cs[0]] + rest)
      case None => None
  }

  // ---------------------------------------------------------------------------

  lemma {:induction false} DeleteFailsIffAbsent(t: Node, id: string)
    ensures DeleteNode(t, id).None? <==> !Present(DeleteSearch, t, id)
    decreases t
  {
    PresentDeleteSplit(t, id);
    DeleteAmongFails(t.children, id);
    DropFirstFails(t.attributes, id);
  }

  lemma {:induction false} DeleteAmongFails(cs: seq<Node>, id: string)
    ensures DeleteAmongChildren(cs, id).None? <==> !DeletableAmongChildren(cs, id)
    decreases cs
  {
    if |cs| > 0 {
      DeleteFailsIffAbsent(cs[0], id);
      DeleteAmongFails(cs[1..], id);
      if DeletableAmongChildren(cs[1..], id) {
        var k :| 0 <= k < |cs[1..]| && (cs[1..][k].id == id || Present(DeleteSearch, cs[1..][k], id));
        assert cs[k + 1] == cs[1..][k];
      }
      if DeletableAmongChildren(cs, id) {
        var k :| 0 <= k < |cs| && (cs[k].id == id || Present(DeleteSearch, cs[k], id));
        if k > 0 {
          assert cs[1..][k - 1] == cs[k];
        }
      }
    }
  }

  lemma {:induction false} DropFirstFails(cs: seq<Node>, id: string)
    ensures DropFirst(cs, id).None? <==> !HasId(cs, id)
  {
    if |cs| > 0 {
      DropFirstFails(cs[1..], id);
      if HasId(cs[1..], id) {
        var k :| 0 <= k < |cs[1..]| && cs[1..][k].id == id;
        assert cs[k + 1] == cs[1..][k];
      }
      if HasId(cs, id) {
        var k :| 0 <= k < |cs| && cs[k].id == id;
        if k > 0 {
          assert cs[1..][k - 1] == cs[k];
        }
      }
    }
  }

  /** Dropping element `j + 1` of a list is keeping its head and dropping element `j` of its tail. */
  lemma DropSplice(cs: seq<Node>, j: nat)
    requires j + 1 < |cs|
    ensures [cs[0]] + (cs[1..][..j] + cs[1..][j + 1..]) == cs[..j + 1] + cs[j + 2..]
  {
  }

  /** A successful attribute loop drops exactly the first attribute carrying the id. */
  lemma {:induction false} DropFirstPicksFirst(cs: seq<Node>, id: string) returns (j: nat)
    requires DropFirst(cs, id).Some?
    ensures j < |cs| && cs[j].id == id && forall k :: 0 <= k < j ==> cs[k].id != id
    ensures DropFirst(cs, id).value == cs[..j] + cs[j + 1..]
  {
    if cs[0].id == id {
      j := 0;
    } else {
      var j' := DropFirstPicksFirst(cs[1..], id);
      j := j' + 1;
      assert cs[j] == cs[1..][j'];
      assert forall k :: 0 < k < j ==> cs[k] == cs[1..][k - 1];
      DropSplice(cs, j');
    }
  }

  /** The first `j` children neither carry the id nor have it deletable inside. */
  predicate Skipped(cs: seq<Node>, id: string, j: nat)
    requires j <= |cs|
  {
    forall k :: 0 <= k < j ==> cs[k].id != id && DeleteNode(cs[k], id).None?
  }

  /** `r` is `cs` with child `j` dropped (it carries the id) or with the id deleted inside it. */
  predicate EditedAt(cs: seq<Node>, id: string, j: nat, r: seq<Node>)
    requires j < |cs|
  {
    if cs[j].id == id then r == cs[..j] + cs[j + 1..]
    else DeleteNode(cs[j], id).Some? && r == cs[j := DeleteNode(cs[j], id).value]
  }

  lemma SkipOne(c: Node, rest: seq<Node>, id: string, j: nat, r: seq<Node>)
    requires c.id != id && DeleteNode(c, id).None?
    requires j < |rest| && Skipped(rest, id, j) && EditedAt(rest, id, j, r)
    ensures Skipped([c] + rest, id, j + 1) && EditedAt([c] + rest, id, j + 1, [c] + r)
  {
    var cs := [c] + rest;
    assert forall k :: 0 < k < |cs| ==> cs[k] == rest[k - 1];
    if rest[j].id == id {
      assert [c] + (rest[..j] + rest[j + 1..]) == cs[..j + 1] + cs[j + 2..];
    } else {
      assert [c] + rest[j := DeleteNode(rest[j], id).value] == cs[j + 1 := DeleteNode(cs[j + 1], id).value];
    }
  }

  /**
   * A successful child loop stops at the first child that either carries the id (and is
   * dropped) or has the id deletable inside it (and is edited).
   */
  lemma {:induction false} DeleteAmongPicksFirst(cs: seq<Node>, id: string) returns (j: nat)
    requires DeleteAmongChildren(cs, id).Some?
    ensures j < |cs| && Skipped(cs, id, j) && EditedAt(cs, id, j, DeleteAmongChildren(cs, id).value)
    decreases cs
  {
    if cs[0].id == id {
      assert cs[..0] + cs[1..] == cs[1..];
      j := 0;
    } else if DeleteNode(cs[0], id).Some? {
      assert DeleteAmongChildren(cs, id).value == cs[0 := DeleteNode(cs[0], id).value];
      j := 0;
    } else {
      var j' := DeleteAmongPicksFirst(cs[1..], id);
      SkipOne(cs[0], cs[1..], id, j', DeleteAmongChildren(cs[1..], id).value);
      assert [cs[0]] + cs[1..] == cs;
      j := j' + 1;
    }
  }

  /**
   * The lifting step for the delete order: a match reached through entry `s` is the first
   * one when nothing the search visits before it carries the id.
   */
  lemma LiftDelete(t: Node, id: string, s: Step, p': Path)
    requires StepOk(t, s) && Matches(DeleteSearch, t, id, [s] + p')
    requires forall a :: StepOk(t, a) && StepBefore(DeleteSearch, a, s) ==>
      Sub(t, a).id != id && (a.Child? ==> !Present(DeleteSearch, Sub(t, a), id))
    requires |p'| > 0 ==> Sub(t, s).id != id && FirstMatch(DeleteSearch, Sub(t, s), id, p')
    ensures FirstMatch(DeleteSearch, t, id, [s] + p')
  {
    var tr := DeleteSearch;
    forall a: Step, q: Path | StepOk(t, a) && StepBefore(tr, a, s) && ValidPath(Sub(t, a), q) && Searched(tr, [a] + q)
      ensures At(Sub(t, a), q).id != id
    {
      SearchedCons(tr, a, q);
      if |q| > 0 {
        assert !Matches(tr, Sub(t, a), id, q);
      }
    }
    forall q: Path | ValidPath(Sub(t, s), q) && Searched(tr, [s] + q) && Before(tr, q, p')
      ensures At(Sub(t, s), q).id != id
    {
      SearchedCons(tr, s, q);
      if |q| > 0 {
        assert !Matches(tr, Sub(t, s), id, q);
      }
    }
    FirstMatchLift(tr, t, id, s, p');
  }

  lemma ChildrenBeforeClear(t: Node, id: string, j: nat)
    requires j < |t.children| && Skipped(t.children, id, j)
    ensures forall a :: StepOk(t, a) && StepBefore(DeleteSearch, a, Child(j)) ==>
      Sub(t, a).id != id && (a.Child? ==> !Present(DeleteSearch, Sub(t, a), id))
  {
    forall a | StepOk(t, a) && StepBefore(DeleteSearch, a, Child(j))
      ensures Sub(t, a).id != id && (a.Child? ==> !Present(DeleteSearch, Sub(t, a), id))
    {
      DeleteFailsIffAbsent(t.children[a.k], id);
    }
  }

  lemma AttributesBeforeClear(t: Node, id: string, j: nat)
    requires j < |t.attributes| && !DeletableAmongChildren(t.children, id)
    requires forall k :: 0 <= k < j ==> t.attributes[k].id != id
    ensures forall a :: StepOk(t, a) && StepBefore(DeleteSearch, a, Attr(j)) ==>
      Sub(t, a).id != id && (a.Child? ==> !Present(DeleteSearch, Sub(t, a), id))
  {
    forall a | StepOk(t, a) && StepBefore(DeleteSearch, a, Attr(j))
      ensures Sub(t, a).id != id && (a.Child? ==> !Present(DeleteSearch, Sub(t, a), id))
    {
      if a.Child? {
        assert !(t.children[a.k].id == id || Present(DeleteSearch, t.children[a.k], id));
      }
    }
  }

  /** Dropping entry `s` itself, when it is the first match. */
  lemma DropEntryMatch(t: Node, id: string, s: Step)
    requires StepOk(t, s) && Sub(t, s).id == id
    requires forall a :: StepOk(t, a) && StepBefore(DeleteSearch, a, s) ==>
      Sub(t, a).id != id && (a.Child? ==> !Present(DeleteSearch, Sub(t, a), id))
    ensures FirstMatch(DeleteSearch, t, id, [s])
  {
    PathCons(t, s, []);
    SearchedCons(DeleteSearch, s, []);
    assert [s] + [] == [s];
    LiftDelete(t, id, s, []);
  }

  /** The first match of the delete order is a child of the root itself. */
  lemma DeleteDirectChild(t: Node, id: string, j: nat)
    requires DeleteAmongChildren(t.children, id).Some?
    requires j < |t.children| && Skipped(t.children, id, j)
    requires EditedAt(t.children, id, j, DeleteAmongChildren(t.children, id).value)
    requires t.children[j].id == id
    ensures FirstMatch(DeleteSearch, t, id, [Child(j)])
    ensures DeleteNode(t, id).value == RemoveAt(t, [Child(j)])
  {
    ChildrenBeforeClear(t, id, j);
    DropEntryMatch(t, id, Child(j));
  }

  /** The first match of the delete order lies below child `j`, at `p'` within it. */
  lemma DeleteBelowChild(t: Node, id: string, j: nat, p': Path)
    requires DeleteAmongChildren(t.children, id).Some?
    requires j < |t.children| && Skipped(t.children, id, j)
    requires EditedAt(t.children, id, j, DeleteAmongChildren(t.children, id).value)
    requires t.children[j].id != id
    requires FirstMatch(DeleteSearch, t.children[j], id, p') && |p'| > 0
    requires DeleteNode(t.children[j], id).Some? && DeleteNode(t.children[j], id).value == RemoveAt(t.children[j], p')
    ensures FirstMatch(DeleteSearch, t, id, [Child(j)] + p')
    ensures DeleteNode(t, id).value == RemoveAt(t, [Child(j)] + p')
  {
    var s := Child(j);
    ChildrenBeforeClear(t, id, j);
    PathCons(t, s, p');
    SearchedCons(DeleteSearch, s, p');
    LiftDelete(t, id, s, p');
  }

  /** No child's subtree holds the id: the first match is an attribute of the root. */
  lemma DeleteInAttributes(t: Node, id: string) returns (j: nat)
    requires DeleteAmongChildren(t.children, id).None? && DeleteNode(t, id).Some?
    ensures FirstMatch(DeleteSearch, t, id, [Attr(j)])
    ensures DeleteNode(t, id).value == RemoveAt(t, [Attr(j)])
  {
    DeleteAmongFails(t.children, id);
    j := DropFirstPicksFirst(t.attributes, id);
    AttributesBeforeClear(t, id, j);
    DropEntryMatch(t, id, Attr(j));
  }

  /** A successful delete removes the subtree at the first match of the delete order. */
  lemma {:induction false} DeleteRemovesFirstMatch(t: Node, id: string)
    requires DeleteNode(t, id).Some?
    ensures exists p :: (FirstMatch(DeleteSearch, t, id, p) && |p| > 0 &&
                         DeleteNode(t, id).value == RemoveAt(t, p))
    decreases t
  {
    if DeleteAmongChildren(t.children, id).Some? {
      var j := DeleteAmongPicksFirst(t.children, id);
      if t.children[j].id == id {
        DeleteDirectChild(t, id, j);
        assert |[Child(j)]| > 0;
      } else {
        var child := t.children[j];
        assert DeleteNode(child, id).Some?;
        DeleteRemovesFirstMatch(child, id);
        var p' :| FirstMatch(DeleteSearch, child, id, p') && |p'| > 0 && DeleteNode(child, id).value == RemoveAt(child, p');
        DeleteBelowChild(t, id, j, p');
        assert |[Child(j)] + p'| > 0;
      }
    } else {
      var j := DeleteInAttributes(t, id);
      assert |[Attr(j)]| > 0;
    }
  }

  /** `deleteNode` in full: it removes the first match when there is one. */
  lemma DeleteAtFirstMatch(t: Node, id: string, p: Path)
    requires FirstMatch(DeleteSearch, t, id, p)
    ensures |p| > 0 && DeleteNode(t, id) == Some(RemoveAt(t, p))
  {
    DeleteFailsIffAbsent(t, id);
    DeleteRemovesFirstMatch(t, id);
    var p' :| FirstMatch(DeleteSearch, t, id, p') && |p'| > 0 && DeleteNode(t, id).value == RemoveAt(t, p');
    FirstMatchUnique(DeleteSearch, t, id, p, p');
  }

  /** The root is kept, and with unique ids a request to delete the root's own id fails. */
  lemma DeleteKeepsRoot(t: Node, id: string)
    ensures DeleteNode(t, id).Some? ==> DeleteNode(t, id).value.id == t.id
    ensures UniqueIds(t) ==> DeleteNode(t, t.id).None?
  {
    if DeleteNode(t, id).Some? {
      DeleteRemovesFirstMatch(t, id);
      var p :| FirstMatch(DeleteSearch, t, id, p) && |p| > 0 && DeleteNode(t, id).value == RemoveAt(t, p);
      assert p == [p[0]] + p[1..];
      PathCons(t, p[0], p[1..]);
    }
    if UniqueIds(t) {
      DeleteFailsIffAbsent(t, t.id);
      forall p | Matches(DeleteSearch, t, t.id, p) ensures false {
        UniquePath(t, p, []);
      }
    }
  }

  /**
   * `unset` of an attribute leaves the `attributes` key in place, even when it removes the
   * last attribute, so a node that carried the key still does after a delete.
   */
  lemma DeleteKeepsAttributesKey(t: Node, id: string)
    ensures DeleteNode(t, id).Some? && CarriesAttributes(t) ==> CarriesAttributes(DeleteNode(t, id).value)
    ensures DeleteNode(t, id).Some? && DeleteNode(t, id).value.attributes != t.attributes ==>
      DeleteNode(t, id).value.hasAttributesKey
  {
  }

  /**
   * With unique ids, a successful delete takes the whole subtree of the node carrying the
   * id out of the tree: none of its ids remains, every other id does, and ids stay unique.
   */
  lemma DeleteRemovesSubtree(t: Node, id: string)
    requires UniqueIds(t) && DeleteNode(t, id).Some?
    ensures exists p :: (ValidPath(t, p) && |p| > 0 && At(t, p).id == id &&
                         Ids(DeleteNode(t, id).value) + Ids(At(t, p)) == Ids(t))
    ensures id !in Ids(DeleteNode(t, id).value)
    ensures UniqueIds(DeleteNode(t, id).value)
  {
    DeleteRemovesFirstMatch(t, id);
    var p :| FirstMatch(DeleteSearch, t, id, p) && |p| > 0 && DeleteNode(t, id).value == RemoveAt(t, p);
    var r := DeleteNode(t, id).value;
    RemoveAtIds(t, p);
    AtIds(t, p);
    assert Ids(At(t, p))[id] >= 1;
    assert (Ids(r) + Ids(At(t, p)))[id] <= 1;
    forall x | x in Ids(r) ensures Ids(r)[x] <= 1 {
      assert (Ids(r) + Ids(At(t, p)))[x] == Ids(t)[x];
    }
  }
}

=== FILE: tree_find.dfy ===
/**
 * `getNodeById`: a pre-order search that looks at a node's attributes before its
 * children and reports the found node together with the id of its parent.
 */
module TreeFind {
  import opened Wrappers
  import opened ProfileTree

  /** A found node and the id of the node it hangs under (`root` for the tree itself). */
  datatype Found = Found(node: Node, parentId: string)

  function GetNodeById(id: string, t: Node, parentId: string): Option<Found>
    decreases t
  {
    if t.id == id then Some(Found(t, parentId))
    else match FindAmong(id, t.attributes, t.id)
      case Some(f) => Some(f)
      case None => FindAmong(id, t.children, t.id)
  }

  function FindAmong(id: string, cs: seq<Node>, parentId: string): Option<Found>
    decreases cs
  {
    if |cs| == 0 then None
    else match GetNodeById(id, cs[0], parentId)
      case Some(f) => Some(f)
      case None => FindAmong(id, cs[1..], parentId)
  }

  // ---------------------------------------------------------------------------

  lemma {:induction false} FindFailsIffAbsent(id: string, t: Node, parentId: string)
    ensures GetNodeById(id, t, parentId).None? <==> !Present(FindSearch, t, id)
    decreases t
  {
    PresentAnySplit(FindSearch, t, id);
    FindAmongFails(id, t.attributes, t.id);
    FindAmongFails(id, t.children, t.id);
  }

  lemma {:induction false} FindAmongFails(id: string, cs: seq<Node>, parentId: string)
    ensures FindAmong(id, cs, parentId).None? <==> !PresentAmong(FindSearch, cs, id)
    decreases cs
  {
    if |cs| > 0 {
      FindFailsIffAbsent(id, cs[0], parentId);
      FindAmongFails(id, cs[1..], parentId);
      PresentAmongCons(FindSearch, cs, id);
    }
  }

  /** A successful loop stops at the first entry under which the id is found. */
  lemma {:induction false} FindAmongPicksFirst(id: string, cs: seq<Node>, parentId: string) returns (j: nat)
    requires FindAmong(id, cs, parentId).Some?
    ensures j < |cs| && GetNodeById(id, cs[j], parentId) == FindAmong(id, cs, parentId)
    ensures forall k :: 0 <= k < j ==> GetNodeById(id, cs[k], parentId).None?
    decreases cs
  {
    if GetNodeById(id, cs[0], parentId).None? {
      var j' := FindAmongPicksFirst(id, cs[1..], parentId);
      j := j' + 1;
      assert cs[1..][j'] == cs[j];
      assert forall k :: 0 < k < j ==> cs[k] == cs[1..][k - 1];
    } else {
      j := 0;
    }
  }

  /**
   * A successful lookup returns the node at the first match of the attributes-first
   * pre-order, with the id of the node above it.
   */
  lemma {:induction false} FindReturnsFirstMatch(id: string, t: Node, parentId: string) returns (p: Path)
    requires GetNodeById(id, t, parentId).Some?
    ensures FirstMatch(FindSearch, t, id, p)
    ensures GetNodeById(id, t, parentId).value == Found(At(t, p), ParentIdAt(t, p, parentId))
    decreases t
  {
    var tr := FindSearch;
    var f := GetNodeById(id, t, parentId).value;
    if t.id == id {
      p := [];
      assert Matches(tr, t, id, p);
    } else if FindAmong(id, t.attributes, t.id).Some? {
      var j := FindAmongPicksFirst(id, t.attributes, t.id);
      var s := Attr(j);
      assert Sub(t, s) == t.attributes[j];
      var p' := FindReturnsFirstMatch(id, t.attributes[j], t.id);
      forall a | StepOk(t, a) && StepBefore(tr, a, s)
        ensures !Present(tr, Sub(t, a), id)
      {
        FindFailsIffAbsent(id, t.attributes[a.k], t.id);
      }
      FirstMatchLiftAny(tr, id, t, s, p', parentId);
      p := [s] + p';
    } else {
      FindAmongFails(id, t.attributes, t.id);
      var j := FindAmongPicksFirst(id, t.children, t.id);
      var s := Child(j);
      assert Sub(t, s) == t.children[j];
      var p' := FindReturnsFirstMatch(id, t.children[j], t.id);
      forall a | StepOk(t, a) && StepBefore(tr, a, s)
        ensures !Present(tr, Sub(t, a), id)
      {
        if a.Child? {
          FindFailsIffAbsent(id, t.children[a.k], t.id);
        } else {
          assert !(0 <= a.k < |t.attributes| && Present(tr, t.attributes[a.k], id));
        }
      }
      FirstMatchLiftAny(tr, id, t, s, p', parentId);
      p := [s] + p';
    }
  }

  /**
   * `getNodeById` in full: `false` exactly when no node carries the id; otherwise the
   * node at the first match, with its parent's id.
   */
  lemma FindAtFirstMatch(id: string, t: Node, parentId: string, p: Path)
    requires FirstMatch(FindSearch, t, id, p)
    ensures GetNodeById(id, t, parentId) == Some(Found(At(t, p), ParentIdAt(t, p, parentId)))
  {
    FindFailsIffAbsent(id, t, parentId);
    var p' := FindReturnsFirstMatch(id, t, parentId);
    FirstMatchUnique(FindSearch, t, id, p, p');
  }

  /** With unique ids the lookup finds the one node with the id, wherever it sits. */
  lemma FindUnique(id: string, t: Node, p: Path)
    requires UniqueIds(t) && ValidPath(t, p) && At(t, p).id == id
    ensures GetNodeById(id, t, "root") == Some(Found(At(t, p), ParentIdAt(t, p, "root")))
  {
    assert Matches(FindSearch, t, id, p);
    forall q | Matches(FindSearch, t, id, q) ensures q == p {
      UniquePath(t, p, q);
    }
    UniqueMatchIsFirst(FindSearch, t, id, p);
    FindAtFirstMatch(id, t, "root", p);
  }
}

=== FILE: tree_view.dfy ===
/**
 * `convertToExtJSTree` and `getProfileAction`: the stored tree as the editor's tree
 * panel sees it. A node's view children are its attributes, shown as leaf entries,
 * followed by its converted children; `inIteration` and `adapter` flow down from the
 * nearest `iteration` node.
 */
module TreeView {
  import opened Wrappers
  import opened ProfileTree

  const IterationIcon := "sprite-blue-folders-stack"
  const LeafIcon := "sprite-icon_taskbar_top_inhalte_active"
  const AttributeIcon := "sprite-sticky-notes-pin"

  /**
   * One entry of the view. An attribute entry always has type `attribute`, is a leaf,
   * carries the icon `AttributeIcon` and has no children, parent key or expanded flag.
   */
  datatype ViewEntry =
    | ViewNode(id: string, kind: Option<string>, index: Option<int>, text: string,
               adapter: Option<string>, parentKey: Option<string>, leaf: bool, expanded: bool,
               iconCls: string, swColumn: Option<string>, inIteration: bool, children: seq<ViewEntry>)
    | ViewAttribute(id: string, text: string, index: Option<int>, adapter: Option<string>,
                    swColumn: Option<string>, inIteration: bool)

  predicate IsIteration(n: Node) {
    n.kind == Some("iteration")
  }

  function AttributeEntry(a: Node, inIteration: bool, adapter: Option<string>): ViewEntry {
    ViewAttribute(a.id, a.name, a.index, adapter, a.shopwareField, inIteration)
  }

  /** Whether the view shows a node as a leaf: an iteration or leaf node with nothing under it. */
  predicate ShownAsLeaf(n: Node) {
    (IsIteration(n) || n.kind == Some("leaf")) && !CarriesAttributes(n) && |n.children| == 0
  }

  /**
   * The conversion of one node, given whether an enclosing node is an iteration and the
   * adapter handed down (the top call passes `false` and `''`).
   */
  function Convert(n: Node, inIteration: bool, adapter: Option<string>): (v: ViewEntry)
    ensures v.ViewNode? && v.id == n.id && v.kind == n.kind && v.text == n.name
    ensures v.index == n.index && v.swColumn == n.shopwareField
    ensures v.inIteration == (inIteration || IsIteration(n))
    ensures v.adapter == (if IsIteration(n) then n.adapter else adapter)
    ensures v.parentKey == (if IsIteration(n) then n.parentKey else Some(""))
    ensures v.iconCls == (if IsIteration(n) then IterationIcon else if n.kind == Some("leaf") then LeafIcon else "")
    ensures |v.children| == |n.attributes| + |n.children|
    ensures forall i :: 0 <= i < |n.attributes| ==> v.children[i] == AttributeEntry(n.attributes[i], v.inIteration, v.adapter)
    ensures forall k :: 0 <= k < |n.children| ==>
      v.children[|n.attributes| + k] == Convert(n.children[k], v.inIteration, v.adapter)
    ensures v.leaf <==> ShownAsLeaf(n)
    ensures v.expanded == !v.leaf
    ensures v.leaf ==> |v.children| == 0
    decreases n, 2
  {
    var inIt := inIteration || IsIteration(n);
    var ad := if IsIteration(n) then n.adapter else adapter;
    var icon := if IsIteration(n) then IterationIcon else if n.kind == Some("leaf") then LeafIcon else "";
    var leaf := ShownAsLeaf(n);
    ViewNode(n.id, n.kind, n.index, n.name, ad, if IsIteration(n) then n.parentKey else Some(""),
             leaf, !leaf, icon, n.shopwareField, inIt, ViewChildren(n, inIt, ad))
  }

  /** A node's entries in the view: its attributes, then its converted children. */
  function ViewChildren(n: Node, inIteration: bool, adapter: Option<string>): (r: seq<ViewEntry>)
    ensures |r| == |n.attributes| + |n.children|
    ensures forall i :: 0 <= i < |n.attributes| ==> r[i] == AttributeEntry(n.attributes[i], inIteration, adapter)
    ensures forall k :: 0 <= k < |n.children| ==> r[|n.attributes| + k] == Convert(n.children[k], inIteration, adapter)
    decreases n, 1
  {
    var attrs := seq(|n.attributes|, i requires 0 <= i < |n.attributes| => AttributeEntry(n.attributes[i], inIteration, adapter));
    var kids := ConvertAll(n.children, inIteration, adapter);
    ConcatIndex(attrs, kids);
    attrs + kids
  }

  lemma ConcatIndex<T>(a: seq<T>, b: seq<T>)
    ensures |a + b| == |a| + |b|
    ensures forall i :: 0 <= i < |a| ==> (a + b)[i] == a[i]
    ensures forall k :: 0 <= k < |b| ==> (a + b)[|a| + k] == b[k]
  {
  }

  function ConvertAll(cs: seq<Node>, inIteration: bool, adapter: Option<string>): (r: seq<ViewEntry>)
    ensures |r| == |cs|
    ensures forall k :: 0 <= k < |cs| ==> r[k] == Convert(cs[k], inIteration, adapter)
    decreases cs, 0
  {
    if |cs| == 0 then [] else [Convert(cs[0], inIteration, adapter)] + ConvertAll(cs[1..], inIteration, adapter)
  }

  /** `getProfileAction`: the panel shows the converted root's entries, not the root itself. */
  function ProfileView(root: Node): seq<ViewEntry> {
    Convert(root, false, Some("")).children
  }

  // ---------------------------------------------------------------------------
  // Following a path of the stored tree through the view

  /** Where a step of the stored tree lands among the view children: attributes first. */
  function ViewIndex(n: Node, s: Step): nat {
    match s
    case Child(k) => |n.attributes| + k
    case Attr(k) => k
  }

  function ViewIndices(n: Node, p: Path): seq<nat>
    requires ValidPath(n, p)
    decreases |p|
  {
    if |p| == 0 then [] else [ViewIndex(n, p[0])] + ViewIndices(Sub(n, p[0]), p[1..])
  }

  function ViewAt(v: ViewEntry, idxs: seq<nat>): Option<ViewEntry>
    decreases |idxs|
  {
    if |idxs| == 0 then Some(v)
    else if v.ViewNode? && idxs[0] < |v.children| then ViewAt(v.children[idxs[0]], idxs[1..])
    else None
  }

  /** The view shows a node unless it hangs below an attribute: only the last step may enter attributes. */
  predicate Displayed(p: Path) {
    forall i :: 0 <= i < |p| - 1 ==> p[i].Child?
  }

  /** The node `i` steps down `p` is converted as a node (not as an attribute entry) and is an iteration. */
  predicate IterationAt(n: Node, p: Path, i: int) {
    0 <= i <= |p| && ValidPath(n, p[..i]) && IsIteration(At(n, p[..i])) &&
    (i == |p| ==> |p| == 0 || p[|p| - 1].Child?)
  }

  lemma IterationAtShift(n: Node, k: nat, q: Path)
    requires ValidPath(n, [Child(k)] + q)
    ensures IterationAt(n, [Child(k)] + q, 0) <==> IsIteration(n)
    ensures forall i :: 0 <= i <= |q| ==>
      (IterationAt(n, [Child(k)] + q, i + 1) <==> IterationAt(n.children[k], q, i))
  {
    var p := [Child(k)] + q;
    assert p[..0] == [];
    forall i | 0 <= i <= |q|
      ensures IterationAt(n, p, i + 1) <==> IterationAt(n.children[k], q, i)
    {
      assert p[..i + 1] == [Child(k)] + q[..i];
      PathCons(n, Child(k), q[..i]);
      PathCons(n, Child(k), q);
      if i == |q| && |q| > 0 {
        assert p[|p| - 1] == q[|q| - 1];
      }
    }
  }

  /**
   * The node at a displayed path `p` appears in the view at the position the path gives,
   * with its id; it is an attribute entry exactly when the path ends in an attribute; it
   * is `inIteration` exactly when a node on the way down (itself included, unless it is an
   * attribute) is an iteration, and its adapter is that of the nearest such node, or the
   * one handed in when there is none.
   */
  ghost predicate ShownAlong(n: Node, p: Path, inIteration: bool, adapter: Option<string>)
    requires ValidPath(n, p)
  {
    var w := ViewAt(Convert(n, inIteration, adapter), ViewIndices(n, p));
    w.Some? && w.value.id == At(n, p).id &&
    (w.value.ViewAttribute? <==> |p| > 0 && p[|p| - 1].Attr?) &&
    (w.value.inIteration <==> inIteration || exists i :: IterationAt(n, p, i)) &&
    ((forall i :: !IterationAt(n, p, i)) ==> w.value.adapter == adapter) &&
    (forall i :: IterationAt(n, p, i) && (forall j :: i < j <= |p| ==> !IterationAt(n, p, j)) ==>
       w.value.adapter == At(n, p[..i]).adapter)
  }

  lemma ShownAtTop(n: Node, inIteration: bool, adapter: Option<string>)
    ensures ShownAlong(n, [], inIteration, adapter)
  {
    var p: Path := [];
    assert p[..0] == [];
    assert IsIteration(n) ==> IterationAt(n, p, 0);
    assert forall i :: IterationAt(n, p, i) ==> i == 0;
  }

  lemma ShownAttribute(n: Node, k: nat, inIteration: bool, adapter: Option<string>)
    requires k < |n.attributes|
    ensures ValidPath(n, [Attr(k)]) && ShownAlong(n, [Attr(k)], inIteration, adapter)
  {
    var p := [Attr(k)];
    PathCons(n, Attr(k), []);
    assert p == [Attr(k)] + [];
    var inIt := inIteration || IsIteration(n);
    var ad := if IsIteration(n) then n.adapter else adapter;
    assert ViewIndices(n, p) == [k] + ViewIndices(n.attributes[k], []);
    assert ViewAt(Convert(n, inIteration, adapter), ViewIndices(n, p)) == Some(AttributeEntry(n.attributes[k], inIt, ad));
    assert p[..0] == [];
    assert IsIteration(n) ==> IterationAt(n, p, 0);
    assert forall i :: IterationAt(n, p, i) ==> i == 0;
  }

  /** Iteration nodes on `[Child(k)] + q` are `n` itself and those on `q` below the child, one step further down. */
  lemma IterationsThroughChild(n: Node, k: nat, q: Path)
    requires k < |n.children| && ValidPath(n.children[k], q)
    ensures ValidPath(n, [Child(k)] + q)
    ensures IterationAt(n, [Child(k)] + q, 0) <==> IsIteration(n)
    ensures (exists i :: IterationAt(n, [Child(k)] + q, i)) <==>
      IsIteration(n) || exists i :: IterationAt(n.children[k], q, i)
    ensures forall i :: IterationAt(n.children[k], q, i) ==> IterationAt(n, [Child(k)] + q, i + 1)
    ensures forall i :: IterationAt(n, [Child(k)] + q, i) && i > 0 ==>
      IterationAt(n.children[k], q, i - 1) && At(n, ([Child(k)] + q)[..i]) == At(n.children[k], q[..i - 1])
  {
    var s := Child(k);
    var p := [s] + q;
    PathCons(n, s, q);
    IterationAtShift(n, k, q);
    assert p[..0] == [];
    forall i | IterationAt(n, p, i) && i > 0
      ensures IterationAt(n.children[k], q, i - 1) && At(n, p[..i]) == At(n.children[k], q[..i - 1])
    {
      assert p[..i] == [s] + q[..i - 1];
      PathCons(n, s, q[..i - 1]);
    }
    if exists i :: IterationAt(n, p, i) {
      var i :| IterationAt(n, p, i);
      if i > 0 {
        assert IterationAt(n.children[k], q, i - 1);
      }
    }
    if exists i :: IterationAt(n.children[k], q, i) {
      var i :| IterationAt(n.children[k], q, i);
      assert IterationAt(n, p, i + 1);
    }
  }

  lemma ViewThroughChild(n: Node, k: nat, q: Path, inIteration: bool, adapter: Option<string>)
    requires k < |n.children| && ValidPath(n.children[k], q)
    ensures ValidPath(n, [Child(k)] + q)
    ensures ViewAt(Convert(n, inIteration, adapter), ViewIndices(n, [Child(k)] + q)) ==
      ViewAt(Convert(n.children[k], inIteration || IsIteration(n), if IsIteration(n) then n.adapter else adapter),
             ViewIndices(n.children[k], q))
    ensures At(n, [Child(k)] + q) == At(n.children[k], q)
  {
    var p := [Child(k)] + q;
    var child := n.children[k];
    PathCons(n, Child(k), q);
    assert Sub(n, Child(k)) == child;
    var rest := ViewIndices(child, q);
    assert ViewIndices(n, p) == [|n.attributes| + k] + rest by {
      assert p[0] == Child(k) && p[1..] == q;
    }
    var v := Convert(n, inIteration, adapter);
    assert v.children[|n.attributes| + k] == Convert(child, v.inIteration, v.adapter);
    ViewAtCons(v, |n.attributes| + k, rest);
  }

  /** Following one index, then the rest, from an entry is following the rest from that child. */
  lemma ViewAtCons(v: ViewEntry, i: nat, rest: seq<nat>)
    requires v.ViewNode? && i < |v.children|
    ensures ViewAt(v, [i] + rest) == ViewAt(v.children[i], rest)
  {
    assert ([i] + rest)[0] == i && ([i] + rest)[1..] == rest;
  }

  lemma ShownChild(n: Node, k: nat, q: Path, inIteration: bool, adapter: Option<string>)
    requires k < |n.children| && ValidPath(n.children[k], q)
    requires ShownAlong(n.children[k], q, inIteration || IsIteration(n), if IsIteration(n) then n.adapter else adapter)
    ensures ValidPath(n, [Child(k)] + q) && ShownAlong(n, [Child(k)] + q, inIteration, adapter)
  {
    var p := [Child(k)] + q;
    var child := n.children[k];
    var ad := if IsIteration(n) then n.adapter else adapter;
    ViewThroughChild(n, k, q, inIteration, adapter);
    IterationsThroughChild(n, k, q);
    var w := ViewAt(Convert(n, inIteration, adapter), ViewIndices(n, p));
    assert w == ViewAt(Convert(child, inIteration || IsIteration(n), ad), ViewIndices(child, q));
    var e := w.value;
    if |q| > 0 {
      assert p[|p| - 1] == q[|q| - 1];
    }
    assert e.ViewAttribute? <==> |p| > 0 && p[|p| - 1].Attr?;
    assert e.inIteration <==> inIteration || exists i :: IterationAt(n, p, i);
    if forall i :: !IterationAt(n, p, i) {
      assert !IsIteration(n) by {
        assert !IterationAt(n, p, 0);
      }
      assert forall i :: !IterationAt(child, q, i);
    }
    forall i | IterationAt(n, p, i) && (forall j :: i < j <= |p| ==> !IterationAt(n, p, j))
      ensures e.adapter == At(n, p[..i]).adapter
    {
      if i == 0 {
        assert forall j :: !IterationAt(child, q, j);
        assert p[..0] == [];
      } else {
        assert forall j :: i - 1 < j <= |q| ==> !IterationAt(child, q, j);
      }
    }
  }

  /** Every displayed node of the stored tree is shown as `ShownAlong` describes. */
  lemma {:induction false} ConvertAlong(n: Node, p: Path, inIteration: bool, adapter: Option<string>)
    requires ValidPath(n, p) && Displayed(p)
    ensures ShownAlong(n, p, inIteration, adapter)
    decreases |p|
  {
    if |p| == 0 {
      ShownAtTop(n, inIteration, adapter);
    } else {
      var s, q := p[0], p[1..];
      assert p == [s] + q;
      PathCons(n, s, q);
      match s
      case Attr(k) =>
        assert q == [] && p == [Attr(k)];
        ShownAttribute(n, k, inIteration, adapter);
      case Child(k) =>
        assert Displayed(q) by {
          assert forall i :: 0 <= i < |q| - 1 ==> q[i] == p[i + 1];
        }
        ConvertAlong(n.children[k], q, inIteration || IsIteration(n), if IsIteration(n) then n.adapter else adapter);
        ShownChild(n, k, q, inIteration, adapter);
    }
  }
}

=== FILE: wrappers.dfy ===
/** Failure-carrying result types shared by the tree editor and the customer adapter. */
module Wrappers {

  /** A value that may be missing: PHP's `false`/`null` "not found" results. */
  datatype Option<+T> = None | Some(value: T)

  /** The outcome of a step that either yields a value or fails with an error. */
  datatype Result<+T, +E> = Ok(value: T) | Err(error: E)
}
